=== FILE: README.md ===
# SnipForge tags, search, variables, autocomplete and import/export in Dafny

SnipForge is a desktop snippet manager. Each stored command has a title, a
body that may contain `{{variable}}` placeholders, an optional description
and language, and its tags kept as a JSON array in a text column. This
project models the renderer's pure utility layer:

- **tags**: normalising a tag (trim, then lower-case); normalising a list of
  tags (dropping empty and duplicate tags, keeping first occurrences);
  reading the tag column as JSON and writing it back; the sorted set of all
  tags; filtering commands by tags; and prefix suggestions.
- **search query language**: `tag:`, `title:` and `body:` prefixes,
  segments joined by `|`, comma-separated tags inside a `tag:` clause, and
  the AND filter over commands.
- **placeholders**: extracting variable names, testing for placeholders,
  and substituting values. The regular expression `{{([^}]+)}}` is modelled
  by a two-state scanner, which is proved equal to a leftmost-match
  reference scan.
- **autocomplete**: the tag input, the tag under the cursor, the inline
  ghost-text suggestion, the keys that trigger completion, and completion
  inside a `tag:` clause of a search query.
- **import/export**: building the export document, validating an imported
  document, converting it into rows to insert, and the export file name.

Modules:

| module | what it holds |
|---|---|
| `Wrappers` | `Option` and `Result` |
| `Text` | the JavaScript string operations the code relies on: `trim`'s whitespace set, `toLowerCase`, `split`, `join`, `indexOf`/`lastIndexOf`, `substring` clamping, UTF-16 `length` and the default `sort` order |
| `Seqs` | filter, de-duplication, subsequence, `slice` and `map` |
| `Json` | JSON values, a reader for JSON text (as `JSON.parse` does it, except that a lone surrogate escape is rejected) and the writer for string arrays (as `JSON.stringify` does it) |
| `Commands` | the stored command record |
| `Tags`, `SearchParser`, `Variables`, `Autocomplete`, `ImportExport` | the five utility files |

How JavaScript behaviour is represented:

- **Exceptions.** A `try`/`catch` that turns an exception into `[]` or
  `false` becomes an explicit case. An exception the caller sees becomes a
  `Result` failure (importing) or an error value (validating).
- **Values of unknown shape.** Values typed `any`, such as a parsed import
  file, are `Json.Value`. JavaScript truthiness and property lookup on
  them are modelled explicitly; when a key is repeated, the last member
  wins.
- **The clock.** The clock is a parameter: `exportCommands` takes the
  export timestamp, and `generateExportFilename` takes the ISO timestamp
  it would read.

## Model

| member | source | states |
|---|---|---|
| Tags.NormalizeTag | src/utils/tags.ts:15-17 | The normalised tag is trimmed and has no upper-case letter. It is empty exactly when the tag is all whitespace, and it is never longer than the tag. |
| Tags.NormalizeTagFixpoint | src/utils/tags.ts:15-17 | A tag is left unchanged by normalisation if and only if it is already trimmed and lower-case. |
| Tags.NormalizeTagIdempotent | src/utils/tags.ts:15-17 | Normalising twice gives the same tag as normalising once. |
| Tags.NormalizeTags | src/utils/tags.ts:28-35 | The result has no duplicates, and every tag in it is non-empty and normalised. A string belongs to it exactly when it is the non-empty normal form of some input tag. |
| Tags.NormalizeTagsMembership | src/utils/tags.ts:28-35 | `t` is in the normalised list if and only if `t` is non-empty and is the normal form of some input tag. |
| Tags.NormalizeTagsOrder | src/utils/tags.ts:28-35 | Normalised tags keep the order of their first occurrence among the normal forms of the input. |
| Tags.NormalizeTagsIdempotent | src/utils/tags.ts:28-35 | Normalising an already normalised list changes nothing. |
| Tags.NormalizeTagsCanonical | src/utils/tags.ts:28-35 | A duplicate-free list of non-empty normalised tags comes back unchanged. |
| Tags.ParseTagsFromJson | src/utils/tags.ts:46-57 | Text that is not JSON gives `[]`. A JSON value that is not an array gives `[]`. An array holding a non-string gives `[]`, because `trim` throws and the exception is caught. An array of strings gives the normalised strings. The result is always a list of distinct, non-empty, normalised tags. |
| Tags.ParseTagsToJson | src/utils/tags.ts:46-70 | Reading back the JSON that `tagsToJson` writes gives exactly the normalised input tags. |
| Tags.TagsToJsonStable | src/utils/tags.ts:46-70 | Writing the tags read back from `tagsToJson` text reproduces the same text. |
| Json.DecodeEscapedPair | src/utils/tags.ts:48 | An escaped surrogate pair in a tag array, such as `\ud83d\ude00`, reads as the one supplementary character it encodes. |
| Json.DecodeEncodeStrings | src/utils/tags.ts:67-70 | For any strings, including ones that need escapes, the JSON text written for a string array reads back as that array. |
| Tags.SortDistinct | src/utils/tags.ts:86 | Sorting the collected set gives a strictly increasing sequence, in UTF-16 code-unit order, with the same members. |
| Tags.SortedUnique | src/utils/tags.ts:86 | Two strictly sorted sequences with the same members are equal, so the sorted tag list is determined by its set of tags. |
| Tags.TagsOf | src/utils/tags.ts:79-84 | The collected tags are exactly the tags that some command's tag column yields. |
| Tags.GetAllTags | src/utils/tags.ts:78-87 | The result is strictly sorted and duplicate-free. It holds exactly the tags that some command's tag column yields. |
| Tags.FilterCommandsByTags | src/utils/tags.ts:100-116 | With no filter tags, the commands come back unchanged. Otherwise the result keeps the original order and holds exactly the commands whose parsed tags contain the normal form of every non-blank filter tag, each as many times as it occurs in the input. |
| Tags.HasAllTagsSpec | src/utils/tags.ts:108-115 | A command passes the tag filter if and only if every non-blank filter tag's normal form is one of its parsed tags. |
| Tags.SuggestTags | src/utils/tags.ts:129-145 | The suggestions are a subsequence of the existing tags, each starting with the normalised input. For a non-negative limit there are at most `maxSuggestions` of them. For a blank input and a non-negative limit, they are the first `maxSuggestions` existing tags. For a non-negative limit, three more facts hold. When fewer than the limit are returned, every matching tag is among them. When a matching tag is left out, the limit was reached and every suggestion comes from before that tag. A matching tag with fewer than `maxSuggestions` matches before it is the suggestion at that count. For a limit of at least 1, the first suggestion is the first matching tag. For a negative limit, as `slice(0, n)` does, that many matches are dropped from the end, leaving none when there are no more matches than that. For any limit, a matching tag with `k` matches before it is suggestion `k` whenever there are more than `k` suggestions. Repeated tags are therefore counted by position. |
| Tags.SuggestMatching | src/utils/tags.ts:140-144 | The filter-then-slice result is a subsequence of the existing tags, and every suggestion has the prefix. It is complete when under the limit, and it starts with the first tag that has the prefix. A tag with the prefix is left out only when the limit is full of tags that come before it. A tag with the prefix that has fewer than the limit of such tags before it is the suggestion at that count. |
| Tags.SuggestPositions | src/utils/tags.ts:136-144 | For any limit, the filter-then-slice suggestions are the leading matches in order. A negative limit leaves the number of matches plus the limit, or none. |
| Tags.SuggestRepeatedTag | src/utils/tags.ts:140-144 | For matching tags `a, b, a` and a limit of 2, the suggestions are `a, b`: the repeat of `a` does not take the second place. |
| SearchParser.MatchPrefix | src/utils/searchParser.ts:30 | Returns kind `k` and value `v` exactly when the segment matches `^(tag\|title\|body):(.*)$` with that kind and capture. The capture may not cross a line terminator. |
| SearchParser.SegmentFilters | src/utils/searchParser.ts:27-49 | An empty segment gives nothing. A prefixed segment gives a filter of that kind with the trimmed value, or nothing when the value is blank. Any other segment gives an `all` filter on the whole segment. |
| SearchParser.ParseSearchQuery | src/utils/searchParser.ts:16-56 | `hasFilters` holds exactly when there is a filter, and a blank query has none. Every filter value is non-empty, trimmed and free of `\|`. There is at most one filter per `\|`-segment. |
| SearchParser.ParseSearchQuerySegments | src/utils/searchParser.ts:21-50 | The filters are the segment filters of the trimmed `\|`-pieces, taken in order. |
| SearchParser.ParseSearchQueryPipe | src/utils/searchParser.ts:24 | Parsing `a\|b` gives the filters of `a` followed by those of `b`. |
| SearchParser.ParseSearchQuerySingle | src/utils/searchParser.ts:24-49 | A query without `\|` gives the filter of its trimmed text. |
| SearchParser.ScanTags | src/utils/searchParser.ts:83-87 | The scan of a tag array succeeds exactly when some string element, lower-cased, contains the search tag and every element before it is a string. A non-string reached first throws, and the catch turns that into "no match". |
| SearchParser.ScanTagsStrings | src/utils/searchParser.ts:83-87 | On an array of strings, the scan succeeds if and only if some tag, lower-cased, contains the search tag. |
| SearchParser.SearchTags | src/utils/searchParser.ts:80 | There is one search tag per comma-separated piece of the value. Every search tag is trimmed, has no upper-case letter and holds no comma. |
| SearchParser.SearchTagsComma | src/utils/searchParser.ts:80 | The search tags of `a,b` are those of `a` followed by those of `b`. |
| SearchParser.FilterCommandsBySearch | src/utils/searchParser.ts:62-107 | Without filters, the commands come back unchanged. With filters, the result keeps the original order and holds exactly the commands that every filter accepts, each as many times as it occurs in the input. |
| SearchParser.SearchBlankQuery | src/utils/searchParser.ts:16-69 | Searching with a blank query returns all commands. |
| SearchParser.SearchConjunction | src/utils/searchParser.ts:71-105 | Filtering by `f1 + f2` equals filtering by `f1` and then filtering the result by `f2`. |
| SearchParser.SearchPipe | src/utils/searchParser.ts:16-107 | When both halves have filters, searching `a\|b` equals searching `a` and then searching that result for `b`. |
| SearchParser.TagMatchesComma | src/utils/searchParser.ts:76-89 | `tag:a,b` accepts a command if and only if `tag:a` and `tag:b` both accept it. |
| SearchParser.TagMatchesArray | src/utils/searchParser.ts:76-89 | On a command whose tag column is a JSON array, a `tag:` filter accepts it exactly when the scan finds every search tag. |
| SearchParser.TagMatchesCanonical | src/utils/searchParser.ts:76-89 | On an array of lower-case tags, a `tag:` filter asks that each search tag be a substring of some stored tag. |
| SearchParser.TagMatchesStored | src/utils/searchParser.ts:76-89 | For a tag column written by `tagsToJson`, a `tag:` filter asks that each search tag be a substring of some normalised tag. |
| Variables.LeadingMatch | src/utils/variables.ts:17 | Returns `Some(n)` exactly when the text begins with a `{{…}}` match whose name has `n` characters. |
| Variables.ScanIsRegex | src/utils/variables.ts:17-21 | The two-state scanner produces the same tokens as repeated leftmost matching of `{{([^}]+)}}`. |
| Variables.RegexScanRender | src/utils/variables.ts:17-21 | Scanning loses nothing: the tokens spell the text back. Every placeholder name is non-empty and free of `}`. |
| Variables.TokensRender | src/utils/variables.ts:17-21 | The same holds for the scanner used by the three operations. |
| Variables.RegexScanLiteral | src/utils/variables.ts:17 | Text without `{` scans as plain characters, and the scan continues unchanged after it. |
| Variables.RegexScanPlaceholder | src/utils/variables.ts:17 | `{{name}}` with a non-empty name free of `}` scans as one placeholder, and scanning continues after its closing braces. |
| Variables.ExtractVariables | src/utils/variables.ts:16-29 | The names are distinct, non-empty, trimmed and free of `}`. A string is among them exactly when it is the non-empty trimmed name of some placeholder. |
| Variables.ExtractVariablesReference | src/utils/variables.ts:16-29 | The loop's result equals the trimmed placeholder names with empty ones dropped and duplicates removed, keeping first occurrences. |
| Variables.ExtractVariablesOrder | src/utils/variables.ts:21-25 | Extracted names appear in the order of their first occurrence in the text. |
| Variables.HasVariablesPattern | src/utils/variables.ts:62-64 | `hasVariables` holds exactly when some position in the text starts a match of `{{[^}]+}}`. |
| Variables.ExtractImpliesHas | src/utils/variables.ts:16-64 | If any variable is extracted, the text has variables. |
| Variables.BlankNameCounterexample | src/utils/variables.ts:16-64 | The converse fails: `{{ }}` has a variable, yet none is extracted, because the trimmed name is empty. |
| Variables.NoCloseNoVariables | src/utils/variables.ts:17-64 | Text without `}` has no variables and yields no names. |
| Variables.SubstituteVariables | src/utils/variables.ts:45-50 | With no values, or only empty values, substitution leaves the text unchanged. |
| Variables.SubstituteBlank | src/utils/variables.ts:48 | An empty value keeps the placeholder as written. |
| Variables.SubstituteNoVariables | src/utils/variables.ts:45-50 | Text without placeholders is unchanged, whatever the values. |
| Variables.SubstituteLiteral | src/utils/variables.ts:45-50 | A prefix without `{` passes through substitution untouched. |
| Variables.SubstitutePlaceholder | src/utils/variables.ts:46-49 | A placeholder becomes the value under its trimmed name when that value is non-empty, and is otherwise kept as written. The rest of the text is substituted independently. |
| Autocomplete.BestCompletion | src/utils/autocomplete.ts:61-63 | A completion is an available tag that starts with the normalised partial tag and differs from it. |
| Autocomplete.BestCompletionFirstMatch | src/utils/autocomplete.ts:61-74 | With a limit of at least 1, the completion is the first available tag with the normalised prefix, unless it equals the normalised partial tag. |
| Autocomplete.AutocompleteTagInput | src/utils/autocomplete.ts:29-91 | Blank input comes back unchanged with no suggestion. Otherwise the last tag is the trimmed text after the last separator, and the suggestion is its best completion. The input was completed exactly when there is a suggestion; when there is none, the input is returned unchanged. |
| Autocomplete.AutocompleteSuggestion | src/utils/autocomplete.ts:61-74 | A completed input's suggestion is an available tag that extends the normalised last tag. |
| Autocomplete.CompletedEnding | src/utils/autocomplete.ts:74-83 | The completed text ends with the best suggestion. When a separator is added after completion, it ends with the suggestion, the separator and a space. |
| Autocomplete.AutocompleteResplit | src/utils/autocomplete.ts:56-83 | Splitting the completed text again gives back the earlier tags, then the suggestion, then an empty tag when a trailing separator was added. |
| Autocomplete.GetCurrentTag | src/utils/autocomplete.ts:104-117 | The current tag is trimmed and holds no separator. |
| Autocomplete.GetCurrentTagIndex | src/utils/autocomplete.ts:104-117 | It is the trimmed text between the last separator before the cursor and the cursor, or before the cursor when there is no separator. |
| Autocomplete.GetTagSuggestionAtCursor | src/utils/autocomplete.ts:128-140 | The suggestion is the first tag that extends the normalised current tag, unless it equals that tag. |
| Autocomplete.BlankToSeparatorIndex | src/utils/autocomplete.ts:174-176 | The text up to the next separator is blank exactly when only whitespace lies between the cursor and the next separator or the end. |
| Autocomplete.AtEndOfTag | src/utils/autocomplete.ts:174-176 | The cursor is at the end of a tag exactly when only whitespace lies before the next separator. |
| Autocomplete.GetInlineSuggestion | src/utils/autocomplete.ts:151-215 | The text before and after the cursor make up the input, and the split is at the clamped cursor. A suggestion is offered only at the end of a non-empty tag, and then it is the tag suggestion at the cursor. The completion text is the suggestion minus the typed tag, and it is non-empty. |
| Autocomplete.CompletionText | src/utils/autocomplete.ts:204-205 | A suggestion equals the lower-cased typed tag followed by a non-empty completion text. |
| Autocomplete.ShouldTriggerAutocomplete | src/utils/autocomplete.ts:224-240 | Completion triggers exactly when the key is none of the six editing and arrow keys and the input has a non-whitespace character. |
| Autocomplete.OpenTagClause | src/utils/autocomplete.ts:257-263 | A position is returned exactly when the text before the cursor ends inside a `tag:` clause with no `\|` after it, and then it is the last `tag:`. |
| Autocomplete.LastKeywordOpen | src/utils/autocomplete.ts:257-263 | If any `tag:` is followed by no `\|`, so is the last one, so `lastIndexOf('tag:')` finds the clause the pattern matched. |
| Autocomplete.ClauseParts | src/utils/autocomplete.ts:266-268 | The typed tag is the part after the last comma of the clause, or the whole clause. Together with the kept prefix it makes up the clause. |
| Autocomplete.AutocompleteSearchQuery | src/utils/autocomplete.ts:246-298 | Outside a `tag:` clause nothing is completed. Inside an open `tag:` clause the suggestion is the best completion of the trimmed tag being typed, so a completion is made exactly when that tag has one. When a completion is made, the completed text and the suggestion are both present, and the suggestion is an available tag. |
| Autocomplete.SearchQueryFirstMatch | src/utils/autocomplete.ts:256-277 | Inside an open `tag:` clause, the search suggestion is the first available tag that starts with the normalised tag being typed, and there is none when that tag equals it. |
| Autocomplete.SearchCompletionShape | src/utils/autocomplete.ts:263-291 | A completion replaces the tag typed after the last comma of the clause with the best completion of its trimmed text. Everything before it and everything after the cursor is kept. |
| ImportExport.CheckCommand | src/utils/importExport.ts:139-172 | A command passes exactly when it is valid. A falsy or non-object command is reported as not an object. A length error carries the UTF-16 length of the non-empty string field and exceeds that field's limit. The checks run in a fixed order and the first failing one names the problem: not an object, then title, body, tags, title length, body length, description length, language. Each problem is reported exactly when the checks before it pass and it fails. |
| ImportExport.CheckCommands | src/utils/importExport.ts:139-173 | It reports the lowest failing index with that command's problem, or nothing when every command passes. |
| ImportExport.ValidateExportData | src/utils/importExport.ts:120-176 | The document is accepted exactly when it is an object with a truthy version and a commands array of at most 50000 valid commands. The document checks run in order: not an object, then a missing version, then a missing commands array, then too many commands (reported with their count), and each is reported exactly when the checks before it pass and it fails. A bad command is reported at the lowest failing index, with the problem `CheckCommand` gives for it. |
| ImportExport.ImportTags | src/utils/importExport.ts:108 | A missing or falsy tags field reads as no tags. An array of strings reads as those strings. Anything else throws. |
| ImportExport.ImportOne | src/utils/importExport.ts:99-111 | A command imports exactly when its title and body are non-empty strings, its description is falsy or a string, and its tags read. A non-null command lacking a truthy title or body fails with "missing title or body". Title, body and description are trimmed. The tags are stored as `tagsToJson` of the tags read. A truthy language is kept and a missing one becomes `plaintext`. |
| ImportExport.ImportedTags | src/utils/importExport.ts:108 | Reading the stored tag column back gives the normalised imported tags. |
| ImportExport.ImportAll | src/utils/importExport.ts:99-111 | The import succeeds exactly when every command imports, and then row `i` is command `i` imported. |
| ImportExport.ImportCommands | src/utils/importExport.ts:94-112 | A document without a commands array is rejected as invalid. Otherwise the import succeeds exactly when every command imports, with one row per command in order. |
| ImportExport.OrDefault | src/utils/importExport.ts:66-68 | `x \|\| fallback` gives a non-empty value unchanged, and the fallback otherwise. |
| ImportExport.ExportOne | src/utils/importExport.ts:63-71 | Title, body and both timestamps are copied. The description defaults to empty. A non-empty stored language is kept and a missing or empty one becomes `plaintext`. The tags are the distinct normalised tags of the tag column. |
| ImportExport.ExportCommands | src/utils/importExport.ts:46-86 | The export has version `2.0` and the given timestamp. Its count equals the number of exported commands, which are the tag-filtered commands converted one by one. `filter_tags` is present exactly when filter tags were given, and then it holds them normalised. |
| ImportExport.ReimportOne | src/utils/importExport.ts:63-111 | An exported command imports back exactly when its title and body are non-empty. It comes back with trimmed fields, the normalised tags as JSON and the defaulted language. |
| ImportExport.ExportImport | src/utils/importExport.ts:46-112 | Importing an export succeeds exactly when every exported title and body is non-empty. Then the rows are the exported commands, re-imported one by one in order. |
| ImportExport.ValidOne | src/utils/importExport.ts:63-172 | An exported command passes validation exactly when its title and body are non-empty and within their limits and its description is within its limit. |
| ImportExport.ExportValidates | src/utils/importExport.ts:46-176 | An export passes validation exactly when it has at most 50000 commands and each one fits the limits. |
| ImportExport.ValidatedImport | src/utils/importExport.ts:94-176 | Once a document passes validation, importing it succeeds exactly when every description is falsy or a string and every tag array holds only strings. Every imported language is then a string. |
| ImportExport.ValidateDocument | src/utils/importExport.ts:120-176 | A one-command document with a version passes validation exactly when its command is valid. |
| ImportExport.ImportDocument | src/utils/importExport.ts:94-112 | Importing a one-command document fails or succeeds exactly as importing the command does. |
| ImportExport.NonStringDescriptionAccepted | src/utils/importExport.ts:104-167 | A document whose description is a truthy non-string passes validation, yet its import throws a `TypeError`. |
| ImportExport.NonStringTagAccepted | src/utils/importExport.ts:108-154 | A document whose tags array holds a non-string passes validation, yet its import throws a `TypeError`. |
| ImportExport.BlankTitleImported | src/utils/importExport.ts:100-146 | An all-whitespace title passes validation and the import, and is stored as an empty title. |
| ImportExport.GenerateExportFilename | src/utils/importExport.ts:195-199 | The date part is the timestamp up to its first `T`, which it contains no `T` of. The name is `snipforge-commands`, then `_` and the tags joined by `-` when there are tags, then `_` and the date with `.json`. |
| ImportExport.FilenameParts | src/utils/importExport.ts:195-199 | When no tag and no timestamp contains `_`, splitting the name at `_` gives the stem, the joined tags when present, and the dated suffix. When no tag contains `-`, the tag part splits back into the tags. |

## Left out

- The Electron main process, the preload bridge and the SQLite database
  layer (`electron/`): storage and IPC are outside the utility layer.
- Fuzzy search (`src/utils/fuzzySearch.ts`) depends on Fuse.js's scoring,
  which is foreign code. The one piece of its own logic is that a blank
  query returns the commands unchanged (`src/utils/fuzzySearch.ts:31-33`),
  which is the same rule `SearchParser.SearchBlankQuery` states for the
  prefix search.
- `createExportBlob` (`src/utils/importExport.ts:184-187`) builds a browser
  `Blob` from pretty-printed JSON. The export is modelled as the
  `Json.Value` that would be serialised, and imports start from a parsed
  value. The full JSON text of an export document is not produced.
- The clock: `new Date().toISOString()` becomes the `now` parameter of
  `ImportExport.ExportCommands` and `ImportExport.GenerateExportFilename`.
- `toLowerCase` is modelled on ASCII letters only. Other scripts' case
  mappings, including ones that change a string's length, are not
  modelled.
- Strings are sequences of code points. `length` is computed as UTF-16
  code units where the limits depend on it (`Text.Utf16Length`), and
  sorting compares UTF-16 code units. Cursor positions and `substring`
  indices are taken as code-point indices, so a cursor that points inside
  a surrogate pair is not modelled.
- `Autocomplete.AutocompleteTagInput` and the other autocomplete members
  take the separator as a single character (default `,`). The source
  accepts any string.
- The JSON reader decides a number's truthiness from its digits
  (`ImportExport.Truthy`). A literal such as `1e-400`, which underflows to
  zero in JavaScript, is treated as truthy.
- ImportExport.ImportOne: an imported language is kept as the JSON value
  found (any truthy value), not converted to a string, since the source
  passes it through untyped.
- ImportExport.ImportAll: when several commands fail, the contract does
  not say which error is reported, only that the import fails.
- The documentation example at `src/utils/autocomplete.ts:27` shows the
  tags joined by `,` alone. The code joins them with the separator and a
  space (line 78), and the model follows the code.
- The documentation of `filterCommandsByTags` (`src/utils/tags.ts:94`)
  says a command is kept when it has at least one matching tag. The code
  keeps it only when it has every filter tag (`every`, line 112), and the
  model follows the code.
- `parseTagsFromCommand` (`src/utils/importExport.ts:204-214`) has the
  same body as `parseTagsFromJson` and is modelled by
  `Tags.ParseTagsFromJson`.
- Variables.SubstituteVariables: `values` stands for the object's own
  properties. The source's lookup `values[variableName]` also finds names
  inherited from `Object.prototype` (`{{toString}}`, `{{constructor}}`,
  `{{__proto__}}`), which are replaced by the text of a function or an
  object. The model does not promise that. The same holds for
  Variables.SubstituteBlank and Variables.SubstitutePlaceholder.
- Variables.SubstituteBlank: as for Variables.SubstituteVariables,
  inherited `Object.prototype` names are not modelled.
- Variables.SubstitutePlaceholder: as for Variables.SubstituteVariables,
  inherited `Object.prototype` names are not modelled.
- Tags.ParseTagsFromJson: a string's characters are Unicode scalar values,
  so a `\u` escape of a lone surrogate has no character. `JSON.parse`
  accepts one, but the model rejects the text, and that tag column reads
  as `[]`. Escaped surrogate pairs are combined into one character.
- The regular-expression engine itself: the three placeholder operations
  are modelled by a scanner that is proved equal to leftmost matching of
  `{{([^}]+)}}` (`Variables.ScanIsRegex`). Other patterns are not
  modelled.

=== FILE: autocomplete.dfy ===
/** Tag autocomplete: completing the last tag of a separator-delimited tag
    input, finding the tag under the cursor and the ghost text to show after
    it, deciding whether a key press should trigger completion, and
    completing the tag being typed inside a `tag:` clause of a search query.
    Every completion is the first available tag that starts with the
    normalised partial tag, offered only when it adds something. */
module Autocomplete {
  import opened Wrappers
  import opened Text
  import opened Seqs
  import opened Tags

  /** The options of `autocompleteTagInput`. The separator is one character. */
  datatype Options = Options(separator: char, maxSuggestions: int, addSeparatorAfterCompletion: bool)

  const DefaultOptions := Options(',', 1, true)

  /* ------------------------------------------------------- completion */

  /** The position of the first tag of `tags` that starts with `prefix`,
      or -1 when there is none. */
  function FirstMatchAt(tags: seq<string>, prefix: string): (r: int)
    ensures -1 <= r < |tags|
    ensures r >= 0 ==> StartsWith(tags[r], prefix)
    ensures forall j :: 0 <= j < |tags| && (r < 0 || j < r) ==> !StartsWith(tags[j], prefix)
  {
    if |tags| == 0 then -1
    else if StartsWith(tags[0], prefix) then 0
    else
      var r := FirstMatchAt(tags[1..], prefix);
      assert forall j :: 0 < j < |tags| ==> tags[j] == tags[1..][j - 1];
      if r == -1 then -1 else r + 1
  }

  /** The first tag of `tags` that starts with `prefix`, if any. */
  function FirstMatch(tags: seq<string>, prefix: string): Option<string> {
    var k := FirstMatchAt(tags, prefix);
    if k == -1 then None else Some(tags[k])
  }

  /** A match is worth offering only when it differs from what was typed. */
  function Offer(found: Option<string>, typed: string): Option<string> {
    if found.Some? && found.value != typed then found else None
  }

  /** The completion the four entry points share: the best of the suggested
      tags for `partial`, unless there is none or it is already what the
      normalised partial tag says. */
  function BestCompletion(partial: string, availableTags: seq<string>, maxSuggestions: int): (r: Option<string>)
    ensures r.Some? ==> r.value in availableTags
    ensures r.Some? ==> StartsWith(r.value, NormalizeTag(partial)) && r.value != NormalizeTag(partial)
  {
    var suggestions := SuggestTags(partial, availableTags, maxSuggestions);
    SubsequenceMembers(suggestions, availableTags);
    if |suggestions| == 0 || suggestions[0] == NormalizeTag(partial) then None
    else
      assert suggestions[0] in suggestions;
      Some(suggestions[0])
  }

  /** A list of suggestions drawn from `tags`, all starting with `prefix`,
      whose head comes no later than any matching tag, starts with the first
      match. */
  lemma SuggestionsHead(suggestions: seq<string>, tags: seq<string>, prefix: string)
    requires forall t :: t in suggestions ==> t in tags && StartsWith(t, prefix)
    requires forall j :: 0 <= j < |tags| && StartsWith(tags[j], prefix) ==>
               |suggestions| > 0 && suggestions[0] in tags[..j + 1]
    ensures |suggestions| == 0 <==> FirstMatch(tags, prefix).None?
    ensures |suggestions| > 0 ==> suggestions[0] == FirstMatch(tags, prefix).value
  {
    var k := FirstMatchAt(tags, prefix);
    if |suggestions| > 0 {
      var s0 := suggestions[0];
      assert s0 in suggestions;
      var i :| 0 <= i < |tags| && tags[i] == s0;
      assert k >= 0;
      var i' :| 0 <= i' < k + 1 && tags[..k + 1][i'] == s0;
      assert tags[i'] == s0;
    }
  }

  /** With room for at least one suggestion, the completion is the first
      available tag that starts with the normalised partial tag, offered
      when it differs from it. */
  lemma BestCompletionFirstMatch(partial: string, availableTags: seq<string>, maxSuggestions: int)
    requires maxSuggestions >= 1
    ensures BestCompletion(partial, availableTags, maxSuggestions)
            == Offer(FirstMatch(availableTags, NormalizeTag(partial)), NormalizeTag(partial))
  {
    var suggestions := SuggestTags(partial, availableTags, maxSuggestions);
    SubsequenceMembers(suggestions, availableTags);
    SuggestionsHead(suggestions, availableTags, NormalizeTag(partial));
  }

  /* ---------------------------------------------- the tag input box */

  datatype TagCompletion = TagCompletion(
    completed: string,
    wasCompleted: bool,
    suggestion: Option<string>,
    originalLastTag: string)

  lemma LastOfTrimEach(pieces: seq<string>, last: string)
    requires |pieces| > 0 && pieces[|pieces| - 1] == last
    ensures TrimEach(pieces)[|pieces| - 1] == Trim(last)
  {
  }

  /** `autocompleteTagInput`: replace the last separator-delimited tag by its
      completion, re-joining the trimmed tags with the separator and a
      blank, and optionally appending one more separator and blank. */
  function AutocompleteTagInput(input: string, availableTags: seq<string>, options: Options): (r: TagCompletion)
    ensures AllWhitespace(input) ==> r == TagCompletion(input, false, None, [])
    ensures !AllWhitespace(input) ==> r.originalLastTag == GetCurrentTag(input, |input|, options.separator)
    ensures !AllWhitespace(input) ==>
              r.suggestion == BestCompletion(r.originalLastTag, availableTags, options.maxSuggestions)
    ensures r.wasCompleted <==> r.suggestion.Some?
    ensures !r.wasCompleted ==> r.completed == input
  {
    var sep := options.separator;
    if Trim(input) == [] then TagCompletion(input, false, None, [])
    else
      var tags := TrimEach(Split(input, sep));
      var lastTag := tags[|tags| - 1];
      LastOfTrimEach(Split(input, sep), Split(input, sep)[|tags| - 1]);
      BeforeAll(input, |input|);
      match BestCompletion(lastTag, availableTags, options.maxSuggestions)
      case None => TagCompletion(input, false, None, lastTag)
      case Some(best) =>
        var glue := [sep, ' '];
        var joined := Join(tags[..|tags| - 1] + [best], glue);
        TagCompletion(if options.addSeparatorAfterCompletion then joined + glue else joined, true, Some(best), lastTag)
  }

  /** A completion is an available tag that extends the normalised last tag. */
  lemma AutocompleteSuggestion(input: string, availableTags: seq<string>, options: Options)
    ensures var r := AutocompleteTagInput(input, availableTags, options);
      r.wasCompleted ==>
        && r.suggestion.value in availableTags
        && StartsWith(r.suggestion.value, NormalizeTag(r.originalLastTag))
        && r.suggestion.value != NormalizeTag(r.originalLastTag)
  {
    var r := AutocompleteTagInput(input, availableTags, options);
    if r.wasCompleted {
      var b := BestCompletion(r.originalLastTag, availableTags, options.maxSuggestions);
    }
  }

  /** The pieces after the first, each behind the blank the glue adds. */
  function Spaced(rest: seq<string>): (r: seq<string>)
    ensures |r| == |rest|
    ensures forall i :: 0 <= i < |rest| ==> r[i] == [' '] + rest[i]
  {
    seq(|rest|, i requires 0 <= i < |rest| => [' '] + rest[i])
  }

  /** A leading blank joins the first piece of a split on another character. */
  lemma SplitBlank(tail: string, sep: char)
    requires sep != ' '
    ensures var rest := Split(tail, sep);
      Split([' '] + tail, sep) == [[' '] + rest[0]] + rest[1..]
  {
    assert ([' '] + tail)[1..] == tail;
  }

  /** Joining with separator-and-blank is joining with the separator the
      pieces after the first, each behind its blank. */
  lemma {:induction false} JoinSpaced(parts: seq<string>, sep: char)
    requires |parts| >= 1
    ensures Join(parts, [sep, ' ']) == Join([parts[0]] + Spaced(parts[1..]), [sep])
  {
    if |parts| > 1 {
      var glue := [sep, ' '];
      JoinSpaced(parts[1..], sep);
      var sp := Spaced(parts[2..]);
      assert Spaced(parts[1..]) == [[' '] + parts[1]] + sp;
      assert ([parts[0]] + Spaced(parts[1..]))[1..] == [[' '] + parts[1]] + sp;
      JoinCons(' ', parts[1], sp, [sep]);
      assert ([parts[1]] + Spaced(parts[1..][1..])) == [parts[1]] + sp;
    }
  }

  /** A character in front of the first piece comes out in front of the join. */
  lemma JoinCons(c: char, first: string, rest: seq<string>, glue: string)
    ensures Join([[c] + first] + rest, glue) == [c] + Join([first] + rest, glue)
  {
    if |rest| > 0 {
      assert ([[c] + first] + rest)[1..] == rest;
      assert ([first] + rest)[1..] == rest;
    }
  }

  /** Splitting text joined with separator-and-blank gives the pieces back,
      each after the first behind its blank. */
  lemma SplitJoinSpaced(parts: seq<string>, sep: char)
    requires |parts| >= 1 && sep != ' '
    requires forall p :: p in parts ==> sep !in p
    ensures Split(Join(parts, [sep, ' ']), sep) == [parts[0]] + Spaced(parts[1..])
  {
    JoinSpaced(parts, sep);
    var spaced := [parts[0]] + Spaced(parts[1..]);
    forall p | p in spaced ensures sep !in p {
      var i :| 0 <= i < |spaced| && spaced[i] == p;
      if i > 0 {
        assert parts[i] in parts;
        assert p == [' '] + parts[i];
      }
    }
    SplitJoin(spaced, sep);
  }

  /** The blanks the glue adds disappear again when the pieces are trimmed. */
  lemma TrimSpaced(parts: seq<string>)
    requires |parts| >= 1
    ensures TrimEach([parts[0]] + Spaced(parts[1..])) == TrimEach(parts)
  {
    forall i | 1 <= i < |parts|
      ensures TrimEach([parts[0]] + Spaced(parts[1..]))[i] == TrimEach(parts)[i]
    {
      TrimLeadingBlank(parts[i]);
    }
  }

  /** Trimming already-trimmed tags, a suggestion and an empty tag. */
  lemma TrimParts(prior: seq<string>, best: string, add: bool)
    requires forall i :: 0 <= i < |prior| ==> IsTrimmed(prior[i])
    ensures TrimEach(if add then prior + [best] + [[]] else prior + [best])
            == prior + [Trim(best)] + (if add then [[]] else [])
  {
    TrimEachConcat(prior, [best]);
    TrimEachTrimmed(prior);
    assert TrimEach([best]) == [Trim(best)];
    if add {
      TrimEachConcat(prior + [best], [[]]);
      assert TrimEach([[]]) == [[]];
    }
  }

  /** Trimmed pieces stay as they are. */
  lemma TrimEachTrimmed(parts: seq<string>)
    requires forall i :: 0 <= i < |parts| ==> IsTrimmed(parts[i])
    ensures TrimEach(parts) == parts
  {
    assert forall i :: 0 <= i < |parts| ==> TrimEach(parts)[i] == parts[i];
  }

  /** Re-splitting the joined, trimmed tags and the suggestion gives them back. */
  lemma ResplitParts(prior: seq<string>, best: string, add: bool, sep: char)
    requires sep != ' ' && sep !in best
    requires forall i :: 0 <= i < |prior| ==> IsTrimmed(prior[i]) && sep !in prior[i]
    ensures var glue := [sep, ' '];
      var joined := Join(prior + [best], glue);
      TrimEach(Split(if add then joined + glue else joined, sep))
        == prior + [Trim(best)] + (if add then [[]] else [])
  {
    var glue := [sep, ' '];
    var parts := prior + [best];
    var whole := if add then parts + [[]] else parts;
    var joined := Join(parts, glue);
    if add {
      JoinAppend(parts, [], glue);
    }
    assert (if add then joined + glue else joined) == Join(whole, glue);
    assert forall p :: p in whole ==> sep !in p by {
      assert forall i :: 0 <= i < |prior| ==> whole[i] == prior[i];
    }
    SplitJoinSpaced(whole, sep);
    TrimSpaced(whole);
    TrimParts(prior, best, add);
  }

  /** Completion replaces the last tag and nothing else: splitting and
      trimming the completed text gives the earlier trimmed tags, then the
      trimmed suggestion, then an empty tag when a separator was appended. */
  lemma AutocompleteResplit(input: string, availableTags: seq<string>, options: Options)
    requires options.separator != ' '
    requires AutocompleteTagInput(input, availableTags, options).wasCompleted
    requires options.separator !in AutocompleteTagInput(input, availableTags, options).suggestion.value
    ensures var r := AutocompleteTagInput(input, availableTags, options);
      var tags := TrimEach(Split(input, options.separator));
      TrimEach(Split(r.completed, options.separator))
        == tags[..|tags| - 1] + [Trim(r.suggestion.value)]
           + (if options.addSeparatorAfterCompletion then [[]] else [])
  {
    var r := AutocompleteTagInput(input, availableTags, options);
    CompletedText(input, availableTags, options);
    SplitPiecesFree(input, options.separator);
    ResplitFrom(Split(input, options.separator), r.suggestion.value, options.addSeparatorAfterCompletion,
                options.separator, r.completed);
  }

  lemma ResplitFrom(pieces: seq<string>, best: string, add: bool, sep: char, completed: string)
    requires |pieces| > 0 && sep != ' ' && sep !in best
    requires forall i :: 0 <= i < |pieces| ==> sep !in pieces[i]
    requires var joined := Join(TrimEach(pieces)[..|pieces| - 1] + [best], [sep, ' ']);
      completed == if add then joined + [sep, ' '] else joined
    ensures TrimEach(Split(completed, sep))
            == TrimEach(pieces)[..|pieces| - 1] + [Trim(best)] + (if add then [[]] else [])
  {
    PriorTags(pieces, sep);
    ResplitParts(TrimEach(pieces)[..|pieces| - 1], best, add, sep);
  }

  /** What a completion writes: the earlier trimmed tags and the suggestion,
      joined with separator-and-blank, and optionally one more of those. */
  lemma CompletedText(input: string, availableTags: seq<string>, options: Options)
    requires AutocompleteTagInput(input, availableTags, options).wasCompleted
    ensures var r := AutocompleteTagInput(input, availableTags, options);
      var tags := TrimEach(Split(input, options.separator));
      var glue := [options.separator, ' '];
      var joined := Join(tags[..|tags| - 1] + [r.suggestion.value], glue);
      r.completed == if options.addSeparatorAfterCompletion then joined + glue else joined
  {
  }

  /** The completed text ends with the suggestion, followed by the separator
      and a blank when one is appended after completion. */
  lemma CompletedEnding(input: string, availableTags: seq<string>, options: Options)
    requires AutocompleteTagInput(input, availableTags, options).wasCompleted
    ensures var r := AutocompleteTagInput(input, availableTags, options);
      var ending := r.suggestion.value
                    + (if options.addSeparatorAfterCompletion then [options.separator, ' '] else []);
      |ending| <= |r.completed| && r.completed[|r.completed| - |ending|..] == ending
  {
    var r := AutocompleteTagInput(input, availableTags, options);
    var tags := TrimEach(Split(input, options.separator));
    var glue := [options.separator, ' '];
    CompletedText(input, availableTags, options);
    JoinEnding(tags[..|tags| - 1], r.suggestion.value, glue, options.addSeparatorAfterCompletion);
    assert (if options.addSeparatorAfterCompletion then glue else []) == if options.addSeparatorAfterCompletion then [options.separator, ' '] else [];
  }

  /** Joining tags that end with `best`, with the glue optionally appended,
      ends with `best` and that optional glue. */
  lemma JoinEnding(prior: seq<string>, best: string, glue: string, add: bool)
    ensures var joined := Join(prior + [best], glue);
      var text := if add then joined + glue else joined;
      var ending := best + (if add then glue else []);
      |ending| <= |text| && text[|text| - |ending|..] == ending
  {
    var head := if |prior| == 0 then [] else Join(prior, glue) + glue;
    if |prior| == 0 {
      assert prior + [best] == [best];
    } else {
      JoinAppend(prior, best, glue);
    }
    assert Join(prior + [best], glue) == head + best;
  }

  /** The tags before the last are trimmed and free of the separator. */
  lemma PriorTags(pieces: seq<string>, sep: char)
    requires |pieces| > 0
    requires forall i :: 0 <= i < |pieces| ==> sep !in pieces[i]
    ensures var prior := TrimEach(pieces)[..|pieces| - 1];
      forall i :: 0 <= i < |prior| ==> IsTrimmed(prior[i]) && sep !in prior[i]
  {
    var prior := TrimEach(pieces)[..|pieces| - 1];
    forall i | 0 <= i < |prior| ensures IsTrimmed(prior[i]) && sep !in prior[i] {
      assert prior[i] == Trim(pieces[i]);
      TrimSubset(pieces[i]);
    }
  }

  /* -------------------------------------------------- cursor position */

  /** `getCurrentTag`: the trimmed text between the last separator before the
      cursor (or the start) and the cursor, taken as the last piece of the
      text before the cursor split at the separator. A cursor outside the
      text is clamped into it, as `substring` does. */
  function GetCurrentTag(input: string, cursorPosition: int, separator: char): (r: string)
    ensures IsTrimmed(r) && separator !in r
  {
    var pieces := Split(Before(input, cursorPosition), separator);
    SplitLastFree(Before(input, cursorPosition), separator);
    TrimSubset(pieces[|pieces| - 1]);
    Trim(pieces[|pieces| - 1])
  }

  /** The tag under the cursor is what `lastIndexOf` and `substring` find:
      the trimmed text before the cursor when it holds no separator, and
      otherwise the trimmed text after the last separator. */
  lemma GetCurrentTagIndex(input: string, cursorPosition: int, separator: char)
    ensures var before := Before(input, cursorPosition);
      var k := LastIndexOf(before, separator);
      GetCurrentTag(input, cursorPosition, separator) == if k == -1 then Trim(before) else Trim(before[k + 1..])
  {
    SplitLastPiece(Before(input, cursorPosition), separator);
  }

  /** `getTagSuggestionAtCursor`: the completion of the tag under the cursor. */
  function GetTagSuggestionAtCursor(input: string, cursorPosition: int, availableTags: seq<string>, separator: char)
    : (r: Option<string>)
    ensures var current := GetCurrentTag(input, cursorPosition, separator);
      r == Offer(FirstMatch(availableTags, NormalizeTag(current)), NormalizeTag(current))
    ensures r.Some? ==> r.value != NormalizeTag(GetCurrentTag(input, cursorPosition, separator))
  {
    var current := GetCurrentTag(input, cursorPosition, separator);
    BestCompletionFirstMatch(current, availableTags, 1);
    BestCompletion(current, availableTags, 1)
  }

  datatype InlineSuggestion = InlineSuggestion(
    suggestion: Option<string>,
    completionText: Option<string>,
    beforeCursor: string,
    afterCursor: string,
    currentTag: string,
    isAtEndOfTag: bool)

  /** The text after the cursor holds only blanks up to the next separator. */
  predicate BlankToSeparator(after: string, separator: char) {
    |after| == 0 || after[0] == separator || (IsWhitespace(after[0]) && BlankToSeparator(after[1..], separator))
  }

  /** `after.indexOf(sep)` cuts exactly the run before the next separator. */
  lemma {:induction false} BlankToSeparatorIndex(after: string, separator: char)
    ensures var n := IndexOf(after, separator);
      AllWhitespace(if n == -1 then after else after[..n]) <==> BlankToSeparator(after, separator)
  {
    if |after| > 0 && after[0] != separator {
      var n := IndexOf(after[1..], separator);
      BlankToSeparatorIndex(after[1..], separator);
      var run := if n == -1 then after[1..] else after[1..][..n];
      assert (if n == -1 then after else after[..n + 1]) == [after[0]] + run;
    }
  }

  /** The ghost text of a completion: what follows the typed tag. */
  lemma CompletionText(current: string, s: string)
    requires IsTrimmed(current)
    requires StartsWith(s, NormalizeTag(current)) && s != NormalizeTag(current)
    ensures s == Lower(current) + After(s, |current|)
    ensures After(s, |current|) != []
  {
    assert NormalizeTag(current) == Lower(current);
    PrefixRest(Lower(current), s);
  }

  /** A longer text that starts with `p` is `p` and a non-empty rest. */
  lemma PrefixRest(p: string, s: string)
    requires p <= s && p != s
    ensures s == p + After(s, |p|) && After(s, |p|) != []
  {
    assert |p| == |s| ==> p == s;
    assert forall i :: 0 <= i < |s| ==> s[i] == (p + After(s, |p|))[i];
  }

  /** Whether the cursor ends its tag: the text up to the next separator
      (`indexOf`), or all of it when there is none, trims to nothing. */
  function AtEndOfTag(after: string, separator: char): (b: bool)
    ensures b <==> BlankToSeparator(after, separator)
  {
    var n := IndexOf(after, separator);
    var untilNext := if n == -1 then after else after[..n];
    BlankToSeparatorIndex(after, separator);
    // `untilNext.trim() === ''`, stated through Trim's emptiness clause
    AllWhitespace(untilNext)
  }

  /** `getInlineSuggestion`: split the text at the cursor and, when the
      cursor ends a non-empty tag, offer its completion together with the
      part still to be typed. The current tag is computed as `getCurrentTag`
      computes it. */
  function GetInlineSuggestion(input: string, cursorPosition: int, availableTags: seq<string>, separator: char)
    : (r: InlineSuggestion)
    ensures r.beforeCursor + r.afterCursor == input
    ensures |r.beforeCursor| == Clamp(cursorPosition, |input|)
    ensures r.currentTag == GetCurrentTag(input, cursorPosition, separator)
    ensures r.isAtEndOfTag <==> BlankToSeparator(r.afterCursor, separator)
    ensures r.suggestion.None? <==> r.completionText.None?
    ensures r.suggestion == if r.isAtEndOfTag && r.currentTag != []
                            then GetTagSuggestionAtCursor(input, cursorPosition, availableTags, separator)
                            else None
    ensures r.suggestion.Some? ==>
              r.suggestion.value == Lower(r.currentTag) + r.completionText.value && r.completionText.value != []
  {
    var before := Before(input, cursorPosition);
    var after := After(input, cursorPosition);
    var current := GetCurrentTag(input, cursorPosition, separator);
    var atEnd := AtEndOfTag(after, separator);
    BeforeAfter(input, cursorPosition);
    if !atEnd || current == [] then InlineSuggestion(None, None, before, after, current, atEnd)
    else
      match BestCompletion(current, availableTags, 1)
      case None => InlineSuggestion(None, None, before, after, current, atEnd)
      case Some(s) =>
        CompletionText(current, s);
        InlineSuggestion(Some(s), Some(After(s, |current|)), before, after, current, atEnd)
  }

  /* --------------------------------------------------------- triggering */

  /** The keys after which completion is never attempted. */
  const SkipKeys: seq<string> := ["Backspace", "Delete", "ArrowLeft", "ArrowRight", "ArrowUp", "ArrowDown"]

  /** `shouldTriggerAutocomplete`. */
  function ShouldTriggerAutocomplete(input: string, lastKeyPressed: string): (r: bool)
    ensures r <==> lastKeyPressed != "Backspace" && lastKeyPressed != "Delete"
                   && lastKeyPressed != "ArrowLeft" && lastKeyPressed != "ArrowRight"
                   && lastKeyPressed != "ArrowUp" && lastKeyPressed != "ArrowDown"
                   && exists i :: 0 <= i < |input| && !IsWhitespace(input[i])
  {
    if lastKeyPressed in SkipKeys then false
    else if Trim(input) == [] then false
    else true
  }

  /* ------------------------------------------- completion in a search */

  /** `tag:` starts at position `p` of `s`. */
  predicate KeywordAt(s: string, p: int) {
    0 <= p && p + 4 <= |s| && s[p..p + 4] == "tag:"
  }

  /** The text before the cursor ends inside a `tag:` clause: some `tag:` is
      followed by no `|` up to the cursor (the pattern `tag:([^|]*)$`). */
  predicate InTagClause(before: string) {
    exists p :: 0 <= p < |before| && KeywordAt(before, p) && '|' !in before[p + 4..]
  }

  /** `p` is the last `tag:` in `s`. */
  predicate LastKeyword(s: string, p: int) {
    KeywordAt(s, p) && forall q :: p < q < |s| ==> !KeywordAt(s, q)
  }

  /** `tag:` at `p` is what `lastIndexOf("tag:")` looks for. */
  lemma KeywordPrefix(before: string)
    ensures forall p :: KeywordAt(before, p) <==> 0 <= p <= |before| && "tag:" <= before[p..]
  {
    forall p | 0 <= p <= |before|
      ensures KeywordAt(before, p) <==> "tag:" <= before[p..]
    {
      if p + 4 <= |before| {
        assert before[p..][..4] == before[p..p + 4];
      }
    }
  }

  /** When any `tag:` is open, the last one is. */
  lemma LastKeywordOpen(before: string, q: int)
    requires LastKeyword(before, q)
    requires InTagClause(before)
    ensures '|' !in before[q + 4..]
  {
    var p :| 0 <= p < |before| && KeywordAt(before, p) && '|' !in before[p + 4..];
    assert p <= q;
    var tail := before[q + 4..];
    assert forall i :: 0 <= i < |tail| ==> tail[i] in before[p + 4..];
  }

  /** Where the open `tag:` clause starts, or -1 when there is none: the last
      `tag:`, which is open exactly when any `tag:` is. */
  function OpenTagClause(before: string): (q: int)
    ensures q >= 0 <==> InTagClause(before)
    ensures q >= 0 ==> LastKeyword(before, q) && '|' !in before[q + 4..]
  {
    var q := LastIndexOfSub(before, "tag:");
    KeywordPrefix(before);
    if q >= 0 then
      LastKeywordOpenIf(before, q);
      if '|' in before[q + 4..] then -1 else q
    else -1
  }

  lemma LastKeywordOpenIf(before: string, q: int)
    requires LastKeyword(before, q)
    ensures InTagClause(before) ==> '|' !in before[q + 4..]
  {
    if InTagClause(before) {
      LastKeywordOpen(before, q);
    }
  }

  datatype SearchCompletion = SearchCompletion(completed: Option<string>, wasCompleted: bool, suggestion: Option<string>)

  const NoSearchCompletion := SearchCompletion(None, false, None)

  /** `autocompleteSearchQuery`: inside an open `tag:` clause, complete the
      comma-separated tag being typed and splice the completion in place of
      it, keeping the text before the clause and after the cursor. */
  function AutocompleteSearchQuery(input: string, cursorPosition: int, availableTags: seq<string>)
    : (r: SearchCompletion)
    ensures !InTagClause(Before(input, cursorPosition)) ==> r == NoSearchCompletion
    ensures r.wasCompleted <==> r.completed.Some?
    ensures r.wasCompleted <==> r.suggestion.Some?
    ensures !r.wasCompleted ==> r == NoSearchCompletion
    ensures r.wasCompleted ==> r.suggestion.value in availableTags
    ensures var before := Before(input, cursorPosition);
      InTagClause(before) ==>
        r.suggestion == BestCompletion(Trim(TypedTag(before[OpenTagClause(before) + 4..])), availableTags, 1)
  {
    var before := Before(input, cursorPosition);
    var q := OpenTagClause(before);
    if q < 0 then NoSearchCompletion
    else
      var afterTag := before[q + 4..];
      match BestCompletion(Trim(TypedTag(afterTag)), availableTags, 1)
      case None => NoSearchCompletion
      case Some(s) =>
        SearchCompletion(Some(input[..q] + "tag:" + (UpToLastComma(afterTag) + s) + After(input, cursorPosition)),
                         true, Some(s))
  }

  /** Inside an open `tag:` clause, the search completion is the first
      available tag that starts with the normalised tag being typed,
      offered when it differs from it. */
  lemma SearchQueryFirstMatch(input: string, cursorPosition: int, availableTags: seq<string>)
    ensures var before := Before(input, cursorPosition);
      InTagClause(before) ==>
        var typed := NormalizeTag(Trim(TypedTag(before[OpenTagClause(before) + 4..])));
        AutocompleteSearchQuery(input, cursorPosition, availableTags).suggestion
          == Offer(FirstMatch(availableTags, typed), typed)
  {
    var before := Before(input, cursorPosition);
    if InTagClause(before) {
      BestCompletionFirstMatch(Trim(TypedTag(before[OpenTagClause(before) + 4..])), availableTags, 1);
    }
  }

  /** A clause's text up to and including its last comma, or nothing when it
      has no comma: the tags already finished in that clause. */
  function UpToLastComma(clause: string): (kept: string)
    ensures |kept| <= |clause| && forall i :: 0 <= i < |kept| ==> kept[i] == clause[i]
    ensures kept == [] || kept[|kept| - 1] == ','
    ensures forall j :: |kept| <= j < |clause| ==> clause[j] != ','
  {
    var k := LastIndexOf(clause, ',');
    if k == -1 then [] else clause[..k + 1]
  }

  /** The tag being typed in a clause: its last comma-separated piece. */
  function TypedTag(clause: string): (t: string)
    ensures ',' !in t
  {
    SplitLastFree(clause, ',');
    Split(clause, ',')[|Split(clause, ',')| - 1]
  }

  /** The tag being typed is what `lastIndexOf(',')` and `substring` find,
      and the clause is its finished tags followed by it. */
  lemma ClauseParts(clause: string)
    ensures LastIndexOf(clause, ',') == -1 ==> TypedTag(clause) == clause
    ensures LastIndexOf(clause, ',') >= 0 ==> TypedTag(clause) == clause[LastIndexOf(clause, ',') + 1..]
    ensures UpToLastComma(clause) + TypedTag(clause) == clause
  {
    var k := LastIndexOf(clause, ',');
    if k == -1 {
      ClauseWhole(clause);
    } else {
      ClauseCut(clause, k);
    }
  }

  lemma ClauseWhole(clause: string)
    requires LastIndexOf(clause, ',') == -1
    ensures TypedTag(clause) == clause && UpToLastComma(clause) == []
  {
    assert ',' !in clause;
    SplitNoSep(clause, ',');
  }

  lemma ClauseCut(clause: string, k: nat)
    requires LastIndexOf(clause, ',') == k
    ensures TypedTag(clause) == clause[k + 1..] && UpToLastComma(clause) == clause[..k + 1]
    ensures clause[..k + 1] + clause[k + 1..] == clause
  {
    ClauseTyped(clause, k);
    assert clause[..k + 1] + clause[k + 1..] == clause;
  }

  lemma ClauseTyped(clause: string, k: nat)
    requires LastIndexOf(clause, ',') == k
    ensures TypedTag(clause) == clause[k + 1..]
  {
    SplitLast(clause, ',');
  }

  /** Completing a search query replaces the tag being typed in the open
      `tag:` clause by the suggestion and changes nothing else: before the
      cursor the text was the clause's start, its finished tags and the
      typed tag; the completion has the suggestion in place of the typed
      tag, then the text from the cursor on. The suggestion completes the
      trimmed typed tag. */
  lemma SearchCompletionShape(input: string, cursorPosition: int, availableTags: seq<string>, q: int)
    requires AutocompleteSearchQuery(input, cursorPosition, availableTags).wasCompleted
    requires LastKeyword(Before(input, cursorPosition), q)
    ensures var r := AutocompleteSearchQuery(input, cursorPosition, availableTags);
      var before := Before(input, cursorPosition);
      var clause := before[q + 4..];
      && before == before[..q + 4] + UpToLastComma(clause) + TypedTag(clause)
      && r.completed.value == before[..q + 4] + UpToLastComma(clause) + r.suggestion.value + After(input, cursorPosition)
      && r.suggestion == BestCompletion(Trim(TypedTag(clause)), availableTags, 1)
  {
    var before := Before(input, cursorPosition);
    LastKeywordUnique(before, OpenTagClause(before), q);
    var r := AutocompleteSearchQuery(input, cursorPosition, availableTags);
    var clause := before[q + 4..];
    KeywordText(input, before, q);
    ClauseParts(clause);
    SearchSplice(before, q + 4, UpToLastComma(clause), TypedTag(clause));
    SeqAssoc(input[..q] + "tag:", UpToLastComma(clause), r.suggestion.value);
  }

  /** There is only one last `tag:`. */
  lemma LastKeywordUnique(s: string, p: int, q: int)
    requires LastKeyword(s, p) && LastKeyword(s, q)
    ensures p == q
  {
  }

  /** The text before a `tag:` followed by the keyword is the text up to its end. */
  lemma KeywordText(input: string, before: string, q: int)
    requires |before| <= |input| && forall i :: 0 <= i < |before| ==> before[i] == input[i]
    requires KeywordAt(before, q)
    ensures input[..q] + "tag:" == before[..q + 4]
  {
    assert before[q..q + 4] == "tag:";
    assert forall i :: 0 <= i < q + 4 ==> (input[..q] + "tag:")[i] == before[..q + 4][i];
  }

  /** A text cut at `n`, whose tail is two parts. */
  lemma SearchSplice(s: string, n: nat, kept: string, typed: string)
    requires n <= |s| && kept + typed == s[n..]
    ensures s == s[..n] + kept + typed
  {
    assert s == s[..n] + s[n..];
    SeqAssoc(s[..n], kept, typed);
  }
}

=== FILE: commands.dfy ===
/** The stored snippet ("command") row the utilities read. */
module Commands {
  import opened Wrappers

  /** A row of the commands table. `tags` is the JSON text of the tag list;
      `description` and `language` are nullable columns, `None` standing for
      SQL NULL. */
  datatype Command = Command(
    id: int,
    title: string,
    body: string,
    description: Option<string>,
    tags: string,
    language: Option<string>,
    createdAt: string,
    updatedAt: string)
}

=== FILE: import_export.dfy ===
/** The export file: checking a parsed export document, turning it into rows
    ready for insertion, producing the document from stored rows, and naming
    the file. A parsed document is a `Json.Value`; reading a property and
    testing it the way JavaScript does (`!v`, `typeof v`) are spelled out. */
module ImportExport {
  import opened Wrappers
  import opened Text
  import opened Seqs
  import Json
  import opened Commands
  import opened Tags

  /** Limits a document must respect to be accepted. */
  const MaxCommands := 50000
  const MaxTitleLength := 500
  const MaxBodyLength := 1000000
  const MaxDescriptionLength := 10000

  const ExportVersion := "2.0"
  const DefaultLanguage := "plaintext"
  const FilenameStem := "snipforge-commands"

  /* ------------------------------------------------ JavaScript values */

  /** A number lexeme denotes zero when no digit before its exponent is
      non-zero (`0`, `-0`, `0.000`, `0e7`). */
  predicate ZeroLexeme(lexeme: string) {
    if |lexeme| == 0 then true
    else if lexeme[0] == 'e' || lexeme[0] == 'E' then true
    else if '1' <= lexeme[0] <= '9' then false
    else ZeroLexeme(lexeme[1..])
  }

  /** JavaScript truthiness: `null`, `false`, zero and `""` are falsy. */
  predicate Truthy(v: Json.Value) {
    match v
    case Null => false
    case Bool(b) => b
    case Num(lexeme) => !ZeroLexeme(lexeme)
    case Str(s) => s != []
    case Arr(_) => true
    case Obj(_) => true
  }

  /** The position of the last member named `key`, or -1. */
  function LastMember(members: seq<(string, Json.Value)>, key: string): (r: int)
    ensures -1 <= r < |members|
    ensures r >= 0 ==> members[r].0 == key
    ensures forall j :: r < j < |members| ==> members[j].0 != key
  {
    if |members| == 0 then -1
    else if members[|members| - 1].0 == key then |members| - 1
    else LastMember(members[..|members| - 1], key)
  }

  /** `v[key]`: the value of the last member of that name, since `JSON.parse`
      lets a later duplicate key overwrite an earlier one; `undefined` (None)
      when there is none or `v` is not an object. */
  function Field(v: Json.Value, key: string): (r: Option<Json.Value>)
    ensures r.Some? ==> v.Obj?
    ensures v.Obj? && (forall j :: 0 <= j < |v.members| ==> v.members[j].0 != key) ==> r.None?
  {
    if !v.Obj? then None
    else
      var k := LastMember(v.members, key);
      if k < 0 then None else Some(v.members[k].1)
  }

  /** A member read from an object is the member that carries the key last. */
  lemma FieldAt(v: Json.Value, key: string, j: nat)
    requires v.Obj? && j < |v.members| && v.members[j].0 == key
    requires forall i :: j < i < |v.members| ==> v.members[i].0 != key
    ensures Field(v, key) == Some(v.members[j].1)
  {
  }

  /** `!!v[key]`. */
  predicate Present(f: Option<Json.Value>) {
    f.Some? && Truthy(f.value)
  }

  /** `v[key] && typeof v[key] === 'string'`: a non-empty string. */
  predicate IsText(f: Option<Json.Value>) {
    f.Some? && f.value.Str? && f.value.s != []
  }

  /** The commands array of a document, when it has one. */
  function CommandsOf(data: Json.Value): (r: Option<seq<Json.Value>>)
    ensures r.Some? <==> Field(data, "commands").Some? && Field(data, "commands").value.Arr?
    ensures r.Some? ==> Field(data, "commands") == Some(Json.Arr(r.value))
  {
    match Field(data, "commands")
    case Some(Arr(items)) => Some(items)
    case _ => None
  }

  /* --------------------------------------------------------- validation */

  /** What is wrong with one command of a document. */
  datatype CommandProblem =
    | NotObject
    | InvalidTitle
    | InvalidBody
    | TagsNotArray
    | TitleTooLong(length: nat)
    | BodyTooLong(length: nat)
    | DescriptionTooLong(length: nat)
    | LanguageNotString

  /** Why `validateExportData` throws. */
  datatype ValidationError =
    | DocumentNotObject
    | MissingVersion
    | InvalidCommands
    | TooManyCommands(count: nat)
    | BadCommand(index: nat, problem: CommandProblem)

  /** `typeof v === 'object'` for a truthy value. */
  predicate ObjectLike(v: Json.Value) {
    v.Arr? || v.Obj?
  }

  /** A command passing the shape checks: a text title and body, and tags
      that are absent, falsy or an array. */
  predicate WellShaped(cmd: Json.Value) {
    var tags := Field(cmd, "tags");
    IsText(Field(cmd, "title")) && IsText(Field(cmd, "body")) && (!Present(tags) || tags.value.Arr?)
  }

  predicate TitleFits(cmd: Json.Value) {
    IsText(Field(cmd, "title")) && Utf16Length(Field(cmd, "title").value.s) <= MaxTitleLength
  }

  predicate BodyFits(cmd: Json.Value) {
    IsText(Field(cmd, "body")) && Utf16Length(Field(cmd, "body").value.s) <= MaxBodyLength
  }

  /** A description that is not a non-empty string is not measured. */
  predicate DescriptionFits(cmd: Json.Value) {
    var description := Field(cmd, "description");
    !IsText(description) || Utf16Length(description.value.s) <= MaxDescriptionLength
  }

  /** What an accepted command satisfies, all conditions at once. */
  predicate CommandValid(cmd: Json.Value) {
    var language := Field(cmd, "language");
    && cmd.Obj?
    && WellShaped(cmd) && TitleFits(cmd) && BodyFits(cmd) && DescriptionFits(cmd)
    && (!Present(language) || language.value.Str?)
  }

  /** The checks made on one command, in the order they are made: the first
      that fails names the problem. A description that is not a string is
      not checked at all. */
  function CheckCommand(cmd: Json.Value): (r: Option<CommandProblem>)
    ensures r.None? <==> CommandValid(cmd)
    ensures r == Some(NotObject) <==> !Truthy(cmd) || !(cmd.Arr? || cmd.Obj?)
    ensures r.Some? && r.value.TitleTooLong? ==>
              IsText(Field(cmd, "title")) && r.value.length == Utf16Length(Field(cmd, "title").value.s) > MaxTitleLength
    ensures r.Some? && r.value.BodyTooLong? ==>
              IsText(Field(cmd, "body")) && r.value.length == Utf16Length(Field(cmd, "body").value.s) > MaxBodyLength
    ensures r.Some? && r.value.DescriptionTooLong? ==>
              IsText(Field(cmd, "description"))
              && r.value.length == Utf16Length(Field(cmd, "description").value.s) > MaxDescriptionLength
    ensures r.Some? && (r.value.TitleTooLong? || r.value.BodyTooLong? || r.value.DescriptionTooLong?) ==>
              IsText(Field(cmd, "title")) && IsText(Field(cmd, "body"))
    ensures r == Some(InvalidTitle) <==> ObjectLike(cmd) && !IsText(Field(cmd, "title"))
    ensures r == Some(InvalidBody) <==> IsText(Field(cmd, "title")) && !IsText(Field(cmd, "body"))
    ensures r == Some(TagsNotArray) <==>
              IsText(Field(cmd, "title")) && IsText(Field(cmd, "body")) && Present(Field(cmd, "tags"))
              && !Field(cmd, "tags").value.Arr?
    ensures r.Some? && r.value.TitleTooLong? <==> WellShaped(cmd) && !TitleFits(cmd)
    ensures r.Some? && r.value.BodyTooLong? <==> WellShaped(cmd) && TitleFits(cmd) && !BodyFits(cmd)
    ensures r.Some? && r.value.DescriptionTooLong? <==>
              WellShaped(cmd) && TitleFits(cmd) && BodyFits(cmd) && !DescriptionFits(cmd)
    ensures r == Some(LanguageNotString) <==>
              WellShaped(cmd) && TitleFits(cmd) && BodyFits(cmd) && DescriptionFits(cmd)
              && Present(Field(cmd, "language")) && !Field(cmd, "language").value.Str?
  {
    var title, body, tags := Field(cmd, "title"), Field(cmd, "body"), Field(cmd, "tags");
    var description, language := Field(cmd, "description"), Field(cmd, "language");
    if !Truthy(cmd) || !(cmd.Arr? || cmd.Obj?) then Some(NotObject)
    else if !IsText(title) then Some(InvalidTitle)
    else if !IsText(body) then Some(InvalidBody)
    else if Present(tags) && !tags.value.Arr? then Some(TagsNotArray)
    else if Utf16Length(title.value.s) > MaxTitleLength then Some(TitleTooLong(Utf16Length(title.value.s)))
    else if Utf16Length(body.value.s) > MaxBodyLength then Some(BodyTooLong(Utf16Length(body.value.s)))
    else if IsText(description) && Utf16Length(description.value.s) > MaxDescriptionLength then
      Some(DescriptionTooLong(Utf16Length(description.value.s)))
    else if Present(language) && !language.value.Str? then Some(LanguageNotString)
    else None
  }

  /** `commands.forEach(...)` from index `i` on: the problem of the first
      command that fails. */
  function CheckCommands(items: seq<Json.Value>, i: nat): (r: Option<ValidationError>)
    requires i <= |items|
    ensures r.None? <==> forall j :: i <= j < |items| ==> CommandValid(items[j])
    ensures r.Some? ==> r.value.BadCommand? && i <= r.value.index < |items|
    ensures r.Some? ==> CheckCommand(items[r.value.index]) == Some(r.value.problem)
    ensures r.Some? ==> forall j :: i <= j < r.value.index ==> CommandValid(items[j])
  {
    match FirstFailure(CheckCommand, items, i)
    case None => None
    case Some((k, problem)) => Some(BadCommand(k, problem))
  }

  /** The first position from `i` on where `check` reports something, with
      what it reports. */
  function FirstFailure<A, P>(check: A -> Option<P>, items: seq<A>, i: nat): (r: Option<(nat, P)>)
    requires i <= |items|
    decreases |items| - i
    ensures r.None? <==> forall j :: i <= j < |items| ==> check(items[j]).None?
    ensures r.Some? ==> i <= r.value.0 < |items| && check(items[r.value.0]) == Some(r.value.1)
    ensures r.Some? ==> forall j :: i <= j < r.value.0 ==> check(items[j]).None?
  {
    if i == |items| then None
    else match check(items[i])
      case Some(p) => Some((i, p))
      case None => FirstFailure(check, items, i + 1)
  }

  /** What an accepted document satisfies, all conditions at once. */
  predicate ValidExport(data: Json.Value) {
    && data.Obj?
    && Present(Field(data, "version"))
    && CommandsOf(data).Some?
    && |CommandsOf(data).value| <= MaxCommands
    && forall i :: 0 <= i < |CommandsOf(data).value| ==> CommandValid(CommandsOf(data).value[i])
  }

  /** `validateExportData`: None when the document is accepted, otherwise
      the error it throws. A failing command is reported at its index, the
      lowest one that fails. */
  function ValidateExportData(data: Json.Value): (r: Option<ValidationError>)
    ensures r.None? <==> ValidExport(data)
    ensures r.None? ==> var items := CommandsOf(data).value;
              |items| <= MaxCommands &&
              forall i :: 0 <= i < |items| ==>
                && IsText(Field(items[i], "title")) && Utf16Length(Field(items[i], "title").value.s) <= MaxTitleLength
                && IsText(Field(items[i], "body")) && Utf16Length(Field(items[i], "body").value.s) <= MaxBodyLength
    ensures r.Some? && r.value.TooManyCommands? ==>
              CommandsOf(data).Some? && r.value.count == |CommandsOf(data).value| > MaxCommands
    ensures r.Some? && r.value.BadCommand? ==>
              && CommandsOf(data).Some?
              && |CommandsOf(data).value| <= MaxCommands
              && r.value.index < |CommandsOf(data).value|
              && !CommandValid(CommandsOf(data).value[r.value.index])
              && forall j :: 0 <= j < r.value.index ==> CommandValid(CommandsOf(data).value[j])
    ensures r.Some? && r.value.BadCommand? ==>
              CheckCommand(CommandsOf(data).value[r.value.index]) == Some(r.value.problem)
    ensures r == Some(DocumentNotObject) <==> !Truthy(data) || !ObjectLike(data)
    ensures r == Some(MissingVersion) <==> ObjectLike(data) && !Present(Field(data, "version"))
    ensures r == Some(InvalidCommands) <==> Present(Field(data, "version")) && CommandsOf(data).None?
    ensures r.Some? && r.value.TooManyCommands? <==>
              Present(Field(data, "version")) && CommandsOf(data).Some? && |CommandsOf(data).value| > MaxCommands
    ensures r.Some? && r.value.BadCommand? <==>
              && Present(Field(data, "version")) && CommandsOf(data).Some? && |CommandsOf(data).value| <= MaxCommands
              && !forall i :: 0 <= i < |CommandsOf(data).value| ==> CommandValid(CommandsOf(data).value[i])
  {
    if !Truthy(data) || !(data.Arr? || data.Obj?) then Some(DocumentNotObject)
    else if !Present(Field(data, "version")) then Some(MissingVersion)
    else match CommandsOf(data)
      case None => Some(InvalidCommands)
      case Some(items) =>
        if |items| > MaxCommands then Some(TooManyCommands(|items|))
        else CheckCommands(items, 0)
  }

  /* ------------------------------------------------------------ import */

  /** A row ready for insertion. The language is whatever truthy value the
      document holds, unchecked. */
  datatype ImportCommand = ImportCommand(
    title: string,
    body: string,
    description: string,
    tags: string,
    language: Json.Value)

  /** Why `importCommands` throws: the commands array is missing, a command
      lacks a title or body, or a string method is called on a value that is
      not a string (a `TypeError`). */
  datatype ImportError = InvalidImportData | MissingTitleOrBody | TypeError

  /** `command.tags || []`, as the list `normalizeTags` accepts; None when
      mapping `normalizeTag` over it would throw. */
  function ImportTags(tags: Option<Json.Value>): (r: Option<seq<string>>)
    ensures r.Some? <==> !Present(tags) || (tags.value.Arr? && forall i :: 0 <= i < |tags.value.items| ==> tags.value.items[i].Str?)
    ensures r.Some? && Present(tags) ==> Json.Strs(r.value) == tags.value.items
    ensures !Present(tags) ==> r == Some([])
  {
    if !Present(tags) then Some([])
    else if tags.value.Arr? then Json.AllStrings(tags.value.items)
    else None
  }

  /** What a command must satisfy to be imported, all conditions at once. */
  predicate Importable(cmd: Json.Value) {
    var description := Field(cmd, "description");
    && IsText(Field(cmd, "title")) && IsText(Field(cmd, "body"))
    && (!Present(description) || description.value.Str?)
    && ImportTags(Field(cmd, "tags")).Some?
  }

  /** One command of `importCommands`: trim title, body and description,
      store the normalised tags as JSON, default the language. */
  function ImportOne(cmd: Json.Value): (r: Result<ImportCommand, ImportError>)
    ensures r.Success? <==> Importable(cmd)
    ensures !cmd.Null? && !(Present(Field(cmd, "title")) && Present(Field(cmd, "body"))) ==>
              r == Failure(MissingTitleOrBody)
    ensures r.Success? ==>
              && r.value.title == Trim(Field(cmd, "title").value.s)
              && r.value.body == Trim(Field(cmd, "body").value.s)
              && IsTrimmed(r.value.description)
              && (Present(Field(cmd, "description")) ==> r.value.description == Trim(Field(cmd, "description").value.s))
              && (!Present(Field(cmd, "description")) ==> r.value.description == [])
              && r.value.tags == TagsToJson(ImportTags(Field(cmd, "tags")).value)
              && Truthy(r.value.language)
              && (Present(Field(cmd, "language")) ==> r.value.language == Field(cmd, "language").value)
              && (!Present(Field(cmd, "language")) ==> r.value.language == Json.Str(DefaultLanguage))
  {
    var title, body := Field(cmd, "title"), Field(cmd, "body");
    var description, language := Field(cmd, "description"), Field(cmd, "language");
    if cmd.Null? then Failure(TypeError)
    else if !Present(title) || !Present(body) then Failure(MissingTitleOrBody)
    else if !title.value.Str? || !body.value.Str? then Failure(TypeError)
    else if Present(description) && !description.value.Str? then Failure(TypeError)
    else match ImportTags(Field(cmd, "tags"))
      case None => Failure(TypeError)
      case Some(tags) =>
        var d := if Present(description) then description.value.s else [];
        TrimIdempotent(d);
        Success(ImportCommand(
          Trim(title.value.s),
          Trim(body.value.s),
          Trim(d),
          TagsToJson(tags),
          if Present(language) then language.value else Json.Str(DefaultLanguage)))
  }

  /** A command that has a truthy title and body but cannot be imported
      fails with a type error. */
  lemma ImportOneTypeError(cmd: Json.Value)
    requires !cmd.Null? && Present(Field(cmd, "title")) && Present(Field(cmd, "body"))
    requires !Importable(cmd)
    ensures ImportOne(cmd) == Failure(TypeError)
  {
  }

  /** The tag text of an imported row reads back as the normalised tags of
      the command. */
  lemma ImportedTags(cmd: Json.Value)
    requires ImportOne(cmd).Success?
    ensures ParseTagsFromJson(ImportOne(cmd).value.tags) == NormalizeTags(ImportTags(Field(cmd, "tags")).value)
  {
    ParseTagsToJson(ImportTags(Field(cmd, "tags")).value);
  }

  /** `commands.map(...)`: every command imported in order, or the error of
      the first that throws. */
  function ImportAll(items: seq<Json.Value>): (r: Result<seq<ImportCommand>, ImportError>)
    ensures r.Success? <==> forall i :: 0 <= i < |items| ==> Importable(items[i])
    ensures r.Success? ==> |r.value| == |items|
    ensures r.Success? ==> forall i :: 0 <= i < |items| ==> ImportOne(items[i]) == Success(r.value[i])
  {
    MapAll(ImportOne, items)
  }

  /** `items.map(f)` where `f` may throw: all results, or the first error. */
  function MapAll<A, B, E>(f: A -> Result<B, E>, items: seq<A>): (r: Result<seq<B>, E>)
    ensures r.Success? <==> forall i :: 0 <= i < |items| ==> f(items[i]).Success?
    ensures r.Success? ==> |r.value| == |items|
    ensures r.Success? ==> forall i :: 0 <= i < |items| ==> f(items[i]) == Success(r.value[i])
  {
    if |items| == 0 then Success([])
    else match f(items[0])
      case Failure(e) => Failure(e)
      case Success(b) =>
        match MapAll(f, items[1..])
        case Failure(e) => Failure(e)
        case Success(rest) =>
          assert forall i :: 1 <= i < |items| ==> items[i] == items[1..][i - 1];
          Success([b] + rest)
  }

  lemma MapAllOne<A, B, E>(f: A -> Result<B, E>, x: A)
    ensures f(x).Failure? ==> MapAll(f, [x]) == Failure(f(x).error)
    ensures f(x).Success? ==> MapAll(f, [x]) == Success([f(x).value])
  {
    assert [x][1..] == [];
    assert MapAll(f, []) == Success([]);
    if f(x).Success? {
      assert [f(x).value] + [] == [f(x).value];
    }
  }

  /** `importCommands`: the rows of a document's commands, all or nothing. */
  function ImportCommands(data: Json.Value): (r: Result<seq<ImportCommand>, ImportError>)
    ensures !data.Null? && CommandsOf(data).None? ==> r == Failure(InvalidImportData)
    ensures r.Success? <==>
              CommandsOf(data).Some? && forall i :: 0 <= i < |CommandsOf(data).value| ==> Importable(CommandsOf(data).value[i])
    ensures r.Success? ==> |r.value| == |CommandsOf(data).value|
    ensures r.Success? ==> forall i :: 0 <= i < |r.value| ==> ImportOne(CommandsOf(data).value[i]) == Success(r.value[i])
  {
    if data.Null? then Failure(TypeError)
    else match CommandsOf(data)
      case None => Failure(InvalidImportData)
      case Some(items) => ImportAll(items)
  }

  /* ------------------------------------------------------------ export */

  /** One command of an export document. */
  datatype ExportCommand = ExportCommand(
    title: string,
    body: string,
    description: string,
    tags: seq<string>,
    language: string,
    createdAt: string,
    updatedAt: string)

  /** An export document; `filterTags` is present only when the export was
      filtered. */
  datatype ExportData = ExportData(
    version: string,
    exportedAt: string,
    totalCommands: nat,
    commands: seq<ExportCommand>,
    filterTags: Option<seq<string>>)

  /** `value || fallback` on a nullable text column. */
  function OrDefault(value: Option<string>, fallback: string): (r: string)
    ensures r == fallback || (value == Some(r) && r != [])
    ensures value.Some? && value.value != [] ==> r == value.value
  {
    if value.Some? && value.value != [] then value.value else fallback
  }

  /** A stored row in export form: description and language defaulted, tags
      read from their JSON text (`parseTagsFromCommand`). */
  function ExportOne(c: Command): (r: ExportCommand)
    ensures r.description == OrDefault(c.description, [])
    ensures r.language != [] && (r.language == DefaultLanguage || c.language == Some(r.language))
    ensures c.language.Some? && c.language.value != [] ==> r.language == c.language.value
    ensures c.language.None? || c.language == Some([]) ==> r.language == DefaultLanguage
    ensures r.title == c.title && r.body == c.body
    ensures r.createdAt == c.createdAt && r.updatedAt == c.updatedAt
    ensures Distinct(r.tags) && forall i :: 0 <= i < |r.tags| ==> |r.tags[i]| > 0 && IsNormalTag(r.tags[i])
    ensures forall ts :: Json.Decode(c.tags) == Some(Json.Arr(Json.Strs(ts))) ==> r.tags == NormalizeTags(ts)
    ensures Json.Decode(c.tags).None? ==> r.tags == []
  {
    ExportCommand(
      c.title, c.body, OrDefault(c.description, []), ParseTagsFromJson(c.tags),
      OrDefault(c.language, DefaultLanguage), c.createdAt, c.updatedAt)
  }

  /** `exportCommands`, with the export time passed in. */
  function ExportCommands(commands: seq<Command>, filterTags: seq<string>, now: string): (r: ExportData)
    ensures r.version == ExportVersion && r.exportedAt == now
    ensures r.totalCommands == |r.commands| == |FilterCommandsByTags(commands, filterTags)|
    ensures forall i :: 0 <= i < |r.commands| ==> r.commands[i] == ExportOne(FilterCommandsByTags(commands, filterTags)[i])
    ensures r.filterTags.Some? <==> |filterTags| > 0
    ensures r.filterTags.Some? ==> r.filterTags.value == NormalizeTags(filterTags)
  {
    var exported := MapEach(ExportOne, FilterCommandsByTags(commands, filterTags));
    ExportData(ExportVersion, now, |exported|, exported,
               if |filterTags| > 0 then Some(NormalizeTags(filterTags)) else None)
  }

  /** The decimal digits of a count. */
  function Decimal(n: nat): (r: string)
    ensures |r| >= 1 && forall i :: 0 <= i < |r| ==> '0' <= r[i] <= '9'
  {
    var digit := ['0' + (n % 10) as char];
    if n < 10 then digit else Decimal(n / 10) + digit
  }

  /** An export command as the document `JSON.parse` reads back. */
  function CommandValue(e: ExportCommand): Json.Value {
    Json.Obj([
      ("title", Json.Str(e.title)),
      ("body", Json.Str(e.body)),
      ("description", Json.Str(e.description)),
      ("tags", Json.Arr(Json.Strs(e.tags))),
      ("language", Json.Str(e.language)),
      ("created_at", Json.Str(e.createdAt)),
      ("updated_at", Json.Str(e.updatedAt))])
  }

  /** An export document as `JSON.parse` reads it back; `filter_tags` is
      the last member, being added last. */
  function ExportValue(d: ExportData): Json.Value {
    var head := [
      ("version", Json.Str(d.version)),
      ("exported_at", Json.Str(d.exportedAt)),
      ("total_commands", Json.Num(Decimal(d.totalCommands))),
      ("commands", Json.Arr(MapEach(CommandValue, d.commands)))];
    Json.Obj(head + (match d.filterTags
                     case Some(ts) => [("filter_tags", Json.Arr(Json.Strs(ts)))]
                     case None => []))
  }

  /* ---------------------------------------------------------- round trip */

  /** The members of an exported command, read back. */
  lemma CommandValueFields(e: ExportCommand)
    ensures var v := CommandValue(e);
      && v.Obj?
      && Field(v, "title") == Some(Json.Str(e.title))
      && Field(v, "body") == Some(Json.Str(e.body))
      && Field(v, "description") == Some(Json.Str(e.description))
      && Field(v, "tags") == Some(Json.Arr(Json.Strs(e.tags)))
      && Field(v, "language") == Some(Json.Str(e.language))
  {
    var v := CommandValue(e);
    FieldAt(v, "title", 0);
    FieldAt(v, "body", 1);
    FieldAt(v, "description", 2);
    FieldAt(v, "tags", 3);
    FieldAt(v, "language", 4);
  }

  /** The version and commands of an exported document, read back. */
  lemma ExportValueFields(d: ExportData)
    ensures var v := ExportValue(d);
      && v.Obj?
      && Field(v, "version") == Some(Json.Str(d.version))
      && CommandsOf(v) == Some(MapEach(CommandValue, d.commands))
  {
    var v := ExportValue(d);
    FieldAt(v, "version", 0);
    FieldAt(v, "commands", 3);
  }

  /** What importing an exported row yields: the stored row with title, body
      and description trimmed, its canonical tag list as JSON, and its
      language or the default. */
  function Reimported(c: Command): ImportCommand {
    ImportCommand(
      Trim(c.title), Trim(c.body), Trim(OrDefault(c.description, [])),
      Json.EncodeStrings(ParseTagsFromJson(c.tags)),
      Json.Str(OrDefault(c.language, DefaultLanguage)))
  }

  /** Importing a command whose members are all strings (tags a string
      array): it succeeds exactly when title and body are non-empty. */
  lemma ImportStrings(cmd: Json.Value, e: ExportCommand)
    requires Field(cmd, "title") == Some(Json.Str(e.title))
    requires Field(cmd, "body") == Some(Json.Str(e.body))
    requires Field(cmd, "description") == Some(Json.Str(e.description))
    requires Field(cmd, "tags") == Some(Json.Arr(Json.Strs(e.tags)))
    requires Field(cmd, "language") == Some(Json.Str(e.language))
    ensures ImportOne(cmd).Success? <==> e.title != [] && e.body != []
    ensures ImportOne(cmd).Success? ==>
              ImportOne(cmd).value == ImportCommand(
                Trim(e.title), Trim(e.body), Trim(e.description), TagsToJson(e.tags),
                Json.Str(if e.language != [] then e.language else DefaultLanguage))
  {
    AllStringsOfStrs(Json.Strs(e.tags));
    assert ImportTags(Field(cmd, "tags")) == Some(e.tags);
    var r := ImportOne(cmd);
    if r.Success? {
      var c := r.value;
      assert c.title == Trim(e.title) && c.body == Trim(e.body);
      if e.description == [] {
        assert c.description == [] == Trim(e.description);
      } else {
        assert Present(Field(cmd, "description"));
      }
      assert c.tags == TagsToJson(e.tags);
      if e.language == [] {
        assert !Present(Field(cmd, "language"));
      } else {
        assert Present(Field(cmd, "language"));
      }
    }
  }

  /** One stored row through export and import. */
  lemma ReimportOne(c: Command)
    ensures ImportOne(CommandValue(ExportOne(c))).Success? <==> c.title != [] && c.body != []
    ensures ImportOne(CommandValue(ExportOne(c))).Success? ==>
              ImportOne(CommandValue(ExportOne(c))).value == Reimported(c)
  {
    var e := ExportOne(c);
    CommandValueFields(e);
    ImportStrings(CommandValue(e), e);
    NormalizeTagsCanonical(e.tags);
  }

  /** Importing the commands of an exported document, in terms of the rows
      they were made of. */
  lemma ImportExportedItems(items: seq<Json.Value>, rows: seq<Command>)
    requires |items| == |rows|
    requires forall i :: 0 <= i < |rows| ==> items[i] == CommandValue(ExportOne(rows[i]))
    ensures var r := ImportAll(items);
            && (r.Success? <==> forall i :: 0 <= i < |rows| ==> rows[i].title != [] && rows[i].body != [])
            && (r.Success? ==> |r.value| == |rows| && forall i :: 0 <= i < |rows| ==> r.value[i] == Reimported(rows[i]))
  {
    forall i | 0 <= i < |rows|
      ensures Importable(items[i]) <==> rows[i].title != [] && rows[i].body != []
      ensures Importable(items[i]) ==> ImportOne(items[i]) == Success(Reimported(rows[i]))
    {
      ReimportOne(rows[i]);
    }
  }

  /** Importing an exported document, in terms of the rows it was made of. */
  lemma ImportExportData(d: ExportData, rows: seq<Command>)
    requires |d.commands| == |rows|
    requires forall i :: 0 <= i < |rows| ==> d.commands[i] == ExportOne(rows[i])
    ensures var r := ImportCommands(ExportValue(d));
            && (r.Success? <==> forall i :: 0 <= i < |rows| ==> rows[i].title != [] && rows[i].body != [])
            && (r.Success? ==> |r.value| == |rows| && forall i :: 0 <= i < |rows| ==> r.value[i] == Reimported(rows[i]))
  {
    ExportValueFields(d);
    ImportExportedItems(MapEach(CommandValue, d.commands), rows);
  }

  /** Exporting stored rows and importing the document gives back, in
      order, the filtered rows in insertion form; it fails exactly when one
      of them has an empty title or body. */
  lemma ExportImport(commands: seq<Command>, filterTags: seq<string>, now: string)
    ensures var exported := FilterCommandsByTags(commands, filterTags);
            var r := ImportCommands(ExportValue(ExportCommands(commands, filterTags, now)));
            && (r.Success? <==> forall i :: 0 <= i < |exported| ==> exported[i].title != [] && exported[i].body != [])
            && (r.Success? ==> |r.value| == |exported| && forall i :: 0 <= i < |exported| ==> r.value[i] == Reimported(exported[i]))
  {
    ImportExportData(ExportCommands(commands, filterTags, now), FilterCommandsByTags(commands, filterTags));
  }

  /** An export the limits admit: a title and body present and short
      enough, and a description short enough. */
  predicate Fits(c: Command) {
    && c.title != [] && Utf16Length(c.title) <= MaxTitleLength
    && c.body != [] && Utf16Length(c.body) <= MaxBodyLength
    && Utf16Length(OrDefault(c.description, [])) <= MaxDescriptionLength
  }

  /** Validating a command whose members are all strings. */
  lemma ValidStrings(cmd: Json.Value, e: ExportCommand)
    requires cmd.Obj?
    requires Field(cmd, "title") == Some(Json.Str(e.title))
    requires Field(cmd, "body") == Some(Json.Str(e.body))
    requires Field(cmd, "description") == Some(Json.Str(e.description))
    requires Field(cmd, "tags") == Some(Json.Arr(Json.Strs(e.tags)))
    requires Field(cmd, "language") == Some(Json.Str(e.language))
    ensures CommandValid(cmd) <==>
              && e.title != [] && Utf16Length(e.title) <= MaxTitleLength
              && e.body != [] && Utf16Length(e.body) <= MaxBodyLength
              && Utf16Length(e.description) <= MaxDescriptionLength
  {
  }

  lemma ValidOne(c: Command)
    ensures CommandValid(CommandValue(ExportOne(c))) <==> Fits(c)
  {
    var e := ExportOne(c);
    CommandValueFields(e);
    ValidStrings(CommandValue(e), e);
  }

  /** Validating an exported document, in terms of the rows it was made of. */
  lemma ValidateExported(d: ExportData, rows: seq<Command>)
    requires |d.commands| == |rows| && d.version == ExportVersion
    requires forall i :: 0 <= i < |rows| ==> d.commands[i] == ExportOne(rows[i])
    ensures ValidateExportData(ExportValue(d)).None? <==>
              |rows| <= MaxCommands && forall i :: 0 <= i < |rows| ==> Fits(rows[i])
  {
    ValidExported(d, rows);
  }

  /** The acceptance condition on an exported document, in terms of its rows. */
  lemma ValidExported(d: ExportData, rows: seq<Command>)
    requires |d.commands| == |rows| && d.version == ExportVersion
    requires forall i :: 0 <= i < |rows| ==> d.commands[i] == ExportOne(rows[i])
    ensures ValidExport(ExportValue(d)) <==> |rows| <= MaxCommands && forall i :: 0 <= i < |rows| ==> Fits(rows[i])
  {
    ExportValueFields(d);
    var items := MapEach(CommandValue, d.commands);
    forall i | 0 <= i < |rows| ensures CommandValid(items[i]) <==> Fits(rows[i]) {
      ValidOne(rows[i]);
    }
  }

  /** A document produced by export is accepted exactly when it has few
      enough commands and every exported row fits the limits. */
  lemma ExportValidates(commands: seq<Command>, filterTags: seq<string>, now: string)
    ensures var exported := FilterCommandsByTags(commands, filterTags);
            ValidateExportData(ExportValue(ExportCommands(commands, filterTags, now))).None? <==>
              |exported| <= MaxCommands && forall i :: 0 <= i < |exported| ==> Fits(exported[i])
  {
    ValidateExported(ExportCommands(commands, filterTags, now), FilterCommandsByTags(commands, filterTags));
  }

  /** After validation, import fails only on a description or a tag that is
      not a string, neither of which validation looks at; the imported
      languages are then all strings. */
  lemma ValidatedImport(data: Json.Value)
    requires ValidateExportData(data).None?
    ensures var items := CommandsOf(data).value;
            ImportCommands(data).Success? <==>
              forall i :: 0 <= i < |items| ==>
                var description := Field(items[i], "description");
                (!Present(description) || description.value.Str?) && ImportTags(Field(items[i], "tags")).Some?
    ensures ImportCommands(data).Success? ==>
              forall i :: 0 <= i < |ImportCommands(data).value| ==> ImportCommands(data).value[i].language.Str?
  {
  }

  /** A one-command document of the current version. */
  function Document(cmd: Json.Value): Json.Value {
    Json.Obj([("version", Json.Str(ExportVersion)), ("commands", Json.Arr([cmd]))])
  }

  lemma DocumentFields(cmd: Json.Value)
    ensures Field(Document(cmd), "version") == Some(Json.Str(ExportVersion))
    ensures CommandsOf(Document(cmd)) == Some([cmd])
  {
    FieldAt(Document(cmd), "version", 0);
    FieldAt(Document(cmd), "commands", 1);
  }

  /** A one-command document is accepted exactly when its command is. */
  lemma ValidateDocument(cmd: Json.Value)
    ensures ValidateExportData(Document(cmd)).None? <==> CommandValid(cmd)
  {
    DocumentFields(cmd);
  }

  /** A one-command document imports as its command does. */
  lemma ImportDocument(cmd: Json.Value)
    ensures ImportOne(cmd).Failure? ==> ImportCommands(Document(cmd)) == Failure(ImportOne(cmd).error)
    ensures ImportOne(cmd).Success? ==> ImportCommands(Document(cmd)) == Success([ImportOne(cmd).value])
  {
    DocumentFields(cmd);
    MapAllOne(ImportOne, cmd);
  }

  /** A command with a title and body that fit and one more member. */
  function Command3(title: string, body: string, key: string, value: Json.Value): Json.Value {
    Json.Obj([("title", Json.Str(title)), ("body", Json.Str(body)), (key, value)])
  }

  lemma Command3Fields(title: string, body: string, key: string, value: Json.Value)
    requires key != "title" && key != "body"
    ensures Field(Command3(title, body, key, value), "title") == Some(Json.Str(title))
    ensures Field(Command3(title, body, key, value), "body") == Some(Json.Str(body))
    ensures Field(Command3(title, body, key, value), key) == Some(value)
    ensures forall other :: other != "title" && other != "body" && other != key ==>
              Field(Command3(title, body, key, value), other).None?
  {
    var cmd := Command3(title, body, key, value);
    FieldAt(cmd, "title", 0);
    FieldAt(cmd, "body", 1);
    FieldAt(cmd, key, 2);
    forall other | other != "title" && other != "body" && other != key
      ensures Field(cmd, other).None?
    {
      assert forall j :: 0 <= j < |cmd.members| ==> cmd.members[j].0 != other;
    }
  }

  /** Validation accepts, and import rejects, a command whose description is
      a truthy value other than a string. */
  lemma NonStringDescriptionAccepted(title: string, body: string, description: Json.Value)
    requires title != [] && Utf16Length(title) <= MaxTitleLength
    requires body != [] && Utf16Length(body) <= MaxBodyLength
    requires Truthy(description) && !description.Str?
    ensures var doc := Document(Command3(title, body, "description", description));
            ValidateExportData(doc).None? && ImportCommands(doc) == Failure(TypeError)
  {
    var cmd := Command3(title, body, "description", description);
    Command3Fields(title, body, "description", description);
    assert Field(cmd, "tags").None? && Field(cmd, "language").None?;
    assert CommandValid(cmd);
    assert !Importable(cmd);
    ImportOneTypeError(cmd);
    ValidateDocument(cmd);
    ImportDocument(cmd);
  }

  /** Validation accepts, and import rejects, a command whose tag array holds
      something other than a string. */
  lemma NonStringTagAccepted(title: string, body: string, tags: seq<Json.Value>, k: nat)
    requires title != [] && Utf16Length(title) <= MaxTitleLength
    requires body != [] && Utf16Length(body) <= MaxBodyLength
    requires k < |tags| && !tags[k].Str?
    ensures var doc := Document(Command3(title, body, "tags", Json.Arr(tags)));
            ValidateExportData(doc).None? && ImportCommands(doc) == Failure(TypeError)
  {
    var cmd := Command3(title, body, "tags", Json.Arr(tags));
    Command3Fields(title, body, "tags", Json.Arr(tags));
    assert Field(cmd, "description").None? && Field(cmd, "language").None?;
    assert CommandValid(cmd);
    assert !Importable(cmd);
    ImportOneTypeError(cmd);
    ValidateDocument(cmd);
    ImportDocument(cmd);
  }

  /** A title of blanks passes validation and is imported empty. */
  lemma BlankTitleImported(title: string, body: string)
    requires title != [] && AllWhitespace(title) && Utf16Length(title) <= MaxTitleLength
    requires body != [] && Utf16Length(body) <= MaxBodyLength
    ensures var doc := Document(Command3(title, body, "language", Json.Str("bash")));
            ValidateExportData(doc).None? && ImportCommands(doc).Success? && ImportCommands(doc).value[0].title == []
  {
    var cmd := Command3(title, body, "language", Json.Str("bash"));
    Command3Fields(title, body, "language", Json.Str("bash"));
    assert Field(cmd, "description").None? && Field(cmd, "tags").None?;
    assert CommandValid(cmd);
    assert ImportOne(cmd).Success? && ImportOne(cmd).value.title == [];
    ValidateDocument(cmd);
    ImportDocument(cmd);
  }

  /* ------------------------------------------------------- file name */

  /** `generateExportFilename`, with the ISO timestamp passed in: the stem,
      the filter tags joined by `-` after a `_` when there are any, then `_`,
      the date part of the timestamp and `.json`. */
  function GenerateExportFilename(filterTags: seq<string>, now: string): (r: string)
    ensures var date := Split(now, 'T')[0];
              'T' !in date && date <= now &&
              r == FilenameStem + (if |filterTags| > 0 then "_" + Join(filterTags, "-") else "") + "_" + (date + ".json")
  {
    var date := Split(now, 'T')[0];
    SplitPiecesFree(now, 'T');
    SplitHead(now, 'T');
    FilenameStem + (if |filterTags| > 0 then "_" + Join(filterTags, "-") else "") + "_" + (date + ".json")
  }

  /** When neither the filter tags nor the date hold `_`, the name splits at
      `_` into the stem, the joined tags (if any) and the dated suffix; when
      the tags hold no `-` either, the joined part splits back into them. */
  lemma FilenameParts(filterTags: seq<string>, now: string)
    requires forall t :: t in filterTags ==> '_' !in t
    requires '_' !in now
    ensures var date := Split(now, 'T')[0];
            var pieces := Split(GenerateExportFilename(filterTags, now), '_');
            pieces == [FilenameStem] + (if |filterTags| > 0 then [Join(filterTags, "-")] else []) + [date + ".json"]
    ensures |filterTags| > 0 && (forall t :: t in filterTags ==> '-' !in t) ==>
              Split(Split(GenerateExportFilename(filterTags, now), '_')[1], '-') == filterTags
  {
    var date := Split(now, 'T')[0];
    SplitChars(now, 'T');
    DatedSuffix(now, date, date + ".json");
    if |filterTags| > 0 {
      FilenameTagged(filterTags, now, date);
      if forall t :: t in filterTags ==> '-' !in t {
        SplitJoin(filterTags, '-');
      }
    } else {
      FilenameUntagged(now, date);
    }
  }

  lemma FilenameTagged(filterTags: seq<string>, now: string, date: string)
    requires |filterTags| > 0 && forall t :: t in filterTags ==> '_' !in t
    requires date == Split(now, 'T')[0] && '_' !in date + ".json"
    ensures Split(GenerateExportFilename(filterTags, now), '_') == [FilenameStem, Join(filterTags, "-"), date + ".json"]
  {
    JoinChars(filterTags, "-", '_');
    SplitThree(FilenameStem, Join(filterTags, "-"), date + ".json", '_');
  }

  lemma FilenameUntagged(now: string, date: string)
    requires date == Split(now, 'T')[0] && '_' !in date + ".json"
    ensures Split(GenerateExportFilename([], now), '_') == [FilenameStem, date + ".json"]
  {
    assert FilenameStem + "" == FilenameStem;
    SplitTwo(FilenameStem, date + ".json", '_');
  }

  lemma DatedSuffix(now: string, date: string, suffix: string)
    requires date == Split(now, 'T')[0] && suffix == date + ".json"
    requires '_' !in now
    requires forall p, c :: p in Split(now, 'T') && c in p ==> c in now
    ensures '_' !in suffix
  {
    assert date in Split(now, 'T');
  }

  lemma SplitTwo(a: string, b: string, sep: char)
    requires sep !in a && sep !in b
    ensures Split(a + [sep] + b, sep) == [a, b]
  {
    SplitConcat(a, b, sep);
    SplitNoSep(a, sep);
    SplitNoSep(b, sep);
  }

  lemma SplitThree(a: string, b: string, c: string, sep: char)
    requires sep !in a && sep !in b && sep !in c
    ensures Split(a + ([sep] + b) + [sep] + c, sep) == [a, b, c]
  {
    var x := b + [sep] + c;
    SplitTwo(b, c, sep);
    SplitConcat(a, x, sep);
    SplitNoSep(a, sep);
    SeqAssoc(a, [sep], b);
    SeqAssoc(a + [sep], b, [sep]);
    SeqAssoc(a + [sep], b + [sep], c);
  }

  /** A joined list holds a character only if some piece or the glue does. */
  lemma {:induction false} JoinChars(parts: seq<string>, glue: string, c: char)
    requires c !in glue && forall p :: p in parts ==> c !in p
    ensures c !in Join(parts, glue)
  {
    if |parts| > 1 {
      JoinChars(parts[1..], glue, c);
    }
  }
}

=== FILE: json.dfy ===
/** The JSON boundary of the stored tag list: a reader for JSON text in the
    manner of `JSON.parse` (RFC 8259 grammar), and the writer
    `JSON.stringify` applies to an array of strings. The two meet in the
    round trip `Decode(EncodeStrings(ts)) == Some(Arr(Strs(ts)))`. */
module Json {
  import opened Wrappers

  /** A decoded JSON value; a number keeps its lexeme, an object its members
      in text order. */
  datatype Value =
    | Null
    | Bool(b: bool)
    | Num(lexeme: string)
    | Str(s: string)
    | Arr(items: seq<Value>)
    | Obj(members: seq<(string, Value)>)

  /** The strings of a string array, as `Str` values. */
  function Strs(ts: seq<string>): (r: seq<Value>)
    ensures |r| == |ts|
    ensures forall i :: 0 <= i < |ts| ==> r[i] == Str(ts[i])
  {
    seq(|ts|, i requires 0 <= i < |ts| => Str(ts[i]))
  }

  /** The strings of `items` when every item is a string. */
  function AllStrings(items: seq<Value>): (r: Option<seq<string>>)
    ensures r.Some? <==> forall i :: 0 <= i < |items| ==> items[i].Str?
    ensures r.Some? ==> Strs(r.value) == items
  {
    if |items| == 0 then Some([])
    else if !items[0].Str? then None
    else match AllStrings(items[1..]) {
      case None => None
      case Some(rest) =>
        StrsCons(items, rest);
        Some([items[0].s] + rest)
    }
  }

  /** A string item in front of a string array. */
  lemma StrsCons(items: seq<Value>, rest: seq<string>)
    requires |items| > 0 && items[0].Str? && Strs(rest) == items[1..]
    ensures Strs([items[0].s] + rest) == items
  {
    var r := Strs([items[0].s] + rest);
    assert forall i :: 1 <= i < |items| ==> r[i] == Strs(rest)[i - 1];
  }

  /* ------------------------------------------------------------- reader */

  predicate IsSpace(c: char) {
    c == ' ' || c == '\t' || c == '\n' || c == '\r'
  }

  predicate IsDigit(c: char) {
    '0' <= c <= '9'
  }

  function SkipSpace(s: string): (r: string)
    ensures |r| <= |s|
    ensures |r| > 0 ==> !IsSpace(r[0])
  {
    if |s| > 0 && IsSpace(s[0]) then SkipSpace(s[1..]) else s
  }

  /** Length of the run of decimal digits at the start of `s`. */
  function DigitRun(s: string): (n: nat)
    ensures n <= |s|
    ensures forall i :: 0 <= i < n ==> IsDigit(s[i])
    ensures n < |s| ==> !IsDigit(s[n])
  {
    if |s| > 0 && IsDigit(s[0]) then 1 + DigitRun(s[1..]) else 0
  }

  /** The value of a hexadecimal digit, or -1. */
  function HexValue(c: char): (v: int)
    ensures -1 <= v < 16
  {
    if '0' <= c <= '9' then c as int - '0' as int
    else if 'a' <= c <= 'f' then c as int - 'a' as int + 10
    else if 'A' <= c <= 'F' then c as int - 'A' as int + 10
    else -1
  }

  /** The number written by the four hex digits at `s[i..i + 4]`, or -1
      when one of them is not a hex digit. */
  function HexQuad(s: string, i: nat): (n: int)
    requires i + 4 <= |s|
    ensures -1 <= n < 0x1_0000
  {
    var h0, h1, h2, h3 := HexValue(s[i]), HexValue(s[i + 1]), HexValue(s[i + 2]), HexValue(s[i + 3]);
    if h0 < 0 || h1 < 0 || h2 < 0 || h3 < 0 then -1
    else ((h0 * 16 + h1) * 16 + h2) * 16 + h3
  }

  /** The character an escape sequence stands for, `s` starting just after
      the backslash, with the number of characters the sequence takes.
      A high-surrogate `\u` escape followed by a low-surrogate one is a
      single supplementary character; a surrogate escape without its
      partner has no `char` and fails. */
  function Unescape(s: string): (r: Option<(char, nat)>)
    ensures r.Some? ==> 1 <= r.value.1 <= |s|
  {
    if |s| == 0 then None
    else if s[0] == '"' then Some(('"', 1))
    else if s[0] == '\\' then Some(('\\', 1))
    else if s[0] == '/' then Some(('/', 1))
    else if s[0] == 'b' then Some(('\U{0008}', 1))
    else if s[0] == 'f' then Some(('\U{000C}', 1))
    else if s[0] == 'n' then Some(('\n', 1))
    else if s[0] == 'r' then Some(('\r', 1))
    else if s[0] == 't' then Some(('\t', 1))
    else if s[0] == 'u' && |s| >= 5 then
      var n := HexQuad(s, 1);
      if n < 0 then None
      else if n < 0xD800 || 0xE000 <= n then Some((n as char, 5))
      else if n < 0xDC00 && |s| >= 11 && s[5] == '\\' && s[6] == 'u' && 0xDC00 <= HexQuad(s, 7) < 0xE000 then
        Some((((n - 0xD800) * 0x400 + (HexQuad(s, 7) - 0xDC00) + 0x1_0000) as char, 11))
      else None
    else None
  }

  /** `JSON.parse` reads an escaped UTF-16 surrogate pair as the one
      character it encodes: here U+1F600. */
  lemma UnescapeEmoji(rest: string)
    ensures Unescape("ud83d\\ude00" + rest) == Some(('\U{1F600}', 11))
  {
    var s := "ud83d\\ude00" + rest;
    assert s[0] == 'u' && s[1] == 'd' && s[2] == '8' && s[3] == '3' && s[4] == 'd';
    assert s[5] == '\\' && s[6] == 'u' && s[7] == 'd' && s[8] == 'e' && s[9] == '0' && s[10] == '0';
    assert HexQuad(s, 1) == 0xD83D;
    assert HexQuad(s, 7) == 0xDE00;
  }

  /** One character of a string literal's contents, written plainly or as
      an escape sequence, with the number of characters it takes; `None` at
      the closing quote, a raw control character or a bad escape. */
  function ReadChar(s: string): (r: Option<(char, nat)>)
    ensures r.Some? ==> 1 <= r.value.1 <= |s|
  {
    if |s| == 0 || s[0] == '"' || (s[0] as int) < 0x20 then None
    else if s[0] == '\\' then
      match Unescape(s[1..]) {
        case None => None
        case Some((c, k)) => Some((c, k + 1))
      }
    else Some((s[0], 1))
  }

  /** The contents of a string literal, `s` starting just after the opening
      quote, and the text after the closing quote. */
  function ParseStringBody(s: string): (r: Option<(string, string)>)
    ensures r.Some? ==> |r.value.1| < |s|
  {
    if |s| == 0 then None
    else if s[0] == '"' then Some(([], s[1..]))
    else
      match ReadChar(s) {
        case None => None
        case Some((c, k)) =>
          match ParseStringBody(s[k..]) {
            case None => None
            case Some((t, rest)) => Some(([c] + t, rest))
          }
      }
  }

  /** A number: `-`? (`0` | nonzero digit, digits) (`.` digits)? ((`e`|`E`) (`+`|`-`)? digits)? */
  function ParseNumber(s: string): (r: Option<(Value, string)>)
    ensures r.Some? ==> |r.value.1| < |s|
  {
    var a := if |s| > 0 && s[0] == '-' then 1 else 0;
    var d := DigitRun(s[a..]);
    if d == 0 then None
    else
      var i := a + (if s[a] == '0' then 1 else d);
      var hasFrac := i < |s| && s[i] == '.';
      var f := if hasFrac then DigitRun(s[i + 1..]) else 0;
      if hasFrac && f == 0 then None
      else
        var j := if hasFrac then i + 1 + f else i;
        if j < |s| && (s[j] == 'e' || s[j] == 'E') then
          var k := if j + 1 < |s| && (s[j + 1] == '+' || s[j + 1] == '-') then j + 2 else j + 1;
          var e := DigitRun(s[k..]);
          if e == 0 then None else Some((Num(s[..k + e]), s[k + e..]))
        else Some((Num(s[..j]), s[j..]))
  }

  /** A string literal, `s` starting just after the opening quote. */
  function ParseString(s: string): (r: Option<(Value, string)>)
    ensures r.Some? ==> |r.value.1| < |s|
  {
    match ParseStringBody(s) {
      case None => None
      case Some((str, rest)) => Some((Str(str), rest))
    }
  }

  /** One of the literals `true`, `false`, `null`, or a number. */
  function ParseScalar(s: string): (r: Option<(Value, string)>)
    ensures r.Some? ==> |r.value.1| < |s|
  {
    if "true" <= s then Some((Bool(true), s[4..]))
    else if "false" <= s then Some((Bool(false), s[5..]))
    else if "null" <= s then Some((Null, s[4..]))
    else ParseNumber(s)
  }

  /** One value after optional white space, and the text after it. */
  function ParseValue(s: string): (r: Option<(Value, string)>)
    ensures r.Some? ==> |r.value.1| < |s|
    decreases |s|, 1
  {
    var t := SkipSpace(s);
    if |t| == 0 then None
    else if t[0] == '"' then ParseString(t[1..])
    else if t[0] == '[' then ParseArray(t[1..])
    else if t[0] == '{' then ParseObject(t[1..])
    else ParseScalar(t)
  }

  /** An array, `s` starting just after `[`. */
  function ParseArray(s: string): (r: Option<(Value, string)>)
    ensures r.Some? ==> |r.value.1| < |s|
    decreases |s|, 3
  {
    var t := SkipSpace(s);
    if |t| > 0 && t[0] == ']' then Some((Arr([]), t[1..]))
    else
      match ParseItems(t) {
        case None => None
        case Some((items, rest)) => Some((Arr(items), rest))
      }
  }

  /** One or more comma-separated values and the closing `]`. */
  function ParseItems(s: string): (r: Option<(seq<Value>, string)>)
    ensures r.Some? ==> |r.value.1| < |s|
    decreases |s|, 2
  {
    match ParseValue(s) {
      case None => None
      case Some((v, rest)) =>
        var t := SkipSpace(rest);
        if |t| > 0 && t[0] == ']' then Some(([v], t[1..]))
        else if |t| > 0 && t[0] == ',' then
          match ParseItems(t[1..]) {
            case None => None
            case Some((vs, rest')) => Some(([v] + vs, rest'))
          }
        else None
    }
  }

  /** An object, `s` starting just after `{`. */
  function ParseObject(s: string): (r: Option<(Value, string)>)
    ensures r.Some? ==> |r.value.1| < |s|
    decreases |s|, 3
  {
    var t := SkipSpace(s);
    if |t| > 0 && t[0] == '}' then Some((Obj([]), t[1..]))
    else
      match ParseMembers(t) {
        case None => None
        case Some((ms, rest)) => Some((Obj(ms), rest))
      }
  }

  /** One or more comma-separated `"key": value` members and the closing `}`. */
  function ParseMembers(s: string): (r: Option<(seq<(string, Value)>, string)>)
    ensures r.Some? ==> |r.value.1| < |s|
    decreases |s|, 2
  {
    var t := SkipSpace(s);
    if |t| == 0 || t[0] != '"' then None
    else
      match ParseStringBody(t[1..]) {
        case None => None
        case Some((key, afterKey)) =>
          var u := SkipSpace(afterKey);
          if |u| == 0 || u[0] != ':' then None
          else
            match ParseValue(u[1..]) {
              case None => None
              case Some((v, rest)) =>
                var w := SkipSpace(rest);
                if |w| > 0 && w[0] == '}' then Some(([(key, v)], w[1..]))
                else if |w| > 0 && w[0] == ',' then
                  match ParseMembers(w[1..]) {
                    case None => None
                    case Some((ms, rest')) => Some(([(key, v)] + ms, rest'))
                  }
                else None
            }
      }
  }

  /** `JSON.parse`: one value surrounded by optional white space, or `None`
      where `JSON.parse` throws. */
  function Decode(text: string): Option<Value> {
    match ParseValue(text) {
      case None => None
      case Some((v, rest)) => if SkipSpace(rest) == [] then Some(v) else None
    }
  }

  /* ------------------------------------------------------------- writer */

  function HexDigit(n: nat): (c: char)
    requires n < 16
    ensures HexValue(c) == n
  {
    "0123456789abcdef"[n]
  }

  /** How `JSON.stringify` writes one character inside a string literal. */
  function EscapeChar(c: char): string {
    if c == '"' then "\\\""
    else if c == '\\' then "\\\\"
    else if c == '\U{0008}' then "\\b"
    else if c == '\t' then "\\t"
    else if c == '\n' then "\\n"
    else if c == '\U{000C}' then "\\f"
    else if c == '\r' then "\\r"
    else if (c as int) < 0x20 then "\\u00" + [HexDigit(c as int / 16), HexDigit(c as int % 16)]
    else [c]
  }

  function Escape(s: string): string {
    if |s| == 0 then [] else EscapeChar(s[0]) + Escape(s[1..])
  }

  function Quote(s: string): string {
    "\"" + Escape(s) + "\""
  }

  function EncodeItems(ts: seq<string>): string {
    if |ts| == 0 then []
    else if |ts| == 1 then Quote(ts[0])
    else Quote(ts[0]) + "," + EncodeItems(ts[1..])
  }

  /** `JSON.stringify(ts)` for an array of strings. */
  function EncodeStrings(ts: seq<string>): string {
    "[" + EncodeItems(ts) + "]"
  }

  /* ---------------------------------------------------------- round trip */

  /** A character written with a backslash escape is read back. */
  lemma UnescapeEscapeChar(c: char, rest: string)
    requires |EscapeChar(c)| > 1
    ensures EscapeChar(c)[0] == '\\'
    ensures Unescape(EscapeChar(c)[1..] + rest) == Some((c, |EscapeChar(c)| - 1))
  {
    if (c as int) < 0x20 && c != '\U{0008}' && c != '\t' && c != '\n' && c != '\U{000C}' && c != '\r' {
      UnescapeControl(c, rest);
    }
  }

  /** A control character without a short escape is written `\u00XX`. */
  lemma UnescapeControl(c: char, rest: string)
    requires (c as int) < 0x20 && c != '\U{0008}' && c != '\t' && c != '\n' && c != '\U{000C}' && c != '\r'
    ensures EscapeChar(c) == "\\u00" + [HexDigit(c as int / 16), HexDigit(c as int % 16)]
    ensures Unescape(EscapeChar(c)[1..] + rest) == Some((c, 5))
  {
    var hi, lo := c as int / 16, c as int % 16;
    var e := "u00" + [HexDigit(hi), HexDigit(lo)] + rest;
    assert EscapeChar(c)[1..] + rest == e;
    assert e[0] == 'u' && e[1] == '0' && e[2] == '0' && e[3] == HexDigit(hi) && e[4] == HexDigit(lo);
    assert HexQuad(e, 1) == ((0 * 16 + 0) * 16 + hi) * 16 + lo == c as int;
  }

  /** Every character `JSON.stringify` writes is read back by `ReadChar`. */
  lemma ReadEscapeChar(c: char, rest: string)
    ensures (EscapeChar(c) + rest)[0] != '"'
    ensures ReadChar(EscapeChar(c) + rest) == Some((c, |EscapeChar(c)|))
  {
    var input := EscapeChar(c) + rest;
    if |EscapeChar(c)| > 1 {
      UnescapeEscapeChar(c, rest);
      assert input[1..] == EscapeChar(c)[1..] + rest;
    } else {
      assert EscapeChar(c) == [c];
    }
  }

  lemma {:induction false} ParseStringBodyQuote(s: string, rest: string)
    ensures ParseStringBody(Escape(s) + "\"" + rest) == Some((s, rest))
  {
    if |s| == 0 {
      assert Escape(s) + "\"" + rest == "\"" + rest;
    } else {
      ParseStringBodyQuote(s[1..], rest);
      ParseStringBodyStep(s, rest);
    }
  }

  /** The escaped first character is read, then the rest of the literal. */
  lemma ParseStringBodyStep(s: string, rest: string)
    requires |s| > 0
    requires ParseStringBody(Escape(s[1..]) + "\"" + rest) == Some((s[1..], rest))
    ensures ParseStringBody(Escape(s) + "\"" + rest) == Some((s, rest))
  {
    var c := s[0];
    var x := Escape(s[1..]) + "\"" + rest;
    var input := Escape(s) + "\"" + rest;
    assert input == EscapeChar(c) + x;
    ReadEscapeChar(c, x);
    assert input[|EscapeChar(c)|..] == x;
    ParseStringBodyCons(input, c, |EscapeChar(c)|, s[1..], rest);
    assert [c] + s[1..] == s;
  }

  /** One character read, then the rest of the literal. */
  lemma ParseStringBodyCons(input: string, c: char, k: nat, t: string, rest: string)
    requires |input| > 0 && input[0] != '"' && ReadChar(input) == Some((c, k))
    requires ParseStringBody(input[k..]) == Some((t, rest))
    ensures ParseStringBody(input) == Some(([c] + t, rest))
  {
  }

  lemma ParseValueQuote(t: string, tail: string)
    ensures ParseValue(Quote(t) + tail) == Some((Str(t), tail))
  {
    var body := Escape(t) + "\"" + tail;
    var input := Quote(t) + tail;
    assert input == ['"'] + body;
    assert input[0] == '"' && input[1..] == body;
    SkipSpaceNonSpace(input);
    ParseStringBodyQuote(t, tail);
    assert ParseString(body) == Some((Str(t), tail));
  }

  lemma SkipSpaceNonSpace(s: string)
    requires |s| > 0 && !IsSpace(s[0])
    ensures SkipSpace(s) == s
  {
  }

  /** The last item: a value and the closing bracket. */
  lemma ParseItemsLast(s: string, v: Value, rest: string)
    requires ParseValue(s) == Some((v, "]" + rest))
    ensures ParseItems(s) == Some(([v], rest))
  {
    var tail := "]" + rest;
    SkipSpaceNonSpace(tail);
    assert tail[1..] == rest;
  }

  /** A value, a comma, and more items. */
  lemma ParseItemsComma(s: string, v: Value, more: string, vs: seq<Value>, rest: string)
    requires ParseValue(s) == Some((v, "," + more))
    requires ParseItems(more) == Some((vs, rest))
    ensures ParseItems(s) == Some(([v] + vs, rest))
  {
    var tail := "," + more;
    SkipSpaceNonSpace(tail);
    assert tail[1..] == more;
  }

  lemma {:induction false} ParseItemsEncode(ts: seq<string>, rest: string)
    requires |ts| > 0
    ensures ParseItems(EncodeItems(ts) + "]" + rest) == Some((Strs(ts), rest))
  {
    if |ts| == 1 {
      ParseItemsEncodeLast(ts[0], rest);
      assert Strs(ts) == [Str(ts[0])];
    } else {
      ParseItemsEncode(ts[1..], rest);
      ParseItemsEncodeCons(ts[0], ts[1..], rest);
      StrsHead(ts);
    }
  }

  lemma StrsHead(ts: seq<string>)
    requires |ts| > 0
    ensures Strs(ts) == [Str(ts[0])] + Strs(ts[1..])
  {
  }

  lemma ParseItemsEncodeLast(t: string, rest: string)
    ensures ParseItems(EncodeItems([t]) + "]" + rest) == Some(([Str(t)], rest))
  {
    var tail := "]" + rest;
    assert EncodeItems([t]) + "]" + rest == Quote(t) + tail;
    ParseValueQuote(t, tail);
    ParseItemsLast(Quote(t) + tail, Str(t), rest);
  }

  lemma EncodeItemsCons(t: string, ts: seq<string>)
    requires |ts| > 0
    ensures EncodeItems([t] + ts) == Quote(t) + "," + EncodeItems(ts)
  {
    assert ([t] + ts)[1..] == ts;
  }

  lemma EncodeItemsConsText(t: string, ts: seq<string>, rest: string)
    requires |ts| > 0
    ensures EncodeItems([t] + ts) + "]" + rest == Quote(t) + ("," + (EncodeItems(ts) + "]" + rest))
  {
    EncodeItemsCons(t, ts);
    Regroup(Quote(t), ",", EncodeItems(ts), "]", rest);
  }

  /** Re-bracketing a five-part concatenation. */
  lemma Regroup<T>(q: seq<T>, c: seq<T>, e: seq<T>, b: seq<T>, r: seq<T>)
    ensures q + c + e + b + r == q + (c + (e + b + r))
  {
    assert q + c + e + b == q + c + (e + b);
    assert q + c + (e + b) + r == q + c + (e + b + r);
  }

  lemma ParseItemsEncodeCons(t: string, ts: seq<string>, rest: string)
    requires |ts| > 0
    requires ParseItems(EncodeItems(ts) + "]" + rest) == Some((Strs(ts), rest))
    ensures ParseItems(EncodeItems([t] + ts) + "]" + rest) == Some(([Str(t)] + Strs(ts), rest))
  {
    var more := EncodeItems(ts) + "]" + rest;
    EncodeItemsConsText(t, ts, rest);
    ParseValueQuote(t, "," + more);
    ParseItemsComma(Quote(t) + ("," + more), Str(t), more, Strs(ts), rest);
  }

  lemma ParseArrayEncode(ts: seq<string>)
    ensures ParseArray(EncodeItems(ts) + "]") == Some((Arr(Strs(ts)), []))
  {
    var s := EncodeItems(ts) + "]";
    if |ts| == 0 {
      assert s == "]";
      assert SkipSpace(s) == s;
    } else {
      assert s[0] == '"';
      assert SkipSpace(s) == s;
      ParseItemsEncode(ts, []);
      assert s == EncodeItems(ts) + "]" + [];
    }
  }

  /** Reading what `JSON.stringify` wrote for a string array gives the array back. */
  lemma DecodeEncodeStrings(ts: seq<string>)
    ensures Decode(EncodeStrings(ts)) == Some(Arr(Strs(ts)))
  {
    var text := EncodeStrings(ts);
    assert SkipSpace(text) == text by {
      assert text[0] == '[';
    }
    assert text[1..] == EncodeItems(ts) + "]";
    ParseArrayEncode(ts);
    assert ParseValue(text) == Some((Arr(Strs(ts)), []));
  }

  /** The contents of a string literal holding an escaped surrogate pair
      read as the one character the pair encodes. */
  lemma EscapedPairBody(rest: string)
    ensures ParseStringBody("\\ud83d\\ude00\"" + rest) == Some(("\U{1F600}", rest))
  {
    var body := "\\ud83d\\ude00\"" + rest;
    assert body[1..] == "ud83d\\ude00" + ("\"" + rest);
    UnescapeEmoji("\"" + rest);
    assert ReadChar(body) == Some(('\U{1F600}', 12));
    assert body[12..] == "\"" + rest;
    assert ParseStringBody(body[12..]) == Some(([], rest));
    ParseStringBodyCons(body, '\U{1F600}', 12, [], rest);
    assert ['\U{1F600}'] + [] == "\U{1F600}";
  }

  /** A one-string array: `[` and `"`, then string contents that end in the
      closing quote, then `]`. */
  lemma DecodeSingleString(body: string, v: string)
    requires ParseStringBody(body) == Some((v, "]"))
    ensures Decode("[\"" + body) == Some(Arr([Str(v)]))
  {
    var text := "[\"" + body;
    var t := text[1..];
    assert t[0] == '"' && t[1..] == body;
    assert SkipSpace(t) == t;
    assert "]" + [] == "]";
    assert ParseValue(t) == Some((Str(v), "]" + []));
    ParseItemsLast(t, Str(v), []);
    assert ParseArray(t) == Some((Arr([Str(v)]), []));
    assert SkipSpace(text) == text;
  }

  /** The JSON text of a one-tag array whose tag is written as an escaped
      surrogate pair reads as the one supplementary character it encodes. */
  lemma DecodeEscapedPair()
    ensures Decode("[\"\\ud83d\\ude00\"]") == Some(Arr([Str("\U{1F600}")]))
  {
    var body := "\\ud83d\\ude00\"" + "]";
    EscapedPairBody("]");
    DecodeSingleString(body, "\U{1F600}");
    assert "[\"" + body == "[\"\\ud83d\\ude00\"]";
  }
}

=== FILE: search_parser.dfy ===
/** The prefix search language of the search box: a query is a list of
    `|`-separated segments, each either `tag:`, `title:` or `body:` followed
    by a value, or bare text that searches title and body; every resulting
    filter must match for a command to be kept. */
module SearchParser {
  import opened Wrappers
  import opened Text
  import opened Seqs
  import Json
  import opened Commands
  import Tags

  datatype FilterKind = TagFilter | TitleFilter | BodyFilter | AllFilter

  datatype SearchFilter = SearchFilter(kind: FilterKind, value: string)

  datatype ParsedSearch = ParsedSearch(filters: seq<SearchFilter>, hasFilters: bool)

  /** The word naming a filter kind in a query. */
  function KindName(k: FilterKind): string {
    match k
    case TagFilter => "tag"
    case TitleFilter => "title"
    case BodyFilter => "body"
    case AllFilter => "all"
  }

  predicate NoLineTerminator(s: string) {
    forall i :: 0 <= i < |s| ==> !IsLineTerminator(s[i])
  }

  /** `segment` matches `^(tag|title|body):(.*)$` with kind `k` and captured
      value `v`; `.` does not cross a line terminator. */
  predicate HasPrefix(segment: string, k: FilterKind, v: string) {
    k != AllFilter && segment == KindName(k) + ":" + v && NoLineTerminator(v)
  }

  /** The remainder after `prefix`, when it is free of line terminators. */
  function After(segment: string, prefix: string, k: FilterKind): Option<(FilterKind, string)>
    requires prefix <= segment
  {
    if NoLineTerminator(segment[|prefix|..]) then Some((k, segment[|prefix|..])) else None
  }

  /** The prefix match of one segment: its kind and captured value. */
  function MatchPrefix(segment: string): (r: Option<(FilterKind, string)>)
    ensures forall k, v :: HasPrefix(segment, k, v) <==> r == Some((k, v))
  {
    PrefixesDisjoint(segment);
    HasPrefixSplit(segment);
    if "tag:" <= segment then After(segment, "tag:", TagFilter)
    else if "title:" <= segment then After(segment, "title:", TitleFilter)
    else if "body:" <= segment then After(segment, "body:", BodyFilter)
    else None
  }

  /** A segment has a prefix exactly when it starts with the prefix and the
      value is the rest. */
  lemma HasPrefixSplit(segment: string)
    ensures forall k, v :: HasPrefix(segment, k, v) <==>
              k != AllFilter && KindName(k) + ":" <= segment && v == segment[|KindName(k)| + 1..]
              && NoLineTerminator(v)
  {
    forall k, v | HasPrefix(segment, k, v)
      ensures KindName(k) + ":" <= segment && v == segment[|KindName(k)| + 1..]
    {
      assert segment[..|KindName(k)| + 1] == KindName(k) + ":";
    }
    forall k, v | k != AllFilter && KindName(k) + ":" <= segment && v == segment[|KindName(k)| + 1..]
      ensures segment == KindName(k) + ":" + v
    {
      assert segment == segment[..|KindName(k)| + 1] + v;
    }
  }

  /** No segment starts with two of the prefixes. */
  lemma PrefixesDisjoint(segment: string)
    ensures "tag:" <= segment ==> !("title:" <= segment) && !("body:" <= segment)
    ensures "title:" <= segment ==> !("body:" <= segment)
  {
    if "tag:" <= segment {
      assert segment[1] == 'a';
      assert segment[0] == 't';
    }
    if "title:" <= segment {
      assert segment[0] == 't';
    }
  }

  /** The filters one trimmed segment contributes: none for an empty segment
      or an empty prefixed value, the prefixed filter with its value trimmed,
      or an `all` filter holding the whole segment. */
  function SegmentFilters(segment: string): (r: seq<SearchFilter>)
    ensures |r| <= 1
    ensures segment == [] ==> r == []
    ensures forall k, v :: HasPrefix(segment, k, v) ==>
              r == if AllWhitespace(v) then [] else [SearchFilter(k, Trim(v))]
    ensures segment != [] && (forall k, v :: !HasPrefix(segment, k, v)) ==>
              r == [SearchFilter(AllFilter, segment)]
  {
    if segment == [] then []
    else
      match MatchPrefix(segment)
      case Some((k, v)) => if Trim(v) == [] then [] else [SearchFilter(k, Trim(v))]
      case None => [SearchFilter(AllFilter, segment)]
  }

  /** The filters of a list of trimmed segments, in segment order. */
  function ParseSegments(segments: seq<string>): (r: seq<SearchFilter>)
    ensures |r| <= |segments|
  {
    if |segments| == 0 then []
    else SegmentFilters(segments[0]) + ParseSegments(segments[1..])
  }

  /** A filter as the parser emits it: a non-empty, trimmed value that
      contains no segment separator. */
  predicate WellFormed(f: SearchFilter) {
    f.value != [] && IsTrimmed(f.value) && '|' !in f.value
  }

  lemma SegmentFiltersWellFormed(segment: string)
    requires IsTrimmed(segment) && '|' !in segment
    ensures forall i :: 0 <= i < |SegmentFilters(segment)| ==> WellFormed(SegmentFilters(segment)[i])
  {
    if segment != [] {
      match MatchPrefix(segment)
      case Some((k, v)) =>
        assert HasPrefix(segment, k, v);
        assert forall c :: c in v ==> c in segment;
        TrimSubset(v);
      case None =>
    }
  }

  lemma {:induction false} ParseSegmentsWellFormed(segments: seq<string>)
    requires forall i :: 0 <= i < |segments| ==> IsTrimmed(segments[i]) && '|' !in segments[i]
    ensures forall i :: 0 <= i < |ParseSegments(segments)| ==> WellFormed(ParseSegments(segments)[i])
  {
    if |segments| > 0 {
      SegmentFiltersWellFormed(segments[0]);
      ParseSegmentsWellFormed(segments[1..]);
    }
  }

  lemma {:induction false} ParseSegmentsConcat(a: seq<string>, b: seq<string>)
    ensures ParseSegments(a + b) == ParseSegments(a) + ParseSegments(b)
  {
    if |a| > 0 {
      assert (a + b)[1..] == a[1..] + b;
      ParseSegmentsConcat(a[1..], b);
    } else {
      assert a + b == b;
    }
  }

  lemma {:induction false} ParseSegmentsBlank(segments: seq<string>)
    requires forall i :: 0 <= i < |segments| ==> segments[i] == []
    ensures ParseSegments(segments) == []
  {
    if |segments| > 0 {
      ParseSegmentsBlank(segments[1..]);
    }
  }

  /** The segments of a query: its `|`-separated pieces, trimmed. */
  function Segments(query: string): seq<string> {
    TrimEach(Split(query, '|'))
  }

  lemma SegmentsWellFormed(query: string)
    ensures forall i :: 0 <= i < |Segments(query)| ==>
              IsTrimmed(Segments(query)[i]) && '|' !in Segments(query)[i]
  {
    var parts := Split(query, '|');
    SplitPiecesFree(query, '|');
    forall i | 0 <= i < |parts| ensures '|' !in Trim(parts[i]) {
      TrimSubset(parts[i]);
    }
  }

  /** `parseSearchQuery`. */
  function ParseSearchQuery(query: string): (r: ParsedSearch)
    ensures r.hasFilters <==> |r.filters| > 0
    ensures AllWhitespace(query) ==> r.filters == []
    ensures forall i :: 0 <= i < |r.filters| ==> WellFormed(r.filters[i])
    ensures |r.filters| <= |Split(query, '|')|
  {
    if AllWhitespace(query) then ParsedSearch([], false)
    else
      SegmentsWellFormed(query);
      ParseSegmentsWellFormed(Segments(query));
      var filters := ParseSegments(Segments(query));
      ParsedSearch(filters, |filters| > 0)
  }

  /** The blank-query shortcut agrees with parsing the segments. */
  lemma ParseSearchQuerySegments(query: string)
    ensures ParseSearchQuery(query).filters == ParseSegments(Segments(query))
  {
    if AllWhitespace(query) {
      var parts := Split(query, '|');
      SplitChars(query, '|');
      forall i | 0 <= i < |parts| ensures Trim(parts[i]) == [] {
        assert parts[i] in parts;
        forall j | 0 <= j < |parts[i]| ensures IsWhitespace(parts[i][j]) {
          assert parts[i][j] in parts[i];
        }
      }
      ParseSegmentsBlank(Segments(query));
    }
  }

  /** A `|` between two queries concatenates their filters. */
  lemma ParseSearchQueryPipe(a: string, b: string)
    ensures ParseSearchQuery(a + "|" + b).filters == ParseSearchQuery(a).filters + ParseSearchQuery(b).filters
  {
    ParseSearchQuerySegments(a);
    ParseSearchQuerySegments(b);
    ParseSearchQuerySegments(a + "|" + b);
    SplitConcat(a, b, '|');
    TrimEachConcat(Split(a, '|'), Split(b, '|'));
    ParseSegmentsConcat(Segments(a), Segments(b));
  }

  /** A query without `|` is a single segment. */
  lemma ParseSearchQuerySingle(query: string)
    requires '|' !in query
    ensures ParseSearchQuery(query).filters == SegmentFilters(Trim(query))
  {
    ParseSearchQuerySegments(query);
    SplitNoSep(query, '|');
    assert Segments(query) == [Trim(query)];
  }

  /* ----------------------------------------------------------- matching */

  /** `commandTags.some(t => t.toLowerCase().includes(searchTag))` on the
      parsed array: true at the first string containing `searchTag`; a
      non-string before that makes `toLowerCase` throw, which the caller
      turns into no match. */
  function ScanTags(items: seq<Json.Value>, searchTag: string): (r: bool)
    ensures r <==> exists i :: 0 <= i < |items| && items[i].Str? && Contains(Lower(items[i].s), searchTag)
                               && forall j :: 0 <= j < i ==> items[j].Str?
  {
    if |items| == 0 then false
    else if !items[0].Str? then false
    else if Contains(Lower(items[0].s), searchTag) then true
    else
      var rest := ScanTags(items[1..], searchTag);
      assert rest ==> exists i :: 1 <= i < |items| && items[i].Str? && Contains(Lower(items[i].s), searchTag)
                                  && forall j :: 0 <= j < i ==> items[j].Str? by {
        if rest {
          var i :| 0 <= i < |items[1..]| && items[1..][i].Str? && Contains(Lower(items[1..][i].s), searchTag)
                   && forall j :: 0 <= j < i ==> items[1..][j].Str?;
          assert forall j :: 1 <= j < i + 1 ==> items[j] == items[1..][j - 1];
        }
      }
      rest
  }

  /** On an array of strings the scan is plain membership. */
  lemma ScanTagsStrings(ts: seq<string>, searchTag: string)
    ensures ScanTags(Json.Strs(ts), searchTag) <==> exists t :: t in ts && Contains(Lower(t), searchTag)
  {
    var items := Json.Strs(ts);
    if exists t :: t in ts && Contains(Lower(t), searchTag) {
      var t :| t in ts && Contains(Lower(t), searchTag);
      var i :| 0 <= i < |ts| && ts[i] == t;
      assert items[i].Str? && items[i].s == t;
    }
  }

  /** The comma-separated tags of a `tag:` value, trimmed and lower-cased. */
  function SearchTags(value: string): (r: seq<string>)
    ensures |r| == |Split(Lower(value), ',')|
    ensures forall i :: 0 <= i < |r| ==> r[i] == Lower(Trim(Split(Lower(value), ',')[i]))
    ensures forall i :: 0 <= i < |r| ==> IsTrimmed(r[i]) && NoUpper(r[i]) && ',' !in r[i]
  {
    var parts := Split(Lower(value), ',');
    SplitPiecesFree(Lower(value), ',');
    forall i | 0 <= i < |parts|
      ensures IsTrimmed(Lower(Trim(parts[i]))) && NoUpper(Lower(Trim(parts[i]))) && ',' !in Lower(Trim(parts[i]))
    {
      LowerTrimmed(Trim(parts[i]));
      LowerNoUpper(Trim(parts[i]));
      TrimSubset(parts[i]);
    }
    LowerTrimEach(parts)
  }

  /** `parts.map(t => t.trim().toLowerCase())`. */
  function LowerTrimEach(parts: seq<string>): (r: seq<string>)
    ensures |r| == |parts|
    ensures forall i :: 0 <= i < |parts| ==> r[i] == Lower(Trim(parts[i]))
  {
    MapEach(LowerTrim, parts)
  }

  function LowerTrim(t: string): string {
    Lower(Trim(t))
  }

  lemma LowerTrimEachConcat(x: seq<string>, y: seq<string>)
    ensures LowerTrimEach(x + y) == LowerTrimEach(x) + LowerTrimEach(y)
  {
    MapEachConcat(LowerTrim, x, y);
  }

  /** A `tag:` filter: the stored tags parse as an array and every search tag
      is found by the scan; anything that throws is no match. */
  predicate TagMatches(command: Command, value: string) {
    match Json.Decode(command.tags)
    case Some(Arr(items)) => ScansAll(items, SearchTags(value))
    case _ => false
  }

  /** The scan finds every one of the search tags. */
  predicate ScansAll(items: seq<Json.Value>, searchTags: seq<string>) {
    forall i :: 0 <= i < |searchTags| ==> ScanTags(items, searchTags[i])
  }

  lemma ScansAllConcat(items: seq<Json.Value>, x: seq<string>, y: seq<string>)
    ensures ScansAll(items, x + y) <==> ScansAll(items, x) && ScansAll(items, y)
  {
    var xy := x + y;
    assert forall i :: 0 <= i < |x| ==> xy[i] == x[i];
    assert forall i :: 0 <= i < |y| ==> xy[|x| + i] == y[i];
    if ScansAll(items, x) && ScansAll(items, y) {
      forall i | 0 <= i < |xy| ensures ScanTags(items, xy[i]) {
        if i >= |x| {
          assert xy[i] == y[i - |x|];
        }
      }
    }
  }

  /** Whether one filter accepts a command; case-insensitive substring search. */
  predicate Matches(command: Command, f: SearchFilter) {
    match f.kind
    case TagFilter => TagMatches(command, f.value)
    case TitleFilter => Contains(Lower(command.title), Lower(f.value))
    case BodyFilter => Contains(Lower(command.body), Lower(f.value))
    case AllFilter =>
      Contains(Lower(command.title), Lower(f.value)) || Contains(Lower(command.body), Lower(f.value))
  }

  predicate MatchesAll(command: Command, filters: seq<SearchFilter>) {
    forall i :: 0 <= i < |filters| ==> Matches(command, filters[i])
  }

  /** `filterCommandsBySearch`: without filters the commands unchanged,
      otherwise the commands every filter accepts, in their order. */
  function FilterCommandsBySearch(commands: seq<Command>, parsed: ParsedSearch): (r: seq<Command>)
    ensures !parsed.hasFilters ==> r == commands
    ensures IsSubsequence(r, commands)
    ensures parsed.hasFilters ==>
              forall c :: c in r <==> c in commands && MatchesAll(c, parsed.filters)
    ensures parsed.hasFilters ==>
              forall c :: multiset(r)[c] == if MatchesAll(c, parsed.filters) then multiset(commands)[c] else 0
  {
    if !parsed.hasFilters then
      SubsequenceReflexive(commands);
      commands
    else
      var keep := (c: Command) => MatchesAll(c, parsed.filters);
      FilterSpec(commands, keep);
      Filter(commands, keep)
  }

  /** A blank query keeps every command. */
  lemma SearchBlankQuery(commands: seq<Command>, query: string)
    requires AllWhitespace(query)
    ensures FilterCommandsBySearch(commands, ParseSearchQuery(query)) == commands
  {
  }

  /** AND logic: searching with two filter lists together is searching with
      one and then the other. */
  lemma SearchConjunction(commands: seq<Command>, f1: seq<SearchFilter>, f2: seq<SearchFilter>)
    ensures FilterCommandsBySearch(commands, ParsedSearch(f1 + f2, true))
         == FilterCommandsBySearch(FilterCommandsBySearch(commands, ParsedSearch(f1, true)), ParsedSearch(f2, true))
  {
    var p := (c: Command) => MatchesAll(c, f1);
    var q := (c: Command) => MatchesAll(c, f2);
    var pq := (c: Command) => MatchesAll(c, f1 + f2);
    forall c ensures pq(c) == (p(c) && q(c)) {
      MatchesAllConcat(c, f1, f2);
    }
    FilterFilter(commands, p, q, pq);
  }

  lemma MatchesAllConcat(c: Command, f1: seq<SearchFilter>, f2: seq<SearchFilter>)
    ensures MatchesAll(c, f1 + f2) <==> MatchesAll(c, f1) && MatchesAll(c, f2)
  {
    var f := f1 + f2;
    if MatchesAll(c, f1) && MatchesAll(c, f2) {
      forall i | 0 <= i < |f| ensures Matches(c, f[i]) {
        if i < |f1| {
          assert f[i] == f1[i];
        } else {
          assert f[i] == f2[i - |f1|];
        }
      }
    }
    if MatchesAll(c, f) {
      forall i | 0 <= i < |f1| ensures Matches(c, f1[i]) {
        assert f[i] == f1[i];
      }
      forall i | 0 <= i < |f2| ensures Matches(c, f2[i]) {
        assert f[|f1| + i] == f2[i];
      }
    }
  }

  /** A query `a | b` keeps what searching `a` and then `b` keeps. */
  lemma SearchPipe(commands: seq<Command>, a: string, b: string)
    requires ParseSearchQuery(a).hasFilters && ParseSearchQuery(b).hasFilters
    ensures FilterCommandsBySearch(commands, ParseSearchQuery(a + "|" + b))
         == FilterCommandsBySearch(FilterCommandsBySearch(commands, ParseSearchQuery(a)), ParseSearchQuery(b))
  {
    ParseSearchQueryPipe(a, b);
    SearchConjunction(commands, ParseSearchQuery(a).filters, ParseSearchQuery(b).filters);
  }

  /** Comma-separated tags in one `tag:` filter behave as separate filters. */
  lemma SearchTagsComma(a: string, b: string)
    ensures SearchTags(a + "," + b) == SearchTags(a) + SearchTags(b)
  {
    LowerConcat(a + ",", b);
    LowerConcat(a, ",");
    assert Lower(",") == ",";
    SplitConcat(Lower(a), Lower(b), ',');
    LowerTrimEachConcat(Split(Lower(a), ','), Split(Lower(b), ','));
  }

  lemma TagMatchesComma(command: Command, a: string, b: string)
    ensures TagMatches(command, a + "," + b) <==> TagMatches(command, a) && TagMatches(command, b)
  {
    SearchTagsComma(a, b);
    match Json.Decode(command.tags)
    case Some(Arr(items)) =>
      ScansAllConcat(items, SearchTags(a), SearchTags(b));
    case _ =>
  }

  /** On canonical tags the scan needs no lower-casing. */
  lemma ScanTagsCanonical(ts: seq<string>, searchTag: string)
    requires forall i :: 0 <= i < |ts| ==> NoUpper(ts[i])
    ensures ScanTags(Json.Strs(ts), searchTag) <==> exists t :: t in ts && Contains(t, searchTag)
  {
    ScanTagsStrings(ts, searchTag);
    forall t | t in ts ensures Lower(t) == t {
      LowerNoUpper(t);
    }
  }

  lemma TagMatchesArray(command: Command, items: seq<Json.Value>, value: string)
    requires Json.Decode(command.tags) == Some(Json.Arr(items))
    ensures TagMatches(command, value) <==>
              forall i :: 0 <= i < |SearchTags(value)| ==> ScanTags(items, SearchTags(value)[i])
  {
  }

  /** Some tag of `ts` contains `searchTag`. */
  predicate SomeContains(ts: seq<string>, searchTag: string) {
    exists t :: t in ts && Contains(t, searchTag)
  }

  /** On an array of canonical tags, a `tag:` filter asks that every search
      tag be a substring of some stored tag. */
  lemma TagMatchesCanonical(command: Command, stored: seq<string>, value: string)
    requires Json.Decode(command.tags) == Some(Json.Arr(Json.Strs(stored)))
    requires forall i :: 0 <= i < |stored| ==> NoUpper(stored[i])
    ensures TagMatches(command, value) <==>
              forall i :: 0 <= i < |SearchTags(value)| ==> SomeContains(stored, SearchTags(value)[i])
  {
    var st := SearchTags(value);
    var items := Json.Strs(stored);
    TagMatchesArray(command, items, value);
    assert TagMatches(command, value) <==> forall i :: 0 <= i < |st| ==> ScanTags(items, st[i]);
    assert forall i :: 0 <= i < |st| ==> (ScanTags(items, st[i]) <==> SomeContains(stored, st[i])) by {
      forall i | 0 <= i < |st| ensures ScanTags(items, st[i]) <==> SomeContains(stored, st[i]) {
        ScanTagsCanonical(stored, st[i]);
      }
    }
  }

  /** On tags stored by `tagsToJson`, a `tag:` filter asks that every search
      tag be a substring of some stored canonical tag. */
  lemma TagMatchesStored(command: Command, tags: seq<string>, value: string)
    requires command.tags == Tags.TagsToJson(tags)
    ensures TagMatches(command, value) <==>
              forall i :: 0 <= i < |SearchTags(value)| ==>
                SomeContains(Tags.NormalizeTags(tags), SearchTags(value)[i])
  {
    var stored := Tags.NormalizeTags(tags);
    Json.DecodeEncodeStrings(stored);
    TagMatchesCanonical(command, stored, value);
  }
}

=== FILE: seqs.dfy ===
/** Sequence vocabulary shared by the utilities: `Array.prototype.filter`,
    the first-occurrence de-duplication of `[...new Set(xs)]`, and the
    order-preserving subsequence relation their results stand in. */
module Seqs {

  predicate Distinct<T(==)>(xs: seq<T>) {
    forall i, j :: 0 <= i < j < |xs| ==> xs[i] != xs[j]
  }

  /** `a` is what remains of `b` after deleting some of its elements. */
  predicate IsSubsequence<T(==)>(a: seq<T>, b: seq<T>)
    decreases |b|
  {
    if |a| == 0 then true
    else if |b| == 0 then false
    else if a[0] == b[0] then IsSubsequence(a[1..], b[1..])
    else IsSubsequence(a, b[1..])
  }

  lemma {:induction false} SubsequenceReflexive<T>(a: seq<T>)
    ensures IsSubsequence(a, a)
  {
    if |a| > 0 {
      SubsequenceReflexive(a[1..]);
    }
  }

  lemma {:induction false} SubsequenceDrop<T>(a: seq<T>, b: seq<T>)
    requires |a| > 0 && IsSubsequence(a, b)
    ensures IsSubsequence(a[1..], b)
    decreases |b|, 1
  {
    if a[0] == b[0] {
      SubsequenceCons(a[1..], b);
    } else {
      SubsequenceDrop(a, b[1..]);
      SubsequenceCons(a[1..], b);
    }
  }

  /** A subsequence of the tail is a subsequence of the whole. */
  lemma {:induction false} SubsequenceCons<T>(a: seq<T>, b: seq<T>)
    requires |b| > 0 && IsSubsequence(a, b[1..])
    ensures IsSubsequence(a, b)
    decreases |b|, 0
  {
    if |a| > 0 && a[0] == b[0] {
      SubsequenceDrop(a, b[1..]);
    }
  }

  lemma {:induction false} SubsequenceTransitive<T>(a: seq<T>, b: seq<T>, c: seq<T>)
    requires IsSubsequence(a, b) && IsSubsequence(b, c)
    ensures IsSubsequence(a, c)
    decreases |c|
  {
    if |a| > 0 {
      if b[0] == c[0] {
        if a[0] == b[0] {
          SubsequenceTransitive(a[1..], b[1..], c[1..]);
        } else {
          SubsequenceTransitive(a, b[1..], c[1..]);
        }
      } else {
        SubsequenceTransitive(a, b, c[1..]);
        SubsequenceCons(a, c);
      }
    }
  }

  /** Every element of a subsequence is an element of the sequence. */
  lemma {:induction false} SubsequenceMembers<T>(a: seq<T>, b: seq<T>)
    requires IsSubsequence(a, b)
    ensures forall x :: x in a ==> x in b
    decreases |b|
  {
    if |a| > 0 {
      if a[0] == b[0] {
        SubsequenceMembers(a[1..], b[1..]);
        assert forall x :: x in a ==> x == a[0] || x in a[1..];
      } else {
        SubsequenceMembers(a, b[1..]);
      }
    }
  }

  /* ------------------------------------------------------------- filter */

  /** `xs.filter(p)`. */
  function Filter<T>(xs: seq<T>, p: T -> bool): (r: seq<T>)
    ensures |r| <= |xs|
  {
    if |xs| == 0 then [] else (if p(xs[0]) then [xs[0]] else []) + Filter(xs[1..], p)
  }

  /** The filter keeps exactly the elements satisfying `p`, each as often as
      it occurs, in their original order. */
  lemma {:induction false} FilterSpec<T>(xs: seq<T>, p: T -> bool)
    ensures IsSubsequence(Filter(xs, p), xs)
    ensures forall x :: x in Filter(xs, p) <==> x in xs && p(x)
    ensures forall x :: multiset(Filter(xs, p))[x] == if p(x) then multiset(xs)[x] else 0
  {
    if |xs| > 0 {
      FilterSpec(xs[1..], p);
      var r := Filter(xs, p);
      var rest := Filter(xs[1..], p);
      assert xs == [xs[0]] + xs[1..];
      if p(xs[0]) {
        assert r[1..] == rest;
      } else {
        assert r == rest;
      }
    }
  }

  /** Filtering a list extended by one element. */
  lemma {:induction false} FilterAppend<T>(xs: seq<T>, x: T, p: T -> bool)
    ensures Filter(xs + [x], p) == Filter(xs, p) + (if p(x) then [x] else [])
  {
    if |xs| > 0 {
      assert (xs + [x])[1..] == xs[1..] + [x];
      FilterAppend(xs[1..], x, p);
    } else {
      assert xs + [x] == [x];
    }
  }

  lemma FilterMembers<T>(xs: seq<T>, p: T -> bool)
    ensures forall x :: x in Filter(xs, p) <==> x in xs && p(x)
  {
    FilterSpec(xs, p);
  }

  /** When every element satisfies the predicate, the filter is the identity. */
  lemma {:induction false} FilterKeepsAll<T>(xs: seq<T>, p: T -> bool)
    requires forall i :: 0 <= i < |xs| ==> p(xs[i])
    ensures Filter(xs, p) == xs
  {
    if |xs| > 0 {
      FilterKeepsAll(xs[1..], p);
      assert [xs[0]] + xs[1..] == xs;
    }
  }

  /** Filtering twice is filtering once by the conjunction. */
  lemma {:induction false} FilterFilter<T>(xs: seq<T>, p: T -> bool, q: T -> bool, pq: T -> bool)
    requires forall x :: pq(x) == (p(x) && q(x))
    ensures Filter(Filter(xs, p), q) == Filter(xs, pq)
  {
    if |xs| > 0 {
      FilterFilter(xs[1..], p, q, pq);
      var fp := Filter(xs, p);
      if p(xs[0]) {
        assert fp[0] == xs[0] && fp[1..] == Filter(xs[1..], p);
      } else {
        assert fp == Filter(xs[1..], p);
      }
    }
  }

  /** Filters agreeing on the elements of `xs` give the same result. */
  lemma {:induction false} FilterCongruent<T>(xs: seq<T>, p: T -> bool, q: T -> bool)
    requires forall i :: 0 <= i < |xs| ==> p(xs[i]) == q(xs[i])
    ensures Filter(xs, p) == Filter(xs, q)
  {
    if |xs| > 0 {
      FilterCongruent(xs[1..], p, q);
    }
  }

  /** The first element a filter keeps occurs at or before every element
      satisfying the predicate. */
  lemma {:induction false} FilterFirst<T>(xs: seq<T>, p: T -> bool, j: nat)
    requires j < |xs| && p(xs[j])
    ensures |Filter(xs, p)| > 0 && Filter(xs, p)[0] in xs[..j + 1]
  {
    if !p(xs[0]) {
      FilterFirst(xs[1..], p, j - 1);
      assert xs[1..][..j] == xs[1..j + 1];
    }
  }

  /** A kept element left out of the first `n` kept elements was cut off by
      the limit: there are `n` of them and they all come before it. */
  lemma {:induction false} FilterCut<T>(xs: seq<T>, p: T -> bool, n: nat, j: nat)
    requires j < |xs| && p(xs[j])
    requires xs[j] !in SliceTo(Filter(xs, p), n)
    ensures |SliceTo(Filter(xs, p), n)| == n
    ensures forall t :: t in SliceTo(Filter(xs, p), n) ==> t in xs[..j]
  {
    var f := Filter(xs, p);
    var g := Filter(xs[1..], p);
    if j == 0 {
      assert f[0] == xs[0];
    } else if p(xs[0]) {
      assert f == [xs[0]] + g;
      if n > 0 {
        assert SliceTo(f, n) == [xs[0]] + SliceTo(g, n - 1);
        assert xs[1..][j - 1] == xs[j];
        FilterCut(xs[1..], p, n - 1, j - 1);
        assert xs[1..][..j - 1] == xs[1..j];
      }
    } else {
      assert f == g;
      assert xs[1..][j - 1] == xs[j];
      FilterCut(xs[1..], p, n, j - 1);
      assert xs[1..][..j - 1] == xs[1..j];
    }
  }

  /** Filtering a concatenation filters each part. */
  lemma {:induction false} FilterConcat<T>(a: seq<T>, b: seq<T>, p: T -> bool)
    ensures Filter(a + b, p) == Filter(a, p) + Filter(b, p)
  {
    if |a| > 0 {
      assert (a + b)[1..] == a[1..] + b;
      FilterConcat(a[1..], b, p);
    } else {
      assert a + b == b;
    }
  }

  /** A kept element sits in the filter's result at the position given by
      the number of kept elements before it. */
  lemma FilterAt<T>(xs: seq<T>, p: T -> bool, j: nat)
    requires j < |xs| && p(xs[j])
    ensures |Filter(xs[..j], p)| < |Filter(xs, p)|
    ensures Filter(xs, p)[|Filter(xs[..j], p)|] == xs[j]
  {
    assert xs == xs[..j] + xs[j..];
    FilterConcat(xs[..j], xs[j..], p);
    assert Filter(xs[j..], p)[0] == xs[j];
  }

  /** Dropping elements the predicate rejects keeps the order of first
      occurrences of the elements it accepts. */
  lemma {:induction false} FilterFirstIndex<T>(xs: seq<T>, p: T -> bool, x: T, y: T)
    requires x in Filter(xs, p) && y in Filter(xs, p)
    requires FirstIndex(Filter(xs, p), x) < FirstIndex(Filter(xs, p), y)
    ensures x in xs && y in xs && FirstIndex(xs, x) < FirstIndex(xs, y)
  {
    FilterSpec(xs, p);
    var f := Filter(xs, p);
    if xs[0] != x && xs[0] != y {
      var g := Filter(xs[1..], p);
      FilterSpec(xs[1..], p);
      if p(xs[0]) {
        assert f == [xs[0]] + g;
        assert FirstIndex(f, x) == FirstIndex(g, x) + 1;
        assert FirstIndex(f, y) == FirstIndex(g, y) + 1;
      } else {
        assert f == g;
      }
      FilterFirstIndex(xs[1..], p, x, y);
    }
  }

  /** `xs.map(f)`. */
  function MapEach<A, B>(f: A -> B, xs: seq<A>): (r: seq<B>)
    ensures |r| == |xs|
    ensures forall i :: 0 <= i < |xs| ==> r[i] == f(xs[i])
  {
    seq(|xs|, i requires 0 <= i < |xs| => f(xs[i]))
  }

  /** Mapping distributes over concatenation. */
  lemma MapEachConcat<A, B>(f: A -> B, x: seq<A>, y: seq<A>)
    ensures MapEach(f, x + y) == MapEach(f, x) + MapEach(f, y)
  {
    var l, r := MapEach(f, x + y), MapEach(f, x) + MapEach(f, y);
    assert forall i :: 0 <= i < |x| ==> l[i] == f(x[i]) == r[i];
    assert forall i :: |x| <= i < |x + y| ==> l[i] == f(y[i - |x|]) == r[i];
  }

  /** `xs.slice(0, n)`: a negative end counts back from the end. */
  function SliceTo<T>(xs: seq<T>, n: int): (r: seq<T>)
    ensures r <= xs
    ensures n >= 0 ==> |r| == if n < |xs| then n else |xs|
    ensures n < 0 ==> |r| == if |xs| + n > 0 then |xs| + n else 0
  {
    if n >= 0 then (if n < |xs| then xs[..n] else xs)
    else if |xs| + n > 0 then xs[..|xs| + n]
    else []
  }

  lemma {:induction false} PrefixSubsequence<T>(a: seq<T>, b: seq<T>)
    requires a <= b
    ensures IsSubsequence(a, b)
  {
    if |a| > 0 {
      PrefixSubsequence(a[1..], b[1..]);
    }
  }

  /* --------------------------------------------------------- de-duplication */

  function FirstIndex<T(==)>(xs: seq<T>, x: T): (i: nat)
    requires x in xs
    ensures i < |xs| && xs[i] == x && x !in xs[..i]
  {
    if xs[0] == x then 0
    else
      var k := FirstIndex(xs[1..], x);
      assert xs[..k + 1] == [xs[0]] + xs[1..][..k];
      k + 1
  }

  /** `[...new Set(xs)]`: the distinct elements of `xs`, each at its first
      occurrence. */
  function Dedupe<T(==)>(xs: seq<T>): (r: seq<T>)
    ensures Distinct(r)
    ensures forall i :: 0 <= i < |r| ==> r[i] in xs
    ensures forall i :: 0 <= i < |xs| ==> xs[i] in r
    ensures |r| <= |xs|
  {
    if |xs| == 0 then []
    else
      var d := Dedupe(xs[..|xs| - 1]);
      assert xs == xs[..|xs| - 1] + [xs[|xs| - 1]];
      if xs[|xs| - 1] in d then d else d + [xs[|xs| - 1]]
  }

  lemma DedupeMembers<T>(xs: seq<T>)
    ensures forall x :: x in Dedupe(xs) <==> x in xs
  {
    var r := Dedupe(xs);
    forall x ensures x in r <==> x in xs {
      if x in r {
        var k :| 0 <= k < |r| && r[k] == x;
      }
      if x in xs {
        var k :| 0 <= k < |xs| && xs[k] == x;
      }
    }
  }

  lemma FirstIndexPrefix<T>(xs: seq<T>, n: nat, x: T)
    requires n <= |xs| && x in xs[..n]
    ensures FirstIndex(xs, x) == FirstIndex(xs[..n], x)
  {
    var i := FirstIndex(xs, x);
    var j := FirstIndex(xs[..n], x);
    assert xs[..n][..j] == xs[..j];
  }

  /** The de-duplicated elements appear in the order of their first occurrence. */
  lemma {:induction false} DedupeOrder<T>(xs: seq<T>)
    ensures forall i, j :: 0 <= i < j < |Dedupe(xs)| ==>
              FirstIndex(xs, Dedupe(xs)[i]) < FirstIndex(xs, Dedupe(xs)[j])
  {
    if |xs| > 0 {
      var n := |xs| - 1;
      var pre := xs[..n];
      var d := Dedupe(pre);
      DedupeOrder(pre);
      forall x | x in d ensures FirstIndex(xs, x) == FirstIndex(pre, x) && FirstIndex(xs, x) < n {
        FirstIndexPrefix(xs, n, x);
      }
      var r := Dedupe(xs);
      forall i, j | 0 <= i < j < |r| ensures FirstIndex(xs, r[i]) < FirstIndex(xs, r[j]) {
        assert r[i] in d;
        if j < |d| {
          assert r[i] == d[i] && r[j] == d[j];
        } else {
          assert r[j] == xs[n] && xs[n] !in pre;
        }
      }
    }
  }

  /** Filtering and then de-duplicating keeps the order of first occurrences. */
  lemma DedupeFilterOrder<T>(xs: seq<T>, p: T -> bool, i: nat, j: nat)
    requires i < j < |Dedupe(Filter(xs, p))|
    ensures Dedupe(Filter(xs, p))[i] in xs && Dedupe(Filter(xs, p))[j] in xs
    ensures FirstIndex(xs, Dedupe(Filter(xs, p))[i]) < FirstIndex(xs, Dedupe(Filter(xs, p))[j])
  {
    var f := Filter(xs, p);
    var r := Dedupe(f);
    DedupeOrder(f);
    DedupeMembers(f);
    assert r[i] in f && r[j] in f;
    FilterFirstIndex(xs, p, r[i], r[j]);
  }

  /** De-duplicating a duplicate-free sequence changes nothing. */
  lemma {:induction false} DedupeDistinct<T>(xs: seq<T>)
    requires Distinct(xs)
    ensures Dedupe(xs) == xs
  {
    if |xs| > 0 {
      var n := |xs| - 1;
      DedupeDistinct(xs[..n]);
      assert xs[n] !in xs[..n];
      assert xs == xs[..n] + [xs[n]];
    }
  }
}

=== FILE: tags.dfy ===
/** Tag normalisation and the tag-set operations over stored commands:
    a tag's canonical form is its trimmed, lower-cased text; a command's tag
    list is stored as JSON text and read back leniently. */
module Tags {
  import opened Wrappers
  import opened Text
  import opened Seqs
  import Json
  import opened Commands

  /** A tag in canonical form: no surrounding white space, no upper-case letter. */
  predicate IsNormalTag(t: string) {
    IsTrimmed(t) && NoUpper(t)
  }

  /** `normalizeTag`: trim, then lower-case. */
  function NormalizeTag(tag: string): (r: string)
    ensures IsNormalTag(r)
    ensures r == [] <==> AllWhitespace(tag)
    ensures |r| <= |tag|
  {
    LowerTrimmed(Trim(tag));
    LowerNoUpper(Trim(tag));
    Lower(Trim(tag))
  }

  /** A tag is its own canonical form exactly when it is already canonical. */
  lemma NormalizeTagFixpoint(t: string)
    ensures NormalizeTag(t) == t <==> IsNormalTag(t)
  {
    if IsNormalTag(t) {
      LowerNoUpper(t);
    }
  }

  lemma NormalizeTagIdempotent(tag: string)
    ensures NormalizeTag(NormalizeTag(tag)) == NormalizeTag(tag)
  {
    NormalizeTagFixpoint(NormalizeTag(tag));
  }

  /* -------------------------------------------------------- tag lists */

  /** `tags.map(normalizeTag)`. */
  function NormalizeEach(tags: seq<string>): (r: seq<string>)
    ensures |r| == |tags|
    ensures forall i :: 0 <= i < |tags| ==> r[i] == NormalizeTag(tags[i])
  {
    seq(|tags|, i requires 0 <= i < |tags| => NormalizeTag(tags[i]))
  }

  /** `normalizeTags`: normalise each tag, drop the empty ones, keep the
      first occurrence of each. */
  function NormalizeTags(tags: seq<string>): (r: seq<string>)
    ensures Distinct(r)
    ensures forall i :: 0 <= i < |r| ==> |r[i]| > 0 && IsNormalTag(r[i])
    ensures forall t :: t in r <==> t != [] && t in NormalizeEach(tags)
  {
    var cleaned := Filter(NormalizeEach(tags), NonEmpty);
    NormalizeTagsMembers(cleaned, NormalizeEach(tags));
    Dedupe(cleaned)
  }

  lemma NormalizeTagsMembers(cleaned: seq<string>, n: seq<string>)
    requires cleaned == Filter(n, NonEmpty)
    ensures forall t :: t in Dedupe(cleaned) <==> t != [] && t in n
  {
    FilterMembers(n, NonEmpty);
    DedupeMembers(cleaned);
  }

  /** A canonical tag is kept exactly when some input tag normalises to it. */
  lemma NormalizeTagsMembership(tags: seq<string>, t: string)
    ensures t in NormalizeTags(tags) <==>
              t != [] && exists i :: 0 <= i < |tags| && NormalizeTag(tags[i]) == t
  {
    var n := NormalizeEach(tags);
    if t in n {
      var k :| 0 <= k < |n| && n[k] == t;
    }
    if exists i :: 0 <= i < |tags| && NormalizeTag(tags[i]) == t {
      var i :| 0 <= i < |tags| && NormalizeTag(tags[i]) == t;
      assert n[i] == t;
    }
  }

  /** The canonical tags come in the order of their first occurrence in the input. */
  lemma NormalizeTagsOrder(tags: seq<string>)
    ensures forall i, j :: 0 <= i < j < |NormalizeTags(tags)| ==>
              FirstIndex(NormalizeEach(tags), NormalizeTags(tags)[i])
              < FirstIndex(NormalizeEach(tags), NormalizeTags(tags)[j])
  {
    var n := NormalizeEach(tags);
    var cleaned := Filter(n, NonEmpty);
    var r := NormalizeTags(tags);
    assert r == Dedupe(cleaned);
    DedupeOrder(cleaned);
    forall i, j | 0 <= i < j < |r| ensures FirstIndex(n, r[i]) < FirstIndex(n, r[j]) {
      FilterFirstIndex(n, NonEmpty, r[i], r[j]);
    }
  }

  /** Normalising an already normalised list changes nothing. */
  lemma NormalizeTagsIdempotent(tags: seq<string>)
    ensures NormalizeTags(NormalizeTags(tags)) == NormalizeTags(tags)
  {
    NormalizeTagsCanonical(NormalizeTags(tags));
  }

  /** A list of distinct canonical tags is its own normal form. */
  lemma NormalizeTagsCanonical(tags: seq<string>)
    requires Distinct(tags)
    requires forall i :: 0 <= i < |tags| ==> |tags[i]| > 0 && IsNormalTag(tags[i])
    ensures NormalizeTags(tags) == tags
  {
    forall i | 0 <= i < |tags| ensures NormalizeTag(tags[i]) == tags[i] {
      NormalizeTagFixpoint(tags[i]);
    }
    assert NormalizeEach(tags) == tags;
    FilterKeepsAll(tags, NonEmpty);
    DedupeDistinct(tags);
  }

  /* ------------------------------------------------- JSON boundary */

  /** `parseTagsFromJson`: the normalised strings of a JSON array of strings;
      `[]` when the text does not decode, decodes to something other than an
      array, or the array holds a non-string (normalising it throws, and the
      error is caught). */
  function ParseTagsFromJson(text: string): (r: seq<string>)
    ensures Distinct(r)
    ensures forall i :: 0 <= i < |r| ==> |r[i]| > 0 && IsNormalTag(r[i])
    ensures Json.Decode(text).None? ==> r == []
    ensures Json.Decode(text).Some? && !Json.Decode(text).value.Arr? ==> r == []
    ensures (Json.Decode(text).Some? && Json.Decode(text).value.Arr?
             && exists i :: 0 <= i < |Json.Decode(text).value.items| && !Json.Decode(text).value.items[i].Str?)
            ==> r == []
    ensures forall ts :: Json.Decode(text) == Some(Json.Arr(Json.Strs(ts))) ==> r == NormalizeTags(ts)
  {
    match Json.Decode(text)
    case Some(Arr(items)) =>
      AllStringsOfStrs(items);
      (match Json.AllStrings(items)
       case Some(ts) => NormalizeTags(ts)
       case None => [])
    case _ => []
  }

  lemma AllStringsOfStrs(items: seq<Json.Value>)
    ensures forall ts :: items == Json.Strs(ts) ==> Json.AllStrings(items) == Some(ts)
  {
    forall ts | items == Json.Strs(ts) ensures Json.AllStrings(items) == Some(ts) {
      assert forall i :: 0 <= i < |items| ==> items[i] == Json.Str(ts[i]);
      assert Json.AllStrings(items).Some?;
      var us := Json.AllStrings(items).value;
      assert Json.Strs(us) == items;
      assert |us| == |ts|;
      forall i | 0 <= i < |us| ensures us[i] == ts[i] {
        assert Json.Strs(us)[i] == Json.Str(us[i]);
        assert Json.Strs(ts)[i] == Json.Str(ts[i]);
      }
      assert us == ts;
    }
  }

  /** `tagsToJson`: the JSON text of the normalised list. */
  function TagsToJson(tags: seq<string>): string {
    Json.EncodeStrings(NormalizeTags(tags))
  }

  /** Reading back what was stored gives the normalised list. */
  lemma ParseTagsToJson(tags: seq<string>)
    ensures ParseTagsFromJson(TagsToJson(tags)) == NormalizeTags(tags)
  {
    Json.DecodeEncodeStrings(NormalizeTags(tags));
    NormalizeTagsIdempotent(tags);
  }

  /** Storing what was read back stores the same text again. */
  lemma TagsToJsonStable(tags: seq<string>)
    ensures TagsToJson(ParseTagsFromJson(TagsToJson(tags))) == TagsToJson(tags)
  {
    ParseTagsToJson(tags);
    NormalizeTagsIdempotent(tags);
  }

  /* ------------------------------------------------------ vocabulary */

  predicate StrictlySorted(xs: seq<string>) {
    forall i, j :: 0 <= i < j < |xs| ==> Less(xs[i], xs[j])
  }

  /** Insert `x` into a strictly sorted list unless it is already there. */
  function Insert(x: string, xs: seq<string>): seq<string> {
    if |xs| == 0 then [x]
    else if x == xs[0] then xs
    else if Less(x, xs[0]) then [x] + xs
    else [xs[0]] + Insert(x, xs[1..])
  }

  lemma {:induction false} InsertSorted(x: string, xs: seq<string>)
    requires StrictlySorted(xs)
    ensures StrictlySorted(Insert(x, xs))
    ensures forall y :: y in Insert(x, xs) <==> y == x || y in xs
  {
    if |xs| > 0 && x != xs[0] {
      if Less(x, xs[0]) {
        forall j | 0 < j < |xs| ensures Less(x, xs[j]) {
          LessTransitive(x, xs[0], xs[j]);
        }
      } else {
        LessTotal(x, xs[0]);
        InsertSorted(x, xs[1..]);
        var r := Insert(x, xs);
        assert r == [xs[0]] + Insert(x, xs[1..]);
        assert forall y :: y in xs <==> y == xs[0] || y in xs[1..];
        forall i, j | 0 <= i < j < |r| ensures Less(r[i], r[j]) {
          if i == 0 {
            assert r[j] in Insert(x, xs[1..]);
          }
        }
      }
    }
  }

  /** The strictly sorted list of the distinct elements of `xs`. */
  function SortDistinct(xs: seq<string>): (r: seq<string>)
    ensures StrictlySorted(r)
    ensures forall y :: y in r <==> y in xs
  {
    if |xs| == 0 then []
    else
      var rest := SortDistinct(xs[1..]);
      InsertSorted(xs[0], rest);
      assert forall y :: y in xs <==> y == xs[0] || y in xs[1..];
      Insert(xs[0], rest)
  }

  /** The head of a strictly sorted list comes before every other element. */
  lemma SortedHead(a: seq<string>, y: string)
    requires StrictlySorted(a) && y in a && |a| > 0 && y != a[0]
    ensures Less(a[0], y)
  {
    var k :| 0 <= k < |a| && a[k] == y;
    assert k > 0;
  }

  lemma SameMembersNonEmpty(a: seq<string>, b: seq<string>)
    requires forall y :: y in a ==> y in b
    ensures |a| > 0 ==> |b| > 0
  {
    if |a| > 0 {
      assert a[0] in b;
    }
  }

  /** A strictly sorted list is determined by its elements: sorting the
      distinct tags has exactly one outcome. */
  lemma {:induction false} SortedUnique(a: seq<string>, b: seq<string>)
    requires StrictlySorted(a) && StrictlySorted(b)
    requires forall y :: y in a <==> y in b
    ensures a == b
  {
    SameMembersNonEmpty(a, b);
    SameMembersNonEmpty(b, a);
    if |a| > 0 {
      assert a[0] in a && b[0] in b;
      if a[0] != b[0] {
        SortedHead(a, b[0]);
        SortedHead(b, a[0]);
        LessAsymmetric(a[0], b[0]);
      }
      forall y ensures y in a[1..] <==> y in b[1..] {
        if y in a[1..] {
          var k :| 0 <= k < |a[1..]| && a[1..][k] == y;
          assert Less(a[0], a[k + 1]);
          LessIrreflexive(a[0]);
          assert y in b;
        }
        if y in b[1..] {
          var k :| 0 <= k < |b[1..]| && b[1..][k] == y;
          assert Less(b[0], b[k + 1]);
          LessIrreflexive(b[0]);
          assert y in a;
        }
      }
      SortedUnique(a[1..], b[1..]);
    }
  }

  /** Every tag of every command, in command order. */
  function TagsOf(commands: seq<Command>): (r: seq<string>)
    ensures forall t :: t in r <==> exists i :: 0 <= i < |commands| && t in ParseTagsFromJson(commands[i].tags)
  {
    if |commands| == 0 then []
    else
      var rest := TagsOf(commands[1..]);
      assert forall i :: 1 <= i < |commands| ==> commands[i] == commands[1..][i - 1];
      ParseTagsFromJson(commands[0].tags) + rest
  }

  /** `getAllTags`: the tag vocabulary, sorted without duplicates. */
  function GetAllTags(commands: seq<Command>): (r: seq<string>)
    ensures StrictlySorted(r)
    ensures Distinct(r)
    ensures forall t :: t in r <==> exists i :: 0 <= i < |commands| && t in ParseTagsFromJson(commands[i].tags)
  {
    var r := SortDistinct(TagsOf(commands));
    assert Distinct(r) by {
      forall i, j | 0 <= i < j < |r| ensures r[i] != r[j] {
        LessIrreflexive(r[i]);
      }
    }
    r
  }

  /* --------------------------------------------------------- filtering */

  /** Every canonical filter tag is one of the command's stored tags. */
  predicate HasAllTags(command: Command, filterTags: seq<string>) {
    forall t :: t in NormalizeTags(filterTags) ==> t in ParseTagsFromJson(command.tags)
  }

  /** `filterCommandsByTags`: with no filter tags, the commands unchanged;
      otherwise the commands carrying every filter tag exactly (after
      normalisation), in their original order. */
  function FilterCommandsByTags(commands: seq<Command>, filterTags: seq<string>): (r: seq<Command>)
    ensures |filterTags| == 0 ==> r == commands
    ensures IsSubsequence(r, commands)
    ensures forall c :: c in r <==>
              (c in commands &&
               (|filterTags| == 0 ||
                forall k :: 0 <= k < |filterTags| && !AllWhitespace(filterTags[k]) ==>
                  NormalizeTag(filterTags[k]) in ParseTagsFromJson(c.tags)))
    ensures forall c :: multiset(r)[c] == if HasAllTags(c, filterTags) then multiset(commands)[c] else 0
  {
    if |filterTags| == 0 then
      assert NormalizeTags(filterTags) == [];
      assert forall c :: HasAllTags(c, filterTags);
      SubsequenceReflexive(commands);
      commands
    else
      var keep := (c: Command) => HasAllTags(c, filterTags);
      FilterSpec(commands, keep);
      HasAllTagsEach(commands, filterTags);
      Filter(commands, keep)
  }

  /** Carrying every normalised filter tag is carrying the normal form of
      every filter tag that is not blank. */
  lemma HasAllTagsSpec(c: Command, filterTags: seq<string>)
    ensures HasAllTags(c, filterTags) <==>
              forall k :: 0 <= k < |filterTags| && !AllWhitespace(filterTags[k]) ==>
                NormalizeTag(filterTags[k]) in ParseTagsFromJson(c.tags)
  {
    var n := NormalizeTags(filterTags);
    forall k | 0 <= k < |filterTags| && !AllWhitespace(filterTags[k]) ensures NormalizeTag(filterTags[k]) in n {
      NormalizeTagsMembership(filterTags, NormalizeTag(filterTags[k]));
    }
    forall t | t in n
      ensures exists k :: 0 <= k < |filterTags| && !AllWhitespace(filterTags[k]) && NormalizeTag(filterTags[k]) == t
    {
      NormalizeTagsMembership(filterTags, t);
    }
  }

  lemma HasAllTagsEach(commands: seq<Command>, filterTags: seq<string>)
    ensures forall c :: c in commands ==>
              (HasAllTags(c, filterTags) <==>
               forall k :: 0 <= k < |filterTags| && !AllWhitespace(filterTags[k]) ==>
                 NormalizeTag(filterTags[k]) in ParseTagsFromJson(c.tags))
  {
    forall c | c in commands
      ensures HasAllTags(c, filterTags) <==>
                forall k :: 0 <= k < |filterTags| && !AllWhitespace(filterTags[k]) ==>
                  NormalizeTag(filterTags[k]) in ParseTagsFromJson(c.tags)
    {
      HasAllTagsSpec(c, filterTags);
    }
  }

  /* ------------------------------------------------------- suggestions */

  predicate StartsWith(t: string, prefix: string) {
    prefix <= t
  }

  function Starting(prefix: string): string -> bool {
    (t: string) => StartsWith(t, prefix)
  }

  /** How many of the tags before position `j` start with `prefix`. */
  function MatchesBefore(tags: seq<string>, j: nat, prefix: string): nat
    requires j <= |tags|
  {
    |Filter(tags[..j], Starting(prefix))|
  }

  /** `suggestTags`: up to `maxSuggestions` of the existing tags that start
      with the normalised input, in their order; every tag when the
      normalised input is empty. `maxSuggestions` goes to `slice(0, n)`,
      so a negative value drops that many from the end. */
  function SuggestTags(input: string, existingTags: seq<string>, maxSuggestions: int): (r: seq<string>)
    ensures IsSubsequence(r, existingTags)
    ensures maxSuggestions >= 0 ==> |r| <= maxSuggestions
    ensures forall t :: t in r ==> StartsWith(t, NormalizeTag(input))
    ensures NormalizeTag(input) == [] && maxSuggestions >= 0 ==>
              r == existingTags[..if maxSuggestions < |existingTags| then maxSuggestions else |existingTags|]
    ensures 0 <= maxSuggestions && |r| < maxSuggestions ==>
              forall t :: t in existingTags && StartsWith(t, NormalizeTag(input)) ==> t in r
    ensures maxSuggestions >= 1 ==>
              forall j :: 0 <= j < |existingTags| && StartsWith(existingTags[j], NormalizeTag(input)) ==>
                |r| > 0 && r[0] in existingTags[..j + 1]
    ensures maxSuggestions >= 0 ==>
              forall j :: 0 <= j < |existingTags| && StartsWith(existingTags[j], NormalizeTag(input))
                          && existingTags[j] !in r ==>
                |r| == maxSuggestions && forall t :: t in r ==> t in existingTags[..j]
    ensures maxSuggestions >= 0 ==>
              forall j :: 0 <= j < |existingTags| && StartsWith(existingTags[j], NormalizeTag(input))
                          && MatchesBefore(existingTags, j, NormalizeTag(input)) < maxSuggestions ==>
                MatchesBefore(existingTags, j, NormalizeTag(input)) < |r|
                && r[MatchesBefore(existingTags, j, NormalizeTag(input))] == existingTags[j]
    ensures maxSuggestions < 0 ==>
              var m := MatchesBefore(existingTags, |existingTags|, NormalizeTag(input));
              |r| == if m + maxSuggestions > 0 then m + maxSuggestions else 0
    ensures forall j :: 0 <= j < |existingTags| && StartsWith(existingTags[j], NormalizeTag(input))
                        && MatchesBefore(existingTags, j, NormalizeTag(input)) < |r| ==>
              r[MatchesBefore(existingTags, j, NormalizeTag(input))] == existingTags[j]
  {
    var prefix := NormalizeTag(input);
    if |prefix| == 0 then
      var r := SliceTo(existingTags, maxSuggestions);
      PrefixSubsequence(r, existingTags);
      assert maxSuggestions >= 1 && |existingTags| > 0 ==> r[0] == existingTags[0];
      assert maxSuggestions >= 0 ==> forall j :: 0 <= j < |existingTags| && existingTags[j] !in r ==>
        maxSuggestions <= j && r == existingTags[..maxSuggestions] && r <= existingTags[..j];
      forall j | 0 <= j <= |existingTags| ensures MatchesBefore(existingTags, j, prefix) == j {
        FilterKeepsAll(existingTags[..j], Starting(prefix));
      }
      FilterKeepsAll(existingTags, Starting(prefix));
      SuggestPositions(existingTags, prefix, maxSuggestions);
      r
    else
      SuggestMatching(existingTags, prefix, maxSuggestions);
      SuggestPositions(existingTags, prefix, maxSuggestions);
      SliceTo(Filter(existingTags, Starting(prefix)), maxSuggestions)
  }

  /** With a repeated existing tag, the limit counts matching positions:
      for tags `a, b, a` that all match and a limit of 2, the second
      suggestion is the next matching tag `b`, not the repeat of `a`. */
  lemma SuggestRepeatedTag(input: string, xs: seq<string>)
    requires |xs| == 3 && xs[0] == xs[2]
    requires StartsWith(xs[0], NormalizeTag(input)) && StartsWith(xs[1], NormalizeTag(input))
    ensures SuggestTags(input, xs, 2) == xs[..2]
  {
    PinnedPair(xs, NormalizeTag(input), SuggestTags(input, xs, 2));
  }

  /** Any list of at most two that puts each of the first two matching
      positions of `a, b, a` where the position clause says is `[a, b]`. */
  lemma PinnedPair(xs: seq<string>, prefix: string, r: seq<string>)
    requires |xs| == 3 && xs[0] == xs[2]
    requires StartsWith(xs[0], prefix) && StartsWith(xs[1], prefix)
    requires |r| <= 2
    requires forall j :: 0 <= j < |xs| && StartsWith(xs[j], prefix) && MatchesBefore(xs, j, prefix) < 2 ==>
               MatchesBefore(xs, j, prefix) < |r| && r[MatchesBefore(xs, j, prefix)] == xs[j]
    ensures r == xs[..2]
  {
    assert xs[..0] == [];
    assert MatchesBefore(xs, 0, prefix) == 0;
    assert xs[..1] == [xs[0]];
    assert Filter([xs[0]], Starting(prefix)) == [xs[0]] + Filter([], Starting(prefix));
    assert MatchesBefore(xs, 1, prefix) == 1;
  }

  /** The suggestions for a non-empty prefix: a leading slice of the
      matching tags. */
  lemma SuggestMatching(existingTags: seq<string>, prefix: string, maxSuggestions: int)
    ensures var r := SliceTo(Filter(existingTags, Starting(prefix)), maxSuggestions);
      && IsSubsequence(r, existingTags)
      && (forall t :: t in r ==> StartsWith(t, prefix))
      && (0 <= maxSuggestions && |r| < maxSuggestions ==>
            forall t :: t in existingTags && StartsWith(t, prefix) ==> t in r)
      && (maxSuggestions >= 1 ==>
            forall j :: 0 <= j < |existingTags| && StartsWith(existingTags[j], prefix) ==>
              |r| > 0 && r[0] in existingTags[..j + 1])
      && (maxSuggestions >= 0 ==>
            forall j :: 0 <= j < |existingTags| && StartsWith(existingTags[j], prefix) && existingTags[j] !in r ==>
              |r| == maxSuggestions && forall t :: t in r ==> t in existingTags[..j])
      && (maxSuggestions >= 0 ==>
            forall j :: 0 <= j < |existingTags| && StartsWith(existingTags[j], prefix)
                        && MatchesBefore(existingTags, j, prefix) < maxSuggestions ==>
              MatchesBefore(existingTags, j, prefix) < |r| && r[MatchesBefore(existingTags, j, prefix)] == existingTags[j])
  {
    var starts := Starting(prefix);
    var matching := Filter(existingTags, starts);
    var r := SliceTo(matching, maxSuggestions);
    FilterSpec(existingTags, starts);
    PrefixSubsequence(r, matching);
    SubsequenceTransitive(r, matching, existingTags);
    SubsequenceMembers(r, matching);
    if 0 <= maxSuggestions && |r| < maxSuggestions {
      assert r == matching;
    }
    if maxSuggestions >= 1 {
      forall j | 0 <= j < |existingTags| && StartsWith(existingTags[j], prefix)
        ensures |r| > 0 && r[0] in existingTags[..j + 1]
      {
        FilterFirst(existingTags, starts, j);
      }
    }
    if maxSuggestions >= 0 {
      forall j | 0 <= j < |existingTags| && StartsWith(existingTags[j], prefix) && existingTags[j] !in r
        ensures |r| == maxSuggestions && forall t :: t in r ==> t in existingTags[..j]
      {
        FilterCut(existingTags, starts, maxSuggestions, j);
      }
      forall j | 0 <= j < |existingTags| && StartsWith(existingTags[j], prefix)
                 && MatchesBefore(existingTags, j, prefix) < maxSuggestions
        ensures MatchesBefore(existingTags, j, prefix) < |r| && r[MatchesBefore(existingTags, j, prefix)] == existingTags[j]
      {
        FilterAt(existingTags, starts, j);
      }
    }

  }

  /** For any limit, the suggestions for a prefix are the leading matches:
      a negative limit drops that many matches from the end, and the match
      with `k` matches before it is suggestion `k` whenever there are more
      than `k` suggestions. */
  lemma SuggestPositions(existingTags: seq<string>, prefix: string, maxSuggestions: int)
    ensures var r := SliceTo(Filter(existingTags, Starting(prefix)), maxSuggestions);
      && (maxSuggestions < 0 ==>
            var m := MatchesBefore(existingTags, |existingTags|, prefix);
            |r| == if m + maxSuggestions > 0 then m + maxSuggestions else 0)
      && (forall j :: 0 <= j < |existingTags| && StartsWith(existingTags[j], prefix)
                      && MatchesBefore(existingTags, j, prefix) < |r| ==>
            r[MatchesBefore(existingTags, j, prefix)] == existingTags[j])
  {
    var r := SliceTo(Filter(existingTags, Starting(prefix)), maxSuggestions);
    assert existingTags[..|existingTags|] == existingTags;
    forall j | 0 <= j < |existingTags| && StartsWith(existingTags[j], prefix) && MatchesBefore(existingTags, j, prefix) < |r|
      ensures r[MatchesBefore(existingTags, j, prefix)] == existingTags[j]
    {
      FilterAt(existingTags, Starting(prefix), j);
    }
  }
}

=== FILE: text.dfy ===
/** The JavaScript string operations the utilities are built from, on `seq<char>`:
    `trim`, `toLowerCase` (ASCII letters), `includes`, `startsWith`, `split` and `join`
    on a one-character separator, `indexOf`/`lastIndexOf`, the clamping of
    `substring`, UTF-16 length, and the code-unit order of `Array.prototype.sort`. */
module Text {

  /** The characters `String.prototype.trim` removes: the WhiteSpace and
      LineTerminator code points of ECMAScript. */
  predicate IsWhitespace(c: char) {
    || c == '\t' || c == '\n' || c == '\U{000B}' || c == '\U{000C}' || c == '\r' || c == ' '
    || c == '\U{00A0}' || c == '\U{1680}' || ('\U{2000}' <= c <= '\U{200A}')
    || c == '\U{2028}' || c == '\U{2029}' || c == '\U{202F}' || c == '\U{205F}'
    || c == '\U{3000}' || c == '\U{FEFF}'
  }

  /** The characters a regular-expression `.` does not match. */
  predicate IsLineTerminator(c: char) {
    c == '\n' || c == '\r' || c == '\U{2028}' || c == '\U{2029}'
  }

  predicate IsUpper(c: char) {
    'A' <= c <= 'Z'
  }

  function ToLower(c: char): (r: char)
    ensures !IsUpper(r)
    ensures IsWhitespace(r) <==> IsWhitespace(c)
    ensures r != c ==> IsUpper(c)
  {
    if IsUpper(c) then (c as int + 32) as char else c
  }

  function Lower(s: string): (r: string)
    ensures |r| == |s|
    ensures forall i :: 0 <= i < |s| ==> r[i] == ToLower(s[i])
  {
    seq(|s|, i requires 0 <= i < |s| => ToLower(s[i]))
  }

  predicate NoUpper(s: string) {
    forall i :: 0 <= i < |s| ==> !IsUpper(s[i])
  }

  lemma LowerConcat(a: string, b: string)
    ensures Lower(a + b) == Lower(a) + Lower(b)
  {
    assert forall i :: 0 <= i < |a + b| ==> Lower(a + b)[i] == (Lower(a) + Lower(b))[i];
  }

  lemma LowerNoUpper(s: string)
    ensures NoUpper(Lower(s))
    ensures NoUpper(s) ==> Lower(s) == s
  {
  }

  /* ---------------------------------------------------------------- trim */

  predicate IsTrimmed(s: string) {
    |s| == 0 || (!IsWhitespace(s[0]) && !IsWhitespace(s[|s| - 1]))
  }

  predicate AllWhitespace(s: string) {
    forall i :: 0 <= i < |s| ==> IsWhitespace(s[i])
  }

  lemma AllWhitespaceConcat(x: string, y: string)
    ensures AllWhitespace(x + y) <==> AllWhitespace(x) && AllWhitespace(y)
  {
    if AllWhitespace(x + y) {
      assert forall i :: 0 <= i < |x| ==> x[i] == (x + y)[i];
      assert forall i :: 0 <= i < |y| ==> y[i] == (x + y)[|x| + i];
    }
    if AllWhitespace(x) && AllWhitespace(y) {
      forall i | 0 <= i < |x + y| ensures IsWhitespace((x + y)[i]) {
        if i >= |x| {
          assert (x + y)[i] == y[i - |x|];
        }
      }
    }
  }

  /** `String.prototype.trim`: white space removed from both ends, one
      character at a time. */
  function Trim(s: string): (r: string)
    ensures IsTrimmed(r) && |r| <= |s|
    ensures r == [] <==> AllWhitespace(s)
    ensures IsTrimmed(s) ==> r == s
    decreases |s|
  {
    if |s| > 0 && IsWhitespace(s[0]) then
      AllWhitespaceConcat([s[0]], s[1..]);
      assert [s[0]] + s[1..] == s;
      Trim(s[1..])
    else if |s| > 0 && IsWhitespace(s[|s| - 1]) then
      AllWhitespaceConcat(s[..|s| - 1], [s[|s| - 1]]);
      assert s[..|s| - 1] + [s[|s| - 1]] == s;
      Trim(s[..|s| - 1])
    else s
  }

  /** A leading blank does not survive trimming. */
  lemma TrimLeadingBlank(s: string)
    ensures Trim([' '] + s) == Trim(s)
  {
    assert ([' '] + s)[1..] == s;
  }

  lemma TrimIdempotent(s: string)
    ensures Trim(Trim(s)) == Trim(s)
  {
  }

  /** Trimming only removes characters. */
  lemma {:induction false} TrimSubset(s: string)
    ensures forall c :: c in Trim(s) ==> c in s
    decreases |s|
  {
    if |s| > 0 && IsWhitespace(s[0]) {
      TrimSubset(s[1..]);
      assert forall c :: c in s[1..] ==> c in s;
    } else if |s| > 0 && IsWhitespace(s[|s| - 1]) {
      TrimSubset(s[..|s| - 1]);
      assert forall c :: c in s[..|s| - 1] ==> c in s;
    }
  }

  /** Lower-casing keeps a trimmed string trimmed. */
  lemma LowerTrimmed(s: string)
    requires IsTrimmed(s)
    ensures IsTrimmed(Lower(s))
  {
  }

  lemma AllWhitespaceLower(s: string)
    ensures AllWhitespace(Lower(s)) <==> AllWhitespace(s)
  {
    if AllWhitespace(Lower(s)) {
      forall i | 0 <= i < |s| ensures IsWhitespace(s[i]) {
        assert IsWhitespace(Lower(s)[i]);
      }
    }
  }

  /* ------------------------------------------------------------ searching */

  /** `s.includes(sub)`: `sub` occurs somewhere in `s`. */
  predicate Contains(s: string, sub: string) {
    sub <= s || (|s| > 0 && Contains(s[1..], sub))
  }

  lemma {:induction false} ContainsAt(s: string, sub: string)
    ensures Contains(s, sub) <==> exists i :: 0 <= i <= |s| && sub <= s[i..]
  {
    if |s| > 0 {
      if sub <= s {
        assert s[0..] == s;
      }
      ContainsAt(s[1..], sub);
      if Contains(s, sub) && !(sub <= s) {
        var i :| 0 <= i <= |s[1..]| && sub <= s[1..][i..];
        assert s[1..][i..] == s[i + 1..];
      }
      if !(sub <= s) && exists i :: 0 <= i <= |s| && sub <= s[i..] {
        var i :| 0 <= i <= |s| && sub <= s[i..];
        assert i > 0;
        assert s[1..][i - 1..] == s[i..];
      }
    } else {
      if exists i :: 0 <= i <= |s| && sub <= s[i..] {
        var i :| 0 <= i <= |s| && sub <= s[i..];
        assert s[i..] == s;
      }
    }
  }

  /** The empty string occurs in every string. */
  lemma ContainsEmpty(s: string)
    ensures Contains(s, [])
  {
  }

  /** `s.indexOf(c)`. */
  function IndexOf(s: string, c: char): (r: int)
    ensures -1 <= r < |s|
    ensures r >= 0 ==> s[r] == c
    ensures forall j :: 0 <= j < |s| && (r < 0 || j < r) ==> s[j] != c
  {
    if |s| == 0 then -1
    else if s[0] == c then 0
    else
      var k := IndexOf(s[1..], c);
      assert forall j :: 0 < j < |s| ==> s[j] == s[1..][j - 1];
      if k < 0 then -1 else k + 1
  }

  /** The first occurrence is unique: a position holding `c` with no `c`
      before it is the index `IndexOf` finds. */
  lemma IndexOfFirst(s: string, c: char, m: nat)
    requires m < |s| && s[m] == c
    requires forall j :: 0 <= j < m ==> s[j] != c
    ensures IndexOf(s, c) == m
  {
  }

  /** A string without `c` has no index of it. */
  lemma IndexOfNone(s: string, c: char)
    requires c !in s
    ensures IndexOf(s, c) == -1
  {
    assert forall j :: 0 <= j < |s| ==> s[j] in s;
  }

  /** `s.lastIndexOf(c)`. */
  function LastIndexOf(s: string, c: char): (r: int)
    ensures -1 <= r < |s|
    ensures r >= 0 ==> s[r] == c
    ensures forall j :: r < j < |s| ==> s[j] != c
  {
    if |s| == 0 then -1
    else if s[|s| - 1] == c then |s| - 1
    else LastIndexOf(s[..|s| - 1], c)
  }

  /** `s.lastIndexOf(pat)` for a pattern string. */
  function LastIndexOfSub(s: string, pat: string): (r: int)
    ensures -1 <= r <= |s|
    ensures r >= 0 ==> r + |pat| <= |s| && pat <= s[r..]
    ensures r >= 0 ==> forall k :: r < k <= |s| ==> !(pat <= s[k..])
    ensures r == -1 ==> forall k :: 0 <= k <= |s| ==> !(pat <= s[k..])
  {
    if |s| < |pat| then -1
    else if pat <= s[|s| - |pat|..] then |s| - |pat|
    else
      PrefixDropLastAll(s, pat);
      LastIndexOfSub(s[..|s| - 1], pat)
  }

  /** Below the last place the pattern fits, dropping the last character
      does not change where it occurs. */
  lemma PrefixDropLastAll(s: string, pat: string)
    requires |pat| <= |s|
    ensures forall k :: 0 <= k < |s| - |pat| ==> (pat <= s[k..] <==> pat <= s[..|s| - 1][k..])
  {
    forall k | 0 <= k < |s| - |pat| ensures pat <= s[k..] <==> pat <= s[..|s| - 1][k..] {
      PrefixDropLast(s, pat, k);
    }
  }

  lemma PrefixDropLast(s: string, pat: string, k: nat)
    requires k < |s| - |pat|
    ensures pat <= s[k..] <==> pat <= s[..|s| - 1][k..]
  {
    assert s[k..][..|pat|] == s[..|s| - 1][k..][..|pat|];
  }

  /** The last occurrence is unique: a position holding `c` with no `c`
      after it is the index `LastIndexOf` finds. */
  lemma LastIndexOfLast(s: string, c: char, m: nat)
    requires m < |s| && s[m] == c
    requires forall j :: m < j < |s| ==> s[j] != c
    ensures LastIndexOf(s, c) == m
  {
  }

  /** JavaScript `substring` clamps its index arguments into `[0, len]`. */
  function Clamp(n: int, len: nat): (r: nat)
    ensures r <= len
    ensures 0 <= n <= len ==> r == n
  {
    if n < 0 then 0 else if n > len then len else n
  }

  /** `s.substring(0, n)`: the characters before index `n`, clamped. */
  function Before(s: string, n: int): (r: string)
    ensures |r| == Clamp(n, |s|)
    ensures forall i :: 0 <= i < |r| ==> r[i] == s[i]
  {
    if n <= 0 then [] else if n >= |s| then s else s[..n]
  }

  /** `s.substring(n)`: the characters from index `n` on, clamped. */
  function After(s: string, n: int): (r: string)
    ensures |r| == |s| - Clamp(n, |s|)
    ensures forall i :: 0 <= i < |r| ==> r[i] == s[Clamp(n, |s|) + i]
  {
    if n <= 0 then s else if n >= |s| then [] else s[n..]
  }

  /** A cut at or past the end keeps everything. */
  lemma BeforeAll(s: string, n: int)
    requires n >= |s|
    ensures Before(s, n) == s
  {
  }

  /** Cutting at an index loses nothing. */
  lemma BeforeAfter(s: string, n: int)
    ensures Before(s, n) + After(s, n) == s
  {
    if n <= 0 {
      assert [] + s == s;
    } else if n >= |s| {
      assert s + [] == s;
    } else {
      assert s[..n] + s[n..] == s;
    }
  }

  predicate NonEmpty(t: string) {
    |t| > 0
  }

  /** `parts.map(s => s.trim())`. */
  function TrimEach(parts: seq<string>): (r: seq<string>)
    ensures |r| == |parts|
    ensures forall i :: 0 <= i < |parts| ==> r[i] == Trim(parts[i])
  {
    seq(|parts|, i requires 0 <= i < |parts| => Trim(parts[i]))
  }

  lemma TrimEachConcat(x: seq<string>, y: seq<string>)
    ensures TrimEach(x + y) == TrimEach(x) + TrimEach(y)
  {
    var l, r := TrimEach(x + y), TrimEach(x) + TrimEach(y);
    assert forall i :: 0 <= i < |x| ==> l[i] == Trim(x[i]) == r[i];
    assert forall i :: |x| <= i < |x + y| ==> l[i] == Trim(y[i - |x|]) == r[i];
  }

  /* ------------------------------------------------------ split and join */

  /** `s.split(sep)` for a one-character separator: the maximal runs of `s`
      between separators, always at least one (possibly empty) piece. */
  function Split(s: string, sep: char): (parts: seq<string>)
    ensures |parts| >= 1
  {
    if |s| == 0 then [[]]
    else
      var rest := Split(s[1..], sep);
      if s[0] == sep then [[]] + rest
      else [[s[0]] + rest[0]] + rest[1..]
  }

  /** `parts.join(glue)`. */
  function Join(parts: seq<string>, glue: string): string {
    if |parts| == 0 then []
    else if |parts| == 1 then parts[0]
    else parts[0] + glue + Join(parts[1..], glue)
  }

  /** Appending one more piece appends the glue and the piece. */
  lemma {:induction false} JoinAppend(parts: seq<string>, x: string, glue: string)
    requires |parts| >= 1
    ensures Join(parts + [x], glue) == Join(parts, glue) + glue + x
  {
    if |parts| > 1 {
      assert (parts + [x])[1..] == parts[1..] + [x];
      JoinAppend(parts[1..], x, glue);
    }
  }

  /** Joining the pieces of a split with the separator gives back the string. */
  lemma {:induction false} JoinSplit(s: string, sep: char)
    ensures Join(Split(s, sep), [sep]) == s
  {
    if |s| > 0 {
      var rest := Split(s[1..], sep);
      JoinSplit(s[1..], sep);
      if s[0] == sep {
        assert Split(s, sep) == [[]] + rest;
      } else {
        var parts := Split(s, sep);
        assert parts[0] == [s[0]] + rest[0];
        if |rest| == 1 {
          assert Join(parts, [sep]) == [s[0]] + rest[0];
        } else {
          assert parts[1..] == rest[1..];
          assert Join(rest, [sep]) == rest[0] + [sep] + Join(rest[1..], [sep]);
        }
      }
    }
  }

  /** Splitting a joined list of separator-free pieces gives back the pieces. */
  lemma {:induction false} SplitJoin(parts: seq<string>, sep: char)
    requires |parts| >= 1
    requires forall p :: p in parts ==> sep !in p
    ensures Split(Join(parts, [sep]), sep) == parts
  {
    if |parts| == 1 {
      SplitNoSep(parts[0], sep);
    } else {
      SplitJoin(parts[1..], sep);
      assert Join(parts, [sep]) == parts[0] + [sep] + Join(parts[1..], [sep]);
      SplitConcat(parts[0], Join(parts[1..], [sep]), sep);
      SplitNoSep(parts[0], sep);
      assert parts == [parts[0]] + parts[1..];
    }
  }

  lemma {:induction false} SplitNoSep(s: string, sep: char)
    requires sep !in s
    ensures Split(s, sep) == [s]
  {
    if |s| > 0 {
      SplitNoSep(s[1..], sep);
      assert [s[0]] + s[1..] == s;
    }
  }

  /** No piece of a split holds the separator. */
  lemma {:induction false} SplitPiecesFree(s: string, sep: char)
    ensures forall i :: 0 <= i < |Split(s, sep)| ==> sep !in Split(s, sep)[i]
  {
    if |s| > 0 {
      var rest := Split(s[1..], sep);
      SplitPiecesFree(s[1..], sep);
      if s[0] != sep {
        var parts := Split(s, sep);
        assert parts == [[s[0]] + rest[0]] + rest[1..];
        assert forall i :: 1 <= i < |parts| ==> parts[i] == rest[i];
      } else {
        assert forall i :: 1 <= i < |Split(s, sep)| ==> Split(s, sep)[i] == rest[i - 1];
      }
    }
  }

  /** Every character of every piece comes from the split string. */
  lemma {:induction false} SplitChars(s: string, sep: char)
    ensures forall p, c :: p in Split(s, sep) && c in p ==> c in s
  {
    if |s| > 0 {
      var rest := Split(s[1..], sep);
      SplitChars(s[1..], sep);
      assert forall c :: c in s[1..] ==> c in s;
      if s[0] != sep {
        var parts := Split(s, sep);
        assert parts == [[s[0]] + rest[0]] + rest[1..];
        assert forall p :: p in parts ==> p == [s[0]] + rest[0] || p in rest;
      }
    }
  }

  /** The first piece of a split is the text before the first separator. */
  lemma {:induction false} SplitHead(s: string, sep: char)
    ensures var h := Split(s, sep)[0];
      h <= s && (|h| == |s| || s[|h|] == sep)
  {
    if |s| > 0 && s[0] != sep {
      SplitHead(s[1..], sep);
    }
  }

  /** The last piece of a split is the text after the last separator. */
  lemma SplitLast(s: string, sep: char)
    ensures Split(s, sep)[|Split(s, sep)| - 1] == s[LastIndexOf(s, sep) + 1..]
  {
    SplitAfter(s, sep, LastIndexOf(s, sep));
  }

  /** The last piece of a split holds no separator. */
  lemma SplitLastFree(s: string, sep: char)
    ensures sep !in Split(s, sep)[|Split(s, sep)| - 1]
  {
    SplitPiecesFree(s, sep);
  }

  /** The last piece of a split is the whole text when it holds no
      separator, and otherwise the text after the last one; it holds no
      separator. */
  lemma SplitLastPiece(s: string, sep: char)
    ensures var k := LastIndexOf(s, sep);
      Split(s, sep)[|Split(s, sep)| - 1] == (if k == -1 then s else s[k + 1..])
    ensures sep !in Split(s, sep)[|Split(s, sep)| - 1]
  {
    var k := LastIndexOf(s, sep);
    if k == -1 {
      assert sep !in s;
      SplitNoSep(s, sep);
    } else {
      SplitLast(s, sep);
      NoSepAfter(s, sep, k);
    }
  }

  /** The text after a position with no separator after it is the last piece. */
  lemma SplitAfter(s: string, sep: char, k: int)
    requires -1 <= k < |s| && (k >= 0 ==> s[k] == sep)
    requires forall j :: k < j < |s| ==> s[j] != sep
    ensures Split(s, sep)[|Split(s, sep)| - 1] == s[k + 1..]
  {
    if k >= 0 {
      NoSepAfter(s, sep, k);
      SplitNoSep(s[k + 1..], sep);
      SplitAfterSep(s, sep, k);
    } else {
      NoSepAfter(s, sep, -1);
      SplitNoSep(s[0..], sep);
    }
  }

  lemma NoSepAfter(s: string, sep: char, k: int)
    requires -1 <= k < |s|
    requires forall j :: k < j < |s| ==> s[j] != sep
    ensures sep !in s[k + 1..]
  {
  }

  lemma SplitAfterSep(s: string, sep: char, k: nat)
    requires k < |s| && s[k] == sep
    requires Split(s[k + 1..], sep) == [s[k + 1..]]
    ensures Split(s, sep)[|Split(s, sep)| - 1] == s[k + 1..]
  {
    SplitAt(s, sep, k);
  }

  /** Splitting at a separator splits the text on either side of it. */
  lemma SplitAt(s: string, sep: char, k: nat)
    requires k < |s| && s[k] == sep
    ensures Split(s, sep) == Split(s[..k], sep) + Split(s[k + 1..], sep)
  {
    CutAt(s, sep, k);
    SplitConcat(s[..k], s[k + 1..], sep);
  }

  lemma CutAt(s: string, sep: char, k: nat)
    requires k < |s| && s[k] == sep
    ensures s == s[..k] + [sep] + s[k + 1..]
  {
  }

  /** Splitting distributes over a separator placed between two strings. */
  lemma {:induction false} SplitConcat(a: string, b: string, sep: char)
    ensures Split(a + [sep] + b, sep) == Split(a, sep) + Split(b, sep)
  {
    if |a| == 0 {
      SplitConcatEmpty(a, b, sep);
    } else {
      SplitConcat(a[1..], b, sep);
      SplitConcatCons(a, b, sep);
    }
  }

  lemma SplitConcatEmpty(a: string, b: string, sep: char)
    requires a == []
    ensures Split(a + [sep] + b, sep) == Split(a, sep) + Split(b, sep)
  {
    assert a + [sep] + b == [sep] + b;
    assert ([sep] + b)[1..] == b;
  }

  lemma SplitConcatCons(a: string, b: string, sep: char)
    requires |a| > 0
    requires Split(a[1..] + [sep] + b, sep) == Split(a[1..], sep) + Split(b, sep)
    ensures Split(a + [sep] + b, sep) == Split(a, sep) + Split(b, sep)
  {
    var x := a + [sep] + b;
    assert x[1..] == a[1..] + [sep] + b;
    if a[0] == sep {
      SplitConsSep(x, a, Split(a[1..], sep), Split(b, sep), sep);
    } else {
      SplitConsChar(x, a, Split(a[1..], sep), Split(b, sep), sep);
    }
  }

  lemma SplitConsSep(x: string, a: string, ra: seq<string>, rb: seq<string>, sep: char)
    requires |x| > 0 && |a| > 0 && x[0] == a[0] == sep
    requires Split(x[1..], sep) == ra + rb && Split(a[1..], sep) == ra
    ensures Split(x, sep) == Split(a, sep) + rb
  {
    assert Split(x, sep) == [[]] + (ra + rb);
    SeqAssoc([[]], ra, rb);
  }

  lemma SplitConsChar(x: string, a: string, ra: seq<string>, rb: seq<string>, sep: char)
    requires |x| > 0 && |a| > 0 && x[0] == a[0] != sep && |ra| > 0
    requires Split(x[1..], sep) == ra + rb && Split(a[1..], sep) == ra
    ensures Split(x, sep) == Split(a, sep) + rb
  {
    assert Split(x, sep) == [[a[0]] + (ra + rb)[0]] + (ra + rb)[1..];
    assert (ra + rb)[1..] == ra[1..] + rb;
    SeqAssoc([[a[0]] + ra[0]], ra[1..], rb);
  }

  lemma SeqAssoc<T>(x: seq<T>, y: seq<T>, z: seq<T>)
    ensures x + (y + z) == (x + y) + z
  {
  }

  /* ------------------------------------------------------- UTF-16 length */

  /** The number of UTF-16 code units of one character. */
  function Utf16Units(c: char): nat {
    if c as int < 0x10000 then 1 else 2
  }

  /** JavaScript's `length` of a string: its UTF-16 code-unit count. */
  function Utf16Length(s: string): (n: nat)
    ensures |s| <= n <= 2 * |s|
  {
    if |s| == 0 then 0 else Utf16Units(s[0]) + Utf16Length(s[1..])
  }

  /* --------------------------------------------------------- sort order */

  /** An integer key whose order is the order of the character's UTF-16
      code-unit sequence: a supplementary character sorts by its high
      surrogate (0xD800..0xDBFF) against a BMP character. */
  function CodeUnitKey(c: char): int {
    if c as int < 0x10000 then c as int * 0x400 else 0xD800 * 0x400 + (c as int - 0x10000)
  }

  lemma CodeUnitKeyInjective(c: char, d: char)
    ensures CodeUnitKey(c) == CodeUnitKey(d) ==> c == d
  {
  }

  /** The order `Array.prototype.sort` uses without a comparator: lexicographic
      on UTF-16 code units, a proper prefix sorting first. */
  predicate Less(a: string, b: string) {
    if |a| == 0 then |b| > 0
    else if |b| == 0 then false
    else if a[0] == b[0] then Less(a[1..], b[1..])
    else CodeUnitKey(a[0]) < CodeUnitKey(b[0])
  }

  lemma {:induction false} LessIrreflexive(a: string)
    ensures !Less(a, a)
  {
    if |a| > 0 {
      LessIrreflexive(a[1..]);
    }
  }

  lemma {:induction false} LessTransitive(a: string, b: string, c: string)
    requires Less(a, b) && Less(b, c)
    ensures Less(a, c)
  {
    if |a| > 0 && |b| > 0 && |c| > 0 {
      if a[0] == b[0] && b[0] == c[0] {
        LessTransitive(a[1..], b[1..], c[1..]);
      }
    }
  }

  lemma {:induction false} LessTotal(a: string, b: string)
    requires a != b
    ensures Less(a, b) || Less(b, a)
  {
    if |a| > 0 && |b| > 0 {
      if a[0] == b[0] {
        assert a == [a[0]] + a[1..] && b == [b[0]] + b[1..];
        LessTotal(a[1..], b[1..]);
      } else {
        CodeUnitKeyInjective(a[0], b[0]);
      }
    }
  }

  lemma {:induction false} LessAsymmetric(a: string, b: string)
    requires Less(a, b)
    ensures !Less(b, a)
  {
    if |a| > 0 && |b| > 0 && a[0] == b[0] {
      LessAsymmetric(a[1..], b[1..]);
    }
  }
}

=== FILE: variables.dfy ===
/** Command templates with `{{name}}` placeholders. The text is read by a
    left-to-right scanner with two states, outside a placeholder (literal)
    and inside one; its output is proved equal to the leftmost,
    non-overlapping matches of the pattern `{{` + one or more non-`}`
    characters + `}}` that the extraction, substitution and detection all
    use. */
module Variables {
  import opened Wrappers
  import opened Text
  import opened Seqs

  /** One unit of scanned text: a literal character, or a placeholder with
      its raw (untrimmed) name. */
  datatype Token = Lit(c: char) | Hole(name: string)

  /** The scanner's state: in literal text, or inside a placeholder whose
      `{{` and name characters so far have been read. */
  datatype ScanState = Literal | Inside(name: string)

  /** The length of the text from where the current match attempt started. */
  function Anchor(rest: string, st: ScanState): nat {
    match st
    case Literal => |rest|
    case Inside(name) => |rest| + |name| + 2
  }

  /** The two-state scanner. Inside a placeholder it reads name characters
      up to the first `}`; a `}}` after a non-empty name closes the
      placeholder, anything else abandons the attempt, emits the first `{`
      as text and rescans from the character after it. */
  function Run(rest: string, st: ScanState): seq<Token>
    decreases Anchor(rest, st), if st.Literal? then 1 else 0, |rest|
  {
    match st
    case Literal =>
      if |rest| == 0 then []
      else if |rest| >= 2 && rest[0] == '{' && rest[1] == '{' then Run(rest[2..], Inside([]))
      else [Lit(rest[0])] + Run(rest[1..], Literal)
    case Inside(name) =>
      if |rest| > 0 && rest[0] != '}' then Run(rest[1..], Inside(name + [rest[0]]))
      else if |name| > 0 && |rest| >= 2 && rest[1] == '}' then [Hole(name)] + Run(rest[2..], Literal)
      else [Lit('{')] + Run("{" + name + rest, Literal)
  }

  function Tokens(text: string): seq<Token> {
    Run(text, Literal)
  }

  /* ------------------------------------------------ reference: the pattern */

  /** `s` begins with a match of `{{[^}]+}}` whose name has `n` characters. */
  predicate PatternAt(s: string, n: nat) {
    n >= 1 && n + 4 <= |s| && s[..2] == "{{" && '}' !in s[2..n + 2] && s[n + 2..n + 4] == "}}"
  }

  /** The match at the front of `s`, if any. */
  function LeadingMatch(s: string): (r: Option<nat>)
    ensures forall n: nat :: PatternAt(s, n) <==> r == Some(n)
  {
    if |s| >= 2 && s[0] == '{' && s[1] == '{' then
      var n := IndexOf(s[2..], '}');
      PatternIndex(s);
      if n >= 1 && n + 3 < |s| && s[n + 3] == '}' then
        assert s[2..][..n] == s[2..n + 2];
        assert s[n + 2..n + 4] == "}}";
        Some(n)
      else None
    else None
  }

  /** A match's name runs up to the first `}` after the opening `{{`. */
  lemma PatternIndex(s: string)
    ensures forall m: nat :: PatternAt(s, m) ==> IndexOf(s[2..], '}') == m
  {
    forall m: nat | PatternAt(s, m) ensures IndexOf(s[2..], '}') == m {
      var body := s[2..];
      assert body[m] == s[m + 2..m + 4][0] == '}';
      assert body[..m] == s[2..m + 2];
      IndexOfFirst(body, '}', m);
    }
  }

  /** Leftmost, non-overlapping matches, as a global regular-expression
      search finds them. */
  function RegexScan(s: string): seq<Token>
    decreases |s|
  {
    if |s| == 0 then []
    else match LeadingMatch(s)
      case Some(n) => [Hole(s[2..n + 2])] + RegexScan(s[n + 4..])
      case None => [Lit(s[0])] + RegexScan(s[1..])
  }

  /** The attempt that begins at the `{{` in front of `s`: the pattern's
      match there followed by a fresh scan, or the first `{` as text and a
      rescan from the character after it. */
  function Attempt(s: string): seq<Token>
    requires |s| >= 2
  {
    match LeadingMatch(s)
    case Some(n) => [Hole(s[2..n + 2])] + Run(s[n + 4..], Literal)
    case None => [Lit('{')] + Run(s[1..], Literal)
  }

  /** Inside a placeholder, the scanner finishes the attempt that began at
      the `{{` exactly as the pattern does. */
  lemma {:induction false} InsideRun(name: string, rest: string)
    requires '}' !in name
    ensures Run(rest, Inside(name)) == Attempt("{{" + name + rest)
    decreases |rest|
  {
    if |rest| > 0 && rest[0] != '}' {
      InsideRun(name + [rest[0]], rest[1..]);
      OpenShift(name, rest);
    } else {
      InsideClose(name, rest);
    }
  }

  lemma OpenShift(name: string, rest: string)
    requires |rest| > 0
    ensures "{{" + (name + [rest[0]]) + rest[1..] == "{{" + name + rest
  {
    assert rest == [rest[0]] + rest[1..];
    SeqAssoc(name, [rest[0]], rest[1..]);
    SeqAssoc("{{", name + [rest[0]], rest[1..]);
    SeqAssoc("{{", name, rest);
  }

  /** The pieces of the text an attempt began on. */
  lemma OpenSlices(name: string, rest: string)
    ensures var s := "{{" + name + rest;
      && s[2..] == name + rest
      && s[1..] == "{" + name + rest
      && s[2..|name| + 2] == name
      && (|rest| >= 2 ==> s[|name| + 4..] == rest[2..])
  {
  }

  /** Where the name stops, the attempt closes or is abandoned. */
  lemma InsideClose(name: string, rest: string)
    requires '}' !in name
    requires |rest| > 0 ==> rest[0] == '}'
    ensures Run(rest, Inside(name)) == Attempt("{{" + name + rest)
  {
    OpenSlices(name, rest);
    CloseMatch(name, rest);
  }

  /** The pattern's verdict on an attempt whose name has stopped. */
  lemma CloseMatch(name: string, rest: string)
    requires '}' !in name
    requires |rest| > 0 ==> rest[0] == '}'
    ensures LeadingMatch("{{" + name + rest) ==
              if |name| > 0 && |rest| >= 2 && rest[1] == '}' then Some(|name|) else None
  {
    var s := "{{" + name + rest;
    OpenSlices(name, rest);
    var body := s[2..];
    assert forall j :: 0 <= j < |name| ==> body[j] == name[j] && name[j] in name;
    if |rest| > 0 {
      assert body[|name|] == rest[0];
      IndexOfFirst(body, '}', |name|);
    } else {
      assert body == name;
      IndexOfNone(body, '}');
    }
  }

  /** The two-state scanner finds exactly the pattern's matches. */
  lemma {:induction false} ScanIsRegex(s: string)
    ensures Tokens(s) == RegexScan(s)
    decreases |s|
  {
    if |s| > 0 {
      if |s| >= 2 && s[0] == '{' && s[1] == '{' {
        InsideRun([], s[2..]);
        assert "{{" + [] + s[2..] == s;
        match LeadingMatch(s)
        case Some(n) => ScanIsRegex(s[n + 4..]);
        case None => ScanIsRegex(s[1..]);
      } else {
        ScanIsRegex(s[1..]);
      }
    }
  }

  /* --------------------------------------------------------- rendering */

  /** The text a token stands for. */
  function Source(t: Token): string {
    match t
    case Lit(c) => [c]
    case Hole(name) => "{{" + name + "}}"
  }

  function Render(ts: seq<Token>): string {
    if |ts| == 0 then [] else Source(ts[0]) + Render(ts[1..])
  }

  /** Every placeholder has a non-empty name free of `}`. */
  predicate HolesWellFormed(ts: seq<Token>) {
    forall k :: 0 <= k < |ts| && ts[k].Hole? ==> ts[k].name != [] && '}' !in ts[k].name
  }

  /** Scanning loses nothing: the tokens spell out the text, and every
      placeholder name is non-empty and free of `}`. */
  lemma {:induction false} RegexScanRender(s: string)
    ensures Render(RegexScan(s)) == s
    ensures HolesWellFormed(RegexScan(s))
    decreases |s|
  {
    if |s| > 0 {
      match LeadingMatch(s)
      case Some(n) =>
        ScanHoleStep(s, n);
        RegexScanRender(s[n + 4..]);
        RenderHole(s, n, RegexScan(s[n + 4..]));
      case None =>
        ScanLitStep(s);
        RegexScanRender(s[1..]);
        RenderLit(s, RegexScan(s[1..]));
    }
  }

  /** A match in front becomes one placeholder token. */
  lemma ScanHoleStep(s: string, n: nat)
    requires LeadingMatch(s) == Some(n)
    ensures PatternAt(s, n)
    ensures RegexScan(s) == [Hole(s[2..n + 2])] + RegexScan(s[n + 4..])
  {
    assert PatternAt(s, n);
    ScanHoleEq(s, n);
  }

  lemma ScanHoleEq(s: string, n: nat)
    requires LeadingMatch(s) == Some(n) && n + 4 <= |s|
    ensures RegexScan(s) == [Hole(s[2..n + 2])] + RegexScan(s[n + 4..])
  {
  }

  /** Without a match in front, the first character is literal text. */
  lemma ScanLitStep(s: string)
    requires |s| > 0 && LeadingMatch(s) == None
    ensures RegexScan(s) == [Lit(s[0])] + RegexScan(s[1..])
  {
  }

  lemma RenderHole(s: string, n: nat, tail: seq<Token>)
    requires PatternAt(s, n)
    requires Render(tail) == s[n + 4..] && HolesWellFormed(tail)
    ensures Render([Hole(s[2..n + 2])] + tail) == s
    ensures HolesWellFormed([Hole(s[2..n + 2])] + tail)
  {
    var ts := [Hole(s[2..n + 2])] + tail;
    assert ts[1..] == tail;
    Slices4(s, 2, n + 2, n + 4);
    HoleText(s[..2], s[2..n + 2], s[n + 2..n + 4], s[n + 4..], tail);
    HolesCons(Hole(s[2..n + 2]), tail);
  }

  lemma HoleText(open: string, name: string, close: string, after: string, tail: seq<Token>)
    requires open == "{{" && close == "}}" && Render(tail) == after
    ensures Render([Hole(name)] + tail) == open + name + close + after
  {
    assert ([Hole(name)] + tail)[1..] == tail;
  }

  /** A sequence is the concatenation of four consecutive slices. */
  lemma Slices4<T>(s: seq<T>, i: nat, j: nat, k: nat)
    requires i <= j <= k <= |s|
    ensures s == s[..i] + s[i..j] + s[j..k] + s[k..]
  {
    assert s[..j] == s[..i] + s[i..j];
    assert s[..k] == s[..j] + s[j..k];
  }

  lemma HolesCons(t: Token, tail: seq<Token>)
    requires t.Hole? ==> t.name != [] && '}' !in t.name
    requires HolesWellFormed(tail)
    ensures HolesWellFormed([t] + tail)
  {
    assert forall k :: 1 <= k < |[t] + tail| ==> ([t] + tail)[k] == tail[k - 1];
  }

  lemma RenderLit(s: string, tail: seq<Token>)
    requires |s| > 0
    requires Render(tail) == s[1..] && HolesWellFormed(tail)
    ensures Render([Lit(s[0])] + tail) == s
    ensures HolesWellFormed([Lit(s[0])] + tail)
  {
    var ts := [Lit(s[0])] + tail;
    assert ts[1..] == tail;
    assert s == [s[0]] + s[1..];
    HolesCons(Lit(s[0]), tail);
  }

  lemma TokensRender(text: string)
    ensures Render(Tokens(text)) == text
    ensures HolesWellFormed(Tokens(text))
  {
    ScanIsRegex(text);
    RegexScanRender(text);
  }

  /** The characters of `a`, each as literal text. */
  function Lits(a: string): (r: seq<Token>)
    ensures |r| == |a|
    ensures forall i :: 0 <= i < |a| ==> r[i] == Lit(a[i])
    decreases |a|
  {
    if |a| == 0 then [] else [Lit(a[0])] + Lits(a[1..])
  }

  /** Text free of `{` scans to its characters. */
  lemma {:induction false} RegexScanLiteral(a: string, b: string)
    requires '{' !in a
    ensures RegexScan(a + b) == Lits(a) + RegexScan(b)
    decreases |a|
  {
    if |a| > 0 {
      assert a[0] in a;
      LitStep(a + b, a[1..] + b);
      RegexScanLiteral(a[1..], b);
      SeqAssoc([Lit(a[0])], Lits(a[1..]), RegexScan(b));
    } else {
      assert a + b == b;
    }
  }

  /** A character other than `{` is scanned as itself. */
  lemma LitStep(s: string, tail: string)
    requires |s| > 0 && s[0] != '{' && s[1..] == tail
    ensures RegexScan(s) == [Lit(s[0])] + RegexScan(tail)
  {
  }

  /** A well-formed placeholder at the front scans to one token. */
  lemma RegexScanPlaceholder(name: string, b: string)
    requires name != [] && '}' !in name
    ensures RegexScan("{{" + name + "}}" + b) == [Hole(name)] + RegexScan(b)
  {
    var s := "{{" + name + "}}" + b;
    var n := |name|;
    assert s[..2] == "{{" && s[2..n + 2] == name && s[n + 2..n + 4] == "}}";
    assert PatternAt(s, n);
    assert s[n + 4..] == b;
  }

  /* ----------------------------------------------------------- extraction */

  /** The raw placeholder names, in order. */
  function Names(ts: seq<Token>): (r: seq<string>)
    ensures forall x :: x in r <==> exists k :: 0 <= k < |ts| && ts[k].Hole? && ts[k].name == x
  {
    if |ts| == 0 then []
    else
      var rest := Names(ts[1..]);
      assert forall k :: 1 <= k < |ts| ==> ts[k] == ts[1..][k - 1];
      (if ts[0].Hole? then [ts[0].name] else []) + rest
  }

  /** One iteration of the `extractVariables` loop on a trimmed name: keep
      it if it is non-empty and not yet collected. */
  function Push(acc: seq<string>, v: string): seq<string> {
    if v != [] && v !in acc then acc + [v] else acc
  }

  /** The loop of `extractVariables` over the remaining trimmed names. */
  function Collect(names: seq<string>, acc: seq<string>): seq<string> {
    if |names| == 0 then acc
    else Collect(names[1..], Push(acc, names[0]))
  }

  /** The accumulator after the loop has seen `names`. */
  function Gathered(names: seq<string>): seq<string> {
    if |names| == 0 then []
    else Push(Gathered(names[..|names| - 1]), names[|names| - 1])
  }

  lemma {:induction false} CollectGathered(done: seq<string>, names: seq<string>)
    ensures Collect(names, Gathered(done)) == Gathered(done + names)
    decreases |names|
  {
    if |names| == 0 {
      assert done + names == done;
    } else {
      var done' := done + [names[0]];
      assert done'[..|done'| - 1] == done;
      assert Gathered(done') == Push(Gathered(done), names[0]);
      CollectGathered(done', names[1..]);
      assert done' + names[1..] == done + names;
    }
  }

  /** The distinct non-empty names, each at its first occurrence. */
  function DistinctNames(names: seq<string>): seq<string> {
    Dedupe(Filter(names, NonEmpty))
  }

  /** One more name extends the distinct names exactly as one iteration of
      the loop extends its accumulator. */
  lemma DistinctNamesAppend(done: seq<string>, v: string)
    ensures DistinctNames(done + [v]) == Push(DistinctNames(done), v)
  {
    var f := Filter(done, NonEmpty);
    FilterAppend(done, v, NonEmpty);
    if v != [] {
      var f' := f + [v];
      assert Filter(done + [v], NonEmpty) == f';
      assert f'[..|f'| - 1] == f && f'[|f'| - 1] == v;
      assert Dedupe(f') == if v in Dedupe(f) then Dedupe(f) else Dedupe(f) + [v];
    } else {
      assert Filter(done + [v], NonEmpty) == f;
    }
  }

  lemma {:induction false} GatheredDistinct(names: seq<string>)
    ensures Gathered(names) == DistinctNames(names)
    decreases |names|
  {
    if |names| == 0 {
      assert DistinctNames(names) == [];
    } else {
      var n := names[..|names| - 1];
      GatheredDistinct(n);
      DistinctNamesAppend(n, names[|names| - 1]);
      assert n + [names[|names| - 1]] == names;
    }
  }

  lemma CollectFromEmpty(names: seq<string>)
    ensures Collect(names, []) == DistinctNames(names)
  {
    CollectGathered([], names);
    assert [] + names == names;
    GatheredDistinct(names);
  }

  /** The trimmed names are the trimmed names of the placeholders. */
  lemma TrimmedNames(ts: seq<Token>)
    ensures forall v :: v in TrimEach(Names(ts)) <==>
              exists k :: 0 <= k < |ts| && ts[k].Hole? && Trim(ts[k].name) == v
  {
    var names := Names(ts);
    var trimmed := TrimEach(names);
    forall v ensures v in trimmed <==> exists k :: 0 <= k < |ts| && ts[k].Hole? && Trim(ts[k].name) == v {
      if v in trimmed {
        var i :| 0 <= i < |trimmed| && trimmed[i] == v;
        assert names[i] in names;
      }
      if exists k :: 0 <= k < |ts| && ts[k].Hole? && Trim(ts[k].name) == v {
        var k :| 0 <= k < |ts| && ts[k].Hole? && Trim(ts[k].name) == v;
        assert ts[k].name in names;
        var i :| 0 <= i < |names| && names[i] == ts[k].name;
        assert trimmed[i] == v;
      }
    }
  }

  /** The distinct names hold each non-empty name once. */
  lemma DistinctNamesMembers(names: seq<string>)
    ensures Distinct(DistinctNames(names))
    ensures forall v :: v in DistinctNames(names) <==> v != [] && v in names
  {
    DedupeMembers(Filter(names, NonEmpty));
    FilterMembers(names, NonEmpty);
  }

  /** A trimmed placeholder name is trimmed and holds no closing brace. */
  lemma TrimmedNamesShape(ts: seq<Token>)
    requires HolesWellFormed(ts)
    ensures forall v :: v in TrimEach(Names(ts)) ==> IsTrimmed(v) && '}' !in v
  {
    TrimmedNames(ts);
    forall v | v in TrimEach(Names(ts)) ensures IsTrimmed(v) && '}' !in v {
      var k :| 0 <= k < |ts| && ts[k].Hole? && Trim(ts[k].name) == v;
      TrimSubset(ts[k].name);
    }
  }

  lemma DistinctNamesSpec(ts: seq<Token>)
    requires HolesWellFormed(ts)
    ensures var r := DistinctNames(TrimEach(Names(ts)));
      && Distinct(r)
      && (forall i :: 0 <= i < |r| ==> r[i] != [] && IsTrimmed(r[i]) && '}' !in r[i])
      && (forall v :: v in r <==> v != [] && exists k :: 0 <= k < |ts| && ts[k].Hole? && Trim(ts[k].name) == v)
  {
    var trimmed := TrimEach(Names(ts));
    var r := DistinctNames(trimmed);
    DistinctNamesMembers(trimmed);
    TrimmedNames(ts);
    TrimmedNamesShape(ts);
    forall i | 0 <= i < |r| ensures r[i] != [] && IsTrimmed(r[i]) && '}' !in r[i] {
      assert r[i] in r;
    }
  }

  /** `extractVariables`: the distinct non-empty trimmed placeholder names. */
  function ExtractVariables(text: string): (r: seq<string>)
    ensures Distinct(r)
    ensures forall i :: 0 <= i < |r| ==> r[i] != [] && IsTrimmed(r[i]) && '}' !in r[i]
    ensures forall v :: v in r <==>
              v != [] && exists k :: 0 <= k < |Tokens(text)| && Tokens(text)[k].Hole? && Trim(Tokens(text)[k].name) == v
  {
    var names := TrimEach(Names(Tokens(text)));
    CollectFromEmpty(names);
    TokensRender(text);
    DistinctNamesSpec(Tokens(text));
    Collect(names, [])
  }

  /** The loop computes the de-duplicated list of non-empty trimmed names. */
  lemma ExtractVariablesReference(text: string)
    ensures ExtractVariables(text) == Dedupe(Filter(TrimEach(Names(Tokens(text))), NonEmpty))
  {
    CollectFromEmpty(TrimEach(Names(Tokens(text))));
  }

  /** The variables come in the order of their first occurrence. */
  lemma ExtractVariablesOrder(text: string, i: nat, j: nat)
    requires i < j < |ExtractVariables(text)|
    ensures var names := TrimEach(Names(Tokens(text)));
      ExtractVariables(text)[i] in names && ExtractVariables(text)[j] in names &&
      FirstIndex(names, ExtractVariables(text)[i]) < FirstIndex(names, ExtractVariables(text)[j])
  {
    ExtractVariablesReference(text);
    DedupeFilterOrder(TrimEach(Names(Tokens(text))), NonEmpty, i, j);
  }

  /* ------------------------------------------------------------ detection */

  /** `hasVariables`: the scan finds a placeholder. */
  predicate HasVariables(text: string) {
    exists k :: 0 <= k < |Tokens(text)| && Tokens(text)[k].Hole?
  }

  lemma {:induction false} RegexScanHole(s: string)
    ensures (exists k :: 0 <= k < |RegexScan(s)| && RegexScan(s)[k].Hole?) <==>
            exists p, n :: 0 <= p <= |s| && PatternAt(s[p..], n)
    decreases |s|
  {
    if |s| > 0 {
      var ts := RegexScan(s);
      match LeadingMatch(s)
      case Some(n) =>
        assert s[0..] == s;
        assert ts[0].Hole?;
      case None =>
        var tail := RegexScan(s[1..]);
        RegexScanHole(s[1..]);
        assert ts[1..] == tail;
        if exists k :: 0 <= k < |ts| && ts[k].Hole? {
          var k :| 0 <= k < |ts| && ts[k].Hole?;
          assert tail[k - 1].Hole?;
          var p, n :| 0 <= p <= |s[1..]| && PatternAt(s[1..][p..], n);
          assert s[1..][p..] == s[p + 1..];
        }
        if exists p, n :: 0 <= p <= |s| && PatternAt(s[p..], n) {
          var p, n :| 0 <= p <= |s| && PatternAt(s[p..], n);
          assert p != 0 by {
            assert s[0..] == s;
          }
          assert s[1..][p - 1..] == s[p..];
          var k :| 0 <= k < |tail| && tail[k].Hole?;
          assert ts[k + 1].Hole?;
        }
    } else {
      forall p, n | 0 <= p <= |s| ensures !PatternAt(s[p..], n) {
      }
    }
  }

  /** The scan finds a placeholder exactly when the pattern occurs somewhere. */
  lemma HasVariablesPattern(text: string)
    ensures HasVariables(text) <==> exists p, n :: 0 <= p <= |text| && PatternAt(text[p..], n)
  {
    ScanIsRegex(text);
    RegexScanHole(text);
  }

  /** Every extracted variable comes from a placeholder. */
  lemma ExtractImpliesHas(text: string)
    ensures |ExtractVariables(text)| > 0 ==> HasVariables(text)
  {
    if |ExtractVariables(text)| > 0 {
      assert ExtractVariables(text)[0] in ExtractVariables(text);
    }
  }

  /** The converse fails: a blank name is a placeholder but no variable. */
  lemma BlankNameCounterexample()
    ensures HasVariables("{{ }}") && ExtractVariables("{{ }}") == []
  {
    BlankNameTokens();
    ExtractVariablesReference("{{ }}");
    BlankNameDistinct([Hole(" ")]);
  }

  lemma BlankNameDistinct(ts: seq<Token>)
    requires ts == [Hole(" ")]
    ensures DistinctNames(TrimEach(Names(ts))) == []
  {
    assert Names(ts) == [" "];
    assert Trim(" ") == [];
    assert TrimEach([" "]) == [[]];
    assert Filter([[]], NonEmpty) == [];
  }

  lemma BlankNameTokens()
    ensures Tokens("{{ }}") == [Hole(" ")]
  {
    RegexScanPlaceholder(" ", "");
    assert "{{" + " " + "}}" + "" == "{{ }}";
    ScanIsRegex("{{ }}");
  }

  /** An opening `{{` that is never closed by `}}` contributes nothing:
      text without `}` has no placeholder. */
  lemma NoCloseNoVariables(text: string)
    requires '}' !in text
    ensures !HasVariables(text)
    ensures ExtractVariables(text) == []
  {
    HasVariablesPattern(text);
    forall p, n | 0 <= p <= |text| ensures !PatternAt(text[p..], n) {
      assert forall i :: 0 <= i < |text[p..]| ==> text[p..][i] in text;
      NoClosePattern(text[p..], n);
    }
    ExtractImpliesHas(text);
  }

  lemma NoClosePattern(s: string, n: nat)
    requires '}' !in s
    ensures !PatternAt(s, n)
  {
    if n + 4 <= |s| {
      assert s[n + 2..n + 4][0] == s[n + 2];
      assert s[n + 2] in s;
    }
  }

  /* ---------------------------------------------------------- substitution */

  /** What one placeholder becomes: the value of its trimmed name when that
      value is a non-empty string, otherwise the placeholder verbatim (the
      fallback is `||`, so an empty value counts as missing). The map holds
      the values object's own properties only; names inherited from
      `Object.prototype` are not in it. */
  function Replacement(name: string, values: map<string, string>): string {
    var v := Trim(name);
    if v in values && values[v] != [] then values[v] else "{{" + name + "}}"
  }

  /** What one token becomes. */
  function Piece(t: Token, values: map<string, string>): string {
    match t
    case Lit(c) => [c]
    case Hole(name) => Replacement(name, values)
  }

  function Expand(ts: seq<Token>, values: map<string, string>): string {
    if |ts| == 0 then [] else Piece(ts[0], values) + Expand(ts[1..], values)
  }

  lemma ExpandCons(t: Token, rest: seq<Token>, values: map<string, string>)
    ensures Expand([t] + rest, values) == Piece(t, values) + Expand(rest, values)
  {
    assert ([t] + rest)[1..] == rest;
  }

  /** When no placeholder finds a non-empty value, expanding is rendering. */
  lemma {:induction false} ExpandNoValues(ts: seq<Token>, values: map<string, string>)
    requires forall v :: v in values ==> values[v] == []
    ensures Expand(ts, values) == Render(ts)
  {
    if |ts| > 0 {
      ExpandNoValues(ts[1..], values);
    }
  }

  /** `substituteVariables`. */
  function SubstituteVariables(text: string, values: map<string, string>): (r: string)
    ensures (forall v :: v in values ==> values[v] == []) ==> r == text
    ensures values == map[] ==> r == text
  {
    SubstituteBlank(text, values);
    Expand(Tokens(text), values)
  }

  lemma SubstituteBlank(text: string, values: map<string, string>)
    ensures (forall v :: v in values ==> values[v] == []) ==> Expand(Tokens(text), values) == text
  {
    if forall v :: v in values ==> values[v] == [] {
      ExpandNoValues(Tokens(text), values);
      TokensRender(text);
    }
  }

  /** Text free of placeholders is left alone whatever the values. */
  lemma {:induction false} ExpandNoHoles(ts: seq<Token>, values: map<string, string>)
    requires forall k :: 0 <= k < |ts| ==> ts[k].Lit?
    ensures Expand(ts, values) == Render(ts)
  {
    if |ts| > 0 {
      ExpandNoHoles(ts[1..], values);
    }
  }

  lemma SubstituteNoVariables(text: string, values: map<string, string>)
    requires !HasVariables(text)
    ensures SubstituteVariables(text, values) == text
  {
    ExpandNoHoles(Tokens(text), values);
    TokensRender(text);
  }

  lemma {:induction false} ExpandConcat(a: seq<Token>, b: seq<Token>, values: map<string, string>)
    ensures Expand(a + b, values) == Expand(a, values) + Expand(b, values)
    decreases |a|
  {
    if |a| > 0 {
      ExpandConcat(a[1..], b, values);
      ExpandCons(a[0], a[1..], values);
      ExpandCons(a[0], a[1..] + b, values);
      ConsConcat(a, b);
      SeqAssoc(Piece(a[0], values), Expand(a[1..], values), Expand(b, values));
    } else {
      assert a + b == b;
    }
  }

  lemma ConsConcat<T>(a: seq<T>, b: seq<T>)
    requires |a| > 0
    ensures [a[0]] + a[1..] == a
    ensures [a[0]] + (a[1..] + b) == a + b
  {
    assert [a[0]] + a[1..] == a;
    SeqAssoc([a[0]], a[1..], b);
  }

  /** Literal text in front of the rest of a template is kept verbatim. */
  lemma SubstituteLiteral(a: string, b: string, values: map<string, string>)
    requires '{' !in a
    ensures SubstituteVariables(a + b, values) == a + SubstituteVariables(b, values)
  {
    ScanIsRegex(a + b);
    ScanIsRegex(b);
    RegexScanLiteral(a, b);
    var lits := Lits(a);
    ExpandConcat(lits, RegexScan(b), values);
    ExpandNoHoles(lits, values);
    LitsRender(a);
  }

  lemma {:induction false} LitsRender(a: string)
    ensures Render(Lits(a)) == a
    decreases |a|
  {
    if |a| > 0 {
      LitsRender(a[1..]);
      assert Lits(a)[1..] == Lits(a[1..]);
      assert a == [a[0]] + a[1..];
    }
  }

  /** A placeholder in front is replaced by its value when its trimmed name
      has a non-empty value, and kept verbatim otherwise. */
  lemma SubstitutePlaceholder(name: string, b: string, values: map<string, string>)
    requires name != [] && '}' !in name
    ensures Trim(name) in values && values[Trim(name)] != [] ==>
              SubstituteVariables("{{" + name + "}}" + b, values) == values[Trim(name)] + SubstituteVariables(b, values)
    ensures !(Trim(name) in values && values[Trim(name)] != []) ==>
              SubstituteVariables("{{" + name + "}}" + b, values) == "{{" + name + "}}" + SubstituteVariables(b, values)
  {
    var s := "{{" + name + "}}" + b;
    ScanIsRegex(s);
    ScanIsRegex(b);
    RegexScanPlaceholder(name, b);
    assert Expand([Hole(name)] + RegexScan(b), values) == Replacement(name, values) + Expand(RegexScan(b), values) by {
      assert ([Hole(name)] + RegexScan(b))[1..] == RegexScan(b);
    }
  }
}

=== FILE: wrappers.dfy ===
/** Option and Result, the two failure-carrying datatypes the model uses:
    Option for JavaScript's `null`/`undefined` results, Result for thrown errors. */
module Wrappers {

  datatype Option<+T> = None | Some(value: T) {

    /** Returns the value encapsulated in Some or a default value if None */
    function GetOr(default: T): T {
      match this
      case Some(v) => v
      case None => default
    }
  }

  datatype Result<+R, +E> = Success(value: R) | Failure(error: E)
}
